=== FILE: README.md ===
# NoSE index advisor core, modelled in Dafny

NoSE recommends a schema for a NoSQL store: a set of indexes (materialised column
families) chosen to answer a workload's statements at the least estimated cost within a
space budget. This project models three parts of it:

- **`Index` and its cost model** (`lib/indexes.rb`). The two-argument index is an ordered
  key list plus extra stored fields. Each key field maps to the key it is laid out over.
  The model covers equality, field containment, entry size, size, whether an index can
  answer a query, the query cost estimate, and the view and simple index built from a
  statement and an entity.
- **The index enumerator** (`lib/nose/enumerator.rb`, `IndexEnumerator`):
  - Per statement and per subgraph of its join path: the equality-key choices, order
    choices and extra-field choices, their product, and the split of every key into hash
    and order fields.
  - Per workload: the support-query indexes and the pairwise combination of
    indexes that share hash fields and graph.
- **The search** (`lib/sadvisor/search.rb`):
  - Each query plan is grouped into steps per index.
  - A cost table per statement maps an index position to the indexes used jointly and
    the step cost. A later plan overwrites an earlier one.
  - From that table it builds the 0/1 integer program: usage implies selection, the
    space budget, joint use, exactly one index per path part, and the objective.
  - The solver's answer is read back into the selected indexes.

Modules, one per file:

| file | module | contents |
|---|---|---|
| `collections.dfy` | `Collections` | `Option`/`Result`, `uniq`, `-`, `flatten`, `take_while`, `index`, `flat_map`, sub-sequences |
| `combinatorics.dfy` | `Combinatorics` | Ruby's `permutation(n)`, `combination(n)`, `prefixes`, `partitions` as sequences |
| `schema.dfy` | `Schema` | entities, fields, statements, query graphs, `sort_by(&:name)` |
| `indexes.dfy` | `Indexes` | the two-argument `Index` of `lib/indexes.rb` |
| `candidates.dfy` | `Candidates` | the four-argument index the enumerator builds, and its validity rule |
| `choices.dfy` | `Choices` | `group_by(&:parent)` tables, `eq_choices`, order and extra choices |
| `enumerator.dfy` | `Enumerator` | `indexes_for_graph` … `indexes_for_workload`, `combine_indexes` |
| `search.dfy` | `Search` | step grouping, cost tables, the integer program, `solve_gurobi`, `search_overlap` |

Ruby's `nil` results and exceptions are modelled explicitly:
- `Option` stands for a missing hash entry or an invalid index.
- `Result` stands for `NoSolutionException`, or a malformed plan that would make the
  source raise.

Floating-point arithmetic is modelled with `real`.

## Model

| member | source | states |
|---|---|---|
| Indexes.NewIndex | lib/indexes.rb:7-18 | the index keeps the fields and extra in order; each key field is mapped to its parent's first id field (an empty key when the parent has none), and a field outside the key has no mapping |
| Indexes.NewIndexKeyShape | lib/indexes.rb:12-15 | a key field's mapped key is exactly the parent's first id field, or empty when the parent has no id fields |
| Indexes.SetFieldKeys | lib/indexes.rb:26-32 | after remapping, `keys_for_field` returns the new keys for that field and is unchanged for every other field; fields and extra are untouched |
| Indexes.RemappingBreaksEquality | lib/indexes.rb:20-28 | `==` compares the field-key map too: an index is equal to itself, and remapping a key field to a different key makes it unequal |
| Indexes.ContainsField | lib/indexes.rb:38-40 | a field is contained exactly when it is in the key fields or the extra fields |
| Indexes.EntrySize | lib/indexes.rb:42-44 | entry size is the sum of the sizes of the key fields plus the sum over the extra fields |
| Indexes.EntrySizeCountsBothLists | lib/indexes.rb:42-44 | a field listed both as key and as extra is counted twice |
| Indexes.SumSizesAppend | lib/indexes.rb:43 | summing sizes distributes over concatenation |
| Indexes.ProdCardAppend | lib/indexes.rb:47 | the cardinality product over a key split in two is the product of the two parts' products |
| Indexes.SizeBounds | lib/indexes.rb:46-48 | size is at least the entry size when every key cardinality is positive, and 0 when some key field has cardinality 0 |
| Indexes.SizeOfSingleKey | lib/indexes.rb:46-48 | with one key field of cardinality n, size is entry size times n |
| Indexes.SupportsPredicates | lib/indexes.rb:50-85 | true exactly when every selected field is stored, the range field is the last key field, every equality field is a key field, the order-by fields are the key's suffix, and every predicate field maps to its entity's key |
| Indexes.EqFactorNonNegative | lib/indexes.rb:100-103 | the product of the equality fields' `cardinality / count` shares is never negative |
| Indexes.EqFactorAtMostOne | lib/indexes.rb:100-103 | the product of the shares is at most 1 when no field's cardinality exceeds its entity's count |
| Indexes.EqFactorCons | lib/indexes.rb:100-103 | one more equality field multiplies the product by exactly its share, so never raises it when its cardinality is at most its entity's count |
| Indexes.EqFactorAppend | lib/indexes.rb:100-103 | the product over two lists of equality fields is the product of the two products |
| Indexes.SharesAppend | lib/indexes.rb:101-102 | the shares of two lists of equality fields are the shares of the first followed by those of the second |
| Indexes.ProductAppend | lib/indexes.rb:103 | the product of a concatenation is the product of the parts' products |
| Indexes.QueryCostNonNegative | lib/indexes.rb:92-111 | the cost estimate is never negative |
| Indexes.QueryCostAtMostFullScan | lib/indexes.rb:92-111 | the estimate never exceeds reading every row of the `from` entity at the index's entry size when no equality field's cardinality exceeds its entity's count |
| Indexes.QueryCostAddsEquality | lib/indexes.rb:100-104 | adding an equality predicate on field f multiplies the estimate by exactly `f.cardinality / f.parent.count` |
| Indexes.RangeCostIsOneThird | lib/indexes.rb:106-108 | a range predicate makes the cost exactly one third of the same query without it |
| Indexes.UnfilteredCostIsFullScan | lib/indexes.rb:101-104 | with no predicates the cost is the `from` entity's row count times the entry size |
| Indexes.MaterializeView | lib/indexes.rb:116-129 | the view's key is equality fields, then the range field, then the order-by fields; extra is the selected fields not in the key; every selected field is contained |
| Indexes.MaterializedViewSupportsQuery | lib/indexes.rb:116-129 | the view supports its own statement when its key fields map to id keys and the statement has no range, no order-by, or an order-by ending in the range field |
| Indexes.MaterializedViewRejectsRangeWithOrder | lib/indexes.rb:59-75 | a statement with a range and an order-by whose last field is not the range field is not supported by its own view |
| Indexes.SimpleIndex | lib/indexes.rb:133-136 | the simple index maps identities of its entity, contains every field of it, and its extra fields are the entity's non-id fields |
| Indexes.SimpleIndexKeys | lib/indexes.rb:133-136 | each id field of the simple index maps to the entity's first id field |
| Candidates.GenerateIndex | lib/nose/enumerator.rb:178-188 | an index is produced exactly when the hash fields are non-empty, of one entity, and the fields touch both ends of the path; it keeps hash and extra as sets and the order de-duplicated |
| Candidates.ConstructorAccepts | spec/indexes_spec.rb:28-38 | the TweetId-keyed index with Body as extra over the Tweet path is valid |
| Candidates.ConstructorRejects | spec/indexes_spec.rb:102-131 | empty hash fields, hash fields of two entities, and fields missing the start or the end of the path are each rejected |
| Schema.SortByName | lib/nose/enumerator.rb:153 | sorting entities by name is a permutation of the input and ordered by name |
| Schema.InsertByNameSorted | lib/nose/enumerator.rb:153 | inserting into a name-sorted list keeps it sorted |
| Collections.Dedup | lib/nose/enumerator.rb:31 | `uniq` keeps exactly the input's elements, without duplicates |
| Collections.DedupKeepsFirstOrder | lib/nose/enumerator.rb:31 | `uniq` lists the elements in the order of their first occurrences in the input |
| Collections.IndexOfSnoc | lib/sadvisor/search.rb:167 | appending an element leaves every earlier element's first position unchanged and puts a new element's at the end |
| Collections.DedupOfNoDup | lib/nose/enumerator.rb:48-50 | `uniq` leaves a duplicate-free list unchanged |
| Collections.Minus | lib/nose/enumerator.rb:163 | `a - b` is an in-order sub-sequence of `a` holding every occurrence of each element not in `b`, as many times as `a` does, and no element of `b` |
| Collections.TakeWhile | lib/nose/enumerator.rb:158-160 | `take_while` gives the longest prefix whose elements all pass the test |
| Collections.IndexOf | lib/sadvisor/search.rb:167 | `index` finds the first position holding the element, and nothing exactly when it is absent |
| Collections.Flatten | lib/nose/enumerator.rb:116 | `flatten` holds exactly the elements of the inner lists |
| Combinatorics.ArrangementsExact | lib/nose/enumerator.rb:110-111 | `permutation(n)` of a duplicate-free list gives exactly the duplicate-free length-n lists over its elements |
| Combinatorics.ArrangementsNoDup | lib/nose/enumerator.rb:110-111 | `permutation(n)` of a duplicate-free list repeats no arrangement |
| Combinatorics.AllArrangementsExact | lib/nose/enumerator.rb:110-112 | permutations of every length from 1 give exactly the non-empty duplicate-free lists over the elements |
| Combinatorics.CombinationsExact | lib/nose/enumerator.rb:142-144 | `combination(n)` gives exactly the length-n sub-sequences |
| Combinatorics.PairsExact | lib/nose/enumerator.rb:93 | `combination(2)` gives exactly the pairs taken in list order |
| Combinatorics.PartitionsMembers | lib/nose/enumerator.rb:157 | `partitions` gives exactly the splits of the list into a prefix and the rest |
| Choices.GroupByParent | lib/nose/enumerator.rb:23-27 | `group_by(&:parent)` has one non-empty group per entity, holding exactly that entity's fields; absent entities give `[]` |
| Choices.Store | lib/nose/enumerator.rb:108-109 | writing a present entity's group changes only that group; an absent entity is not stored, as with a default proc |
| Choices.EntityFields | lib/nose/enumerator.rb:108-109 | an entity's equality fields plus its id field, duplicate-free and non-empty |
| Choices.EntityChoicesExact | lib/nose/enumerator.rb:106-113 | the per-entity choices are exactly the non-empty arrangements of one entity's equality-and-id fields |
| Choices.JoinedChoicesSound | lib/nose/enumerator.rb:115-116 | every joined choice is the flattening of lo..hi entity choices, distinct ones when the entity choices are |
| Choices.JoinedChoicesComplete | lib/nose/enumerator.rb:115-116 | every arrangement of lo..hi entity choices is joined |
| Choices.EqChoicesNonEmpty | lib/nose/enumerator.rb:105-118 | no equality choice is empty |
| Choices.EntityChoicesNoDup | lib/nose/enumerator.rb:106-113 | when every listed field and id field belongs to its entity, the per-entity choices repeat nothing |
| Choices.EqChoicesSound | lib/nose/enumerator.rb:105-118 | each equality choice is one entity key or a flattened arrangement of 2..N entity keys, distinct keys when the entities own their fields |
| Choices.EntityKeyIsEqChoice | lib/nose/enumerator.rb:117 | every single-entity key is an equality choice |
| Choices.CompoundKeyIsEqChoice | lib/nose/enumerator.rb:115-116 | every arrangement of 2..N distinct entity keys, flattened, is an equality choice |
| Choices.IdFieldIsEqChoice | lib/nose/enumerator.rb:108 | an entity's id field alone is always an equality choice |
| Choices.RangeFields | lib/nose/enumerator.rb:136-137 | the graph's range fields, duplicate-free, are exactly the range fields of its entities |
| Choices.LookupAllInGraphOrder | lib/nose/enumerator.rb:136 | the concatenated range lists are the entities' lists in graph order, each in its group's order |
| Choices.RangeFieldsOrder | lib/nose/enumerator.rb:136-137 | the range fields come in the order of their first occurrence in that concatenation |
| Choices.OrderChoicesExact | lib/nose/enumerator.rb:138-140 | order choices are `[]` and exactly the full arrangements of each non-empty prefix of the range fields |
| Choices.OrderChoicesNoDup | lib/nose/enumerator.rb:138-140 | order choices contain no repeats |
| Choices.RawExtraChoices | lib/nose/enumerator.rb:122-130 | the raw extra choices are the non-empty equality groups, range groups and select list, then `[]` last |
| Choices.MergedCombinationsMembers | lib/nose/enumerator.rb:142-144 | the merged combinations of sizes lo..hi are exactly the de-duplicated flattenings of those sub-sequences |
| Choices.ExtraChoices | lib/nose/enumerator.rb:142-144 | the extra choices repeat nothing, and each is duplicate-free |
| Choices.ExtraChoicesExact | lib/nose/enumerator.rb:142-144 | the extra choices are exactly the de-duplicated flattenings of non-empty sub-sequences of the raw choices |
| Choices.EmptyExtraChoice | lib/nose/enumerator.rb:129 | storing no extra fields is always a choice |
| Choices.SelectIsExtraChoice | lib/nose/enumerator.rb:123 | the statement's select list, de-duplicated, is always a choice |
| Enumerator.CompleteOrder | lib/nose/enumerator.rb:152-154 | the completed order starts with the chosen order; every graph entity's id field ends up in key or order; appended ids are new and in name order |
| Enumerator.LeadingRun | lib/nose/enumerator.rb:158-160 | the hash fields are the longest leading run of the key prefix's first entity: non-empty, all of that entity, and followed (if at all) by a field of another entity |
| Enumerator.CandidateShape | lib/nose/enumerator.rb:157-168 | each candidate is valid, its hash fields share the key's first entity, its extra avoids hash and order, it is not empty past the hash, and hash plus order hold exactly key plus order |
| Enumerator.GeneratedShape | lib/nose/enumerator.rb:178-188 | a generated index keeps the hash and order fields, exactly the extra fields, and is non-empty past the hash exactly when its inputs are |
| Enumerator.KeyCandidatesMembers | lib/nose/enumerator.rb:157-169 | the candidates for a key are exactly the valid indexes from its prefix/suffix splits with the completed order |
| Enumerator.ProductCandidatesExact | lib/nose/enumerator.rb:147-173 | the product over keys, extras and orders gives exactly the union of the per-choice candidates |
| Enumerator.GraphCandidatesExact | lib/nose/enumerator.rb:134-174 | a graph's candidates are exactly those of some equality, extra and order choice |
| Enumerator.IndexesForGraph | lib/nose/enumerator.rb:134-174 | the equality table passed on to the next subgraph has the same entities |
| Enumerator.KeyCandidateWellShaped | lib/nose/enumerator.rb:152-168 | each candidate is valid for its graph and covers every graph entity's id in hash or order |
| Enumerator.GraphCandidatesWellShaped | lib/nose/enumerator.rb:134-174 | every candidate of a graph is well-shaped for that graph |
| Enumerator.SubgraphCandidatesWellShaped | lib/nose/enumerator.rb:29-31 | every candidate over the subgraphs is well-shaped for one of them |
| Enumerator.RangeList | lib/nose/enumerator.rb:17-21 | the range list is the order-by fields, preceded by the range field when there is one |
| Enumerator.IndexesForQuery | lib/nose/enumerator.rb:14-32 | the statement's indexes end with its materialised view and are duplicate-free before it |
| Enumerator.QueryIndexesWellShaped | lib/nose/enumerator.rb:14-32 | each of a statement's indexes is its view or well-shaped for one of its subgraphs |
| Enumerator.QueriesIndexesMembers | lib/nose/enumerator.rb:37-40 | the workload's statement indexes are exactly the union of each statement's |
| Enumerator.UpdateSupport | lib/nose/enumerator.rb:68-70 | the support statements of one index are exactly those some update asks for |
| Enumerator.SupportQueries | lib/nose/enumerator.rb:67-71 | the support statements of a list are exactly those of some index and update |
| Enumerator.SupportIndexesMembers | lib/nose/enumerator.rb:65-78 | support indexes are exactly the indexes of some support statement of some index |
| Enumerator.IndexesForWorkload | lib/nose/enumerator.rb:36-59 | the workload's index list has no duplicates |
| Enumerator.WorkloadMembers | lib/nose/enumerator.rb:36-59 | the workload's indexes are exactly the enumerated ones and the merges of combinable pairs with different extras |
| Enumerator.WorkloadCoversQueries | lib/nose/enumerator.rb:37-40 | every additional index and every statement index is in the workload's indexes |
| Enumerator.WorkloadCoversSupport | lib/nose/enumerator.rb:42-45 | indexes for support statements, and for the support statements of those, are included |
| Enumerator.WorkloadIndexesValid | lib/nose/enumerator.rb:36-59 | every workload index is valid when the views and additional indexes are |
| Enumerator.NoOrderIndexes | lib/nose/enumerator.rb:82-84 | exactly the indexes with no order fields are kept |
| Enumerator.HashKeys | lib/nose/enumerator.rb:85-87 | the group keys are exactly the (hash fields, graph) pairs present, each once |
| Enumerator.GroupExtras | lib/nose/enumerator.rb:89-90 | a group's extras are exactly the extra sets of its members |
| Enumerator.UnionAll | lib/nose/enumerator.rb:96 | `inject(Set.new, &:+)` holds exactly the fields of some combined set |
| Enumerator.MergedIndexes | lib/nose/enumerator.rb:95-97 | each combination gives an order-less index with the group's hash fields, graph and united extras |
| Enumerator.GroupCombinationsMembers | lib/nose/enumerator.rb:89-100 | the combined indexes are exactly those merged from pairs of some group's distinct extras |
| Enumerator.MergedPairSound | lib/nose/enumerator.rb:93-97 | every merged index unites two different positions' extras |
| Enumerator.MergedPairComplete | lib/nose/enumerator.rb:93-97 | any two different positions' extras are merged |
| Enumerator.CombinedMembers | lib/nose/enumerator.rb:81-101 | combined indexes are exactly the merges of two order-less indexes with equal hash and graph and different extras |
| Enumerator.MergeValid | lib/nose/enumerator.rb:96-97 | merging two valid combinable indexes gives a valid index |
| Enumerator.MergeWellShaped | lib/nose/enumerator.rb:96-97 | merging two well-shaped combinable indexes of a graph gives a well-shaped one |
| Search.GroupSteps | lib/sadvisor/search.rb:138-154 | grouping fails exactly when the plan starts with a non-lookup step, and otherwise the groups concatenate back to the plan |
| Search.GroupStepsWellGrouped | lib/sadvisor/search.rb:138-154 | each group starts with a lookup; inside a group every step is a non-lookup, or a lookup whose immediately preceding step is a lookup whose path ends in this lookup's single entity; a group ends exactly where the next step is neither |
| Search.GroupStepsUnique | lib/sadvisor/search.rb:138-154 | any well-formed grouping that concatenates to the plan is the one computed |
| Search.SnocJoins | lib/sadvisor/search.rb:143-147 | a step that is a non-lookup, or a lookup whose immediately preceding step is a lookup whose path ends in this lookup's single entity, joins the last group |
| Search.SnocStarts | lib/sadvisor/search.rb:150 | any other lookup opens a new group |
| Search.Get | lib/sadvisor/search.rb:170 | a cost table has an entry for a key exactly when the key was stored |
| Search.Put | lib/sadvisor/search.rb:170 | storing keeps the key order, appending a new key at the end |
| Search.PutGet | lib/sadvisor/search.rb:170 | after storing, the key reads back the new entry and every other key is unchanged |
| Search.PutAllGet | lib/sadvisor/search.rb:163-171 | after storing a sequence of entries, each key reads back its last entry, or the old value |
| Search.PutAllKeys | lib/sadvisor/search.rb:163-171 | storing never repeats a key |
| Search.LookupIndexes | lib/sadvisor/search.rb:164-166 | a group's lookup indexes are exactly the indexes of its lookup steps |
| Search.LookupIndexesAppend | lib/sadvisor/search.rb:164-166 | the lookup indexes keep the lookup steps in order: a lookup gives its index, any other step nothing, and concatenation is preserved |
| Search.LookupsInFlatten | lib/sadvisor/search.rb:163-167 | a plan looks up only listed indexes exactly when each of its groups does |
| Search.Positions | lib/sadvisor/search.rb:167 | positions exist exactly when every index is in the list, and each is its first occurrence |
| Search.GroupEntries | lib/sadvisor/search.rb:163-171 | entries exist exactly when every group looks up only listed indexes; then the i-th entry holds the positions of the i-th group's lookup indexes, is keyed by the first, and costs the sum of the group's steps |
| Search.PlanEntries | lib/sadvisor/search.rb:137-172 | entries exist exactly when every plan is empty or opens with a lookup and looks up only listed indexes; each key is a position in the index list |
| Search.PlanEntriesOfPlan | lib/sadvisor/search.rb:137-172 | a well-formed plan groups, every group is costed, and its entries are exactly its groups' entries in group order |
| Search.PlanEntriesAppend | lib/sadvisor/search.rb:137-172 | a statement's entries come plan by plan, in plan order |
| Search.Costs | lib/sadvisor/search.rb:132-177 | cost tables exist exactly when every statement's plans are well formed, one per statement |
| Search.CostsLatestWins | lib/sadvisor/search.rb:132-177 | in a statement's cost table each index maps to the last entry the plans give it, and no key repeats |
| Search.CostsKeysBelow | lib/sadvisor/search.rb:167-170 | every cost table key is a position in the index list |
| Search.UsageConstraintsMembers | lib/sadvisor/search.rb:40-44 | the usage constraints are exactly one per pair of index and statement |
| Search.SpaceTerms | lib/sadvisor/search.rb:48-50 | the space terms weight each selection variable by its index's size |
| Search.SpaceTermsValue | lib/sadvisor/search.rb:47-51 | the space terms evaluate to the total size of the selected indexes |
| Search.TieConstraints | lib/sadvisor/search.rb:67-72 | joint indexes give one equality per consecutive pair of their usage variables, none for fewer than two |
| Search.CoverTermsMembers | lib/sadvisor/search.rb:60-64 | a path part's cover terms are exactly the usage variables of recorded indexes whose range includes the part |
| Search.BuildProblem | lib/sadvisor/search.rb:94-115 | the program is built exactly when every recorded index's range stays inside its statement's path |
| Search.FeasibleUsesSelected | lib/sadvisor/search.rb:40-44 | in any feasible assignment an index's usage never exceeds its selection |
| Search.FeasibleWithinBudget | lib/sadvisor/search.rb:47-52 | with a finite budget, any feasible assignment selects indexes whose total size fits |
| Search.FeasibleTiesEqual | lib/sadvisor/search.rb:66-72 | in any feasible assignment all indexes used jointly at a step have equal usage |
| Search.ChainEqual | lib/sadvisor/search.rb:69-71 | equal neighbours make the whole chain equal to its first |
| Search.FeasibleCovers | lib/sadvisor/search.rb:55-79 | in any feasible assignment each part of a statement's path is covered by a recorded index that is used |
| Search.ObjectiveMembers | lib/sadvisor/search.rb:83-91 | the objective has a usage-times-cost term for exactly the index and statement pairs with a recorded cost |
| Search.Chosen | lib/sadvisor/search.rb:126-128 | the selection is a sub-sequence of the indexes and holds exactly those whose variable is 1.0 |
| Search.SolveResult | lib/sadvisor/search.rb:122-128 | no solution exactly when the status is not optimal, and otherwise the chosen indexes |
| Search.SearchOverlap | lib/sadvisor/search.rb:15-33 | no indexes give none without consulting the solver; any answer is a sub-sequence of the indexes; a malformed plan is reported only when there are indexes |
| Search.SearchOverlapOutcome | lib/sadvisor/search.rb:23-32 | a malformed plan is reported exactly when there are indexes and the plans cannot be costed or a range leaves its path; otherwise the answer is the solver's answer to the built program, read back |

## Left out

- The Gurobi solver is a function parameter from the program to a status and variable
  values. Building the model object, variable creation, `update` and `optimize` are not
  modelled.
- `Parallel.map` in `indexes_for_workload` is modelled as a sequential `flat_map`. The
  result order is the same.
- Logging and debug output are left out. So are the command-line interface, the MongoDB
  backend and the workload definition language.
- The planner (`Planner#find_plans_for_query`) is not part of this model. Each
  statement's plans are an input, as are each index's path (`pathOf`) and its
  `entity_range` over the statement's longest entity path (`rangeOf`). The path length is
  also an input.
- Other NoSE internals are parameters too:
  - a statement's `subgraphs`;
  - an update's `support_queries`;
  - the enumerator's `materialize_view` (`view`);
  - the entity's `key_fields` (`keyFields`).
  The bodies of these are not part of this model.
- The four-argument `NoSE::Index` constructor is not part of this model. Its validity
  rule is taken from the specs that exercise it.
- Indexes.QueryCost: real arithmetic replaces floating point, so the order in which the
  source multiplies the factors does not matter. The source divides by `parent.count`;
  the model requires every equality field's entity to have a positive count, and a zero
  count is not modelled.
- Enumerator.IndexesForGraph: a graph with no entities gives no indexes. The source's
  `reduce(&:+)` would give `nil` and fail there. The contract states only that the
  equality table is passed on; membership is stated by GraphCandidatesExact.
- Choices.EqChoicesSound: the combined keys are distinct only when every listed field and
  id field belongs to its entity. Two keys of one entity may still be combined, as in the
  source.
- Combinatorics.Prefixes: `Array#prefixes` and `Array#partitions` are defined outside
  this model. Their shapes (non-empty leading segments, shortest first; every split from
  `([], s)` to `(s, [])`) are assumed.
- Search.FeasibleCovers: states that some covering index is used on each path part. It
  does not state that the covering usages sum to exactly 1, which the constraint demands.
- Search.SearchOverlap: the default index list is not composed into the search. The
  default is the enumerator's indexes plus every entity's simple index. The model keeps
  the two index types apart, so the search takes its index list, index size and path
  functions as parameters.
- Search.SearchOverlap: `index_sizes` is computed but never read by the source, so it is
  not modelled.
- Search.SearchOverlap: three malformed inputs are all reported as `MalformedPlan`,
  without saying which occurred:
  - an index missing from the list (`index` gives `nil`, which the source later uses
    as a position, unless the entry is overwritten; see Search.Costs below);
  - a plan whose first step is not a lookup (`nil.push` raises);
  - a range part outside the path (there is no expression to add to).
- Search.Costs: an unlisted index in a plan makes the model report `MalformedPlan`. The
  source stores `nil` as that index's position (search.rb:167), and the outcome depends
  on where that `nil` sits:
  - as a group's first position, the entry is stored under the key `nil`, and
    `indexes[nil]` raises when the program is built (search.rb:61), as in the model;
  - at a later position under a listed first index, `query_vars[nil]` raises
    (search.rb:68), unless a later group with the same first index overwrites that
    entry (search.rb:170). In that one case the source goes on without failing, while
    the model still reports `MalformedPlan`.
- Search.ObjectiveTerms: with no recorded cost at all, the source's `compact.reduce(&:+)`
  gives `nil` as the objective (search.rb:84-88). The model gives the empty sum instead.
- The integer program's variables are real-valued in the model. Binary domains are not
  enforced, because no stated property depends on them.

## Notes on the code

- `entry_size` sums the key list and the extra list as given, so a field listed in both
  is counted twice (EntrySizeCountsBothLists).
- `lib/indexes.rb` defines a two-argument index of key fields and extra fields. The
  enumerator builds a four-argument index of hash, order and extra fields and a path.
  Both are modelled, as `Indexes.Index` and `Candidates.CIndex`.
- `extra_choices` computes a filter of each choice to the graph's entities, but discards
  the result. The choices are therefore not filtered (RawExtraChoices).
- `eq_choices` appends each entity's id field to the equality groups of the shared table.
  That changes the table seen by later subgraphs and by `extra_choices`. The model passes
  the updated table on.
- The objective has no statement weight. Usage variables exist for every pair of index
  and statement, not only for recorded costs.

=== FILE: candidates.dfy ===
/** The enumerator's four-part index (hash fields, order fields, extra fields, query
    graph) and the structural rules its constructor enforces. The constructor itself
    is not part of this model; its rules are the ones spec/indexes_spec.rb asserts, with
    the graph's entity sequence standing for the index's path. `generate_index` turns a
    rejected combination into nothing instead of an error. */
module Candidates {
  import opened Collections
  import opened Schema

  /** Hash and extra fields compare as sets; the order fields keep their order. */
  datatype CIndex = CIndex(hash: set<Field>, order: seq<Field>, extra: set<Field>, graph: QueryGraph)

  /** Some field of `fs` belongs to entity `e`. */
  predicate Anchors(fs: set<Field>, e: EntityId) {
    exists f :: f in fs && f.parent == e
  }

  /** All fields belong to one entity. */
  predicate OneEntity(fs: set<Field>) {
    forall f, g :: f in fs && g in fs ==> f.parent == g.parent
  }

  /** The first entity of the path is reached through the key (hash or order) fields. */
  predicate StartAnchored(hash: set<Field>, order: seq<Field>, g: QueryGraph) {
    |g.entities| == 0 || Anchors(hash + Elements(order), g.entities[0])
  }

  /** The last entity of the path is reached through some stored field. */
  predicate EndAnchored(hash: set<Field>, order: seq<Field>, extra: set<Field>, g: QueryGraph) {
    |g.entities| == 0 || Anchors(hash + Elements(order) + extra, Last(g.entities))
  }

  predicate Valid(hash: set<Field>, order: seq<Field>, extra: set<Field>, g: QueryGraph) {
    hash != {} && OneEntity(hash) && StartAnchored(hash, order, g) && EndAnchored(hash, order, extra, g)
  }

  predicate ValidIndex(ix: CIndex) {
    Valid(ix.hash, ix.order, ix.extra, ix.graph)
  }

  /** `generate_index`: the index over the given fields, its order fields without
      repeats, or nothing when the constructor would reject the combination. */
  function GenerateIndex(hash: seq<Field>, order: seq<Field>, extra: seq<Field>, g: QueryGraph): (r: Option<CIndex>)
    ensures r.Some? ==> ValidIndex(r.value) && r.value.graph == g
    ensures r.Some? ==> (forall f :: f in r.value.hash <==> f in hash)
                        && (forall f :: f in r.value.extra <==> f in extra)
                        && r.value.order == Dedup(order)
    ensures r.None? <==>
      || |hash| == 0
      || (exists i, j :: 0 <= i < |hash| && 0 <= j < |hash| && hash[i].parent != hash[j].parent)
      || (|g.entities| > 0 && forall f :: f in hash + order ==> f.parent != g.entities[0])
      || (|g.entities| > 0 && forall f :: f in hash + order + extra ==> f.parent != Last(g.entities))
  {
    var h, o, x := Elements(hash), Dedup(order), Elements(extra);
    assert Elements(o) == Elements(order);
    assert forall f :: f in h + Elements(o) <==> f in hash + order;
    assert forall f :: f in h + Elements(o) + x <==> f in hash + order + extra;
    assert |hash| == 0 <==> h == {} by {
      if |hash| > 0 {
        assert hash[0] in h;
      }
    }
    assert !OneEntity(h) <==> exists i, j :: 0 <= i < |hash| && 0 <= j < |hash| && hash[i].parent != hash[j].parent by {
      if !OneEntity(h) {
        var a, b :| a in h && b in h && a.parent != b.parent;
        var i :| 0 <= i < |hash| && hash[i] == a;
        var j :| 0 <= j < |hash| && hash[j] == b;
      }
      if exists i, j :: 0 <= i < |hash| && 0 <= j < |hash| && hash[i].parent != hash[j].parent {
        var i, j :| 0 <= i < |hash| && 0 <= j < |hash| && hash[i].parent != hash[j].parent;
        assert hash[i] in h && hash[j] in h;
      }
    }
    if Valid(h, o, x, g) then Some(CIndex(h, o, x, g)) else None
  }

  /** The constructor case of spec/indexes_spec.rb that succeeds: a tweet (entity 0)
      index keyed on its identifier and storing its body. */
  lemma ConstructorAccepts()
    ensures var tweetId, body := Field(0, "TweetId", 8, 100, true), Field(0, "Body", 140, 100, false);
            GenerateIndex([tweetId], [], [body], QueryGraph([0])).Some?
  {
    var tweetId := Field(0, "TweetId", 8, 100, true);
    assert [tweetId][0] == tweetId;
  }

  /** The constructor cases of spec/indexes_spec.rb that fail, on a tweet (entity 0)
      written by a user (entity 1): empty hash fields, hash fields over two entities,
      and a two-entity path with fields for only one end. */
  lemma ConstructorRejects()
    ensures var tweetId, body := Field(0, "TweetId", 8, 100, true), Field(0, "Body", 140, 100, false);
            var userId, city := Field(1, "UserId", 8, 10, true), Field(1, "City", 20, 5, false);
            && GenerateIndex([], [], [tweetId], QueryGraph([0])).None?
            && GenerateIndex([body, city], [tweetId, userId], [], QueryGraph([0, 1])).None?
            && GenerateIndex([tweetId], [], [], QueryGraph([0, 1])).None?
            && GenerateIndex([city], [], [], QueryGraph([0, 1])).None?
  {
    var body, city := Field(0, "Body", 140, 100, false), Field(1, "City", 20, 5, false);
    assert [body, city][0].parent != [body, city][1].parent;
  }
}

=== FILE: choices.dfy ===
/** The field choices the enumerator combines for one connected piece of a query
    graph: equality keys, order keys and extra fields, and the per-entity field tables
    (`group_by(&:parent)` with an empty default) they are read from. */
module Choices {
  import opened Collections
  import opened Combinatorics
  import opened Schema

  /** One entry of a table grouped by parent entity. */
  datatype Group = Group(entity: EntityId, fields: seq<Field>)

  /** A Ruby Hash from entity to fields, in insertion order. */
  type Table = seq<Group>

  function Keys(t: Table): (r: seq<EntityId>)
    ensures |r| == |t|
  {
    if |t| == 0 then [] else [t[0].entity] + Keys(t[1..])
  }

  /** `hash.values` */
  function Values(t: Table): (r: seq<seq<Field>>)
    ensures |r| == |t| && forall i :: 0 <= i < |t| ==> r[i] == t[i].fields
  {
    if |t| == 0 then [] else [t[0].fields] + Values(t[1..])
  }

  /** `hash[e]`: the fields stored for `e`, or the default `[]` when there are none. */
  function Lookup(t: Table, e: EntityId): (r: seq<Field>)
    ensures e !in Keys(t) ==> r == []
  {
    if |t| == 0 then []
    else if t[0].entity == e then t[0].fields
    else Lookup(t[1..], e)
  }

  /** The fields of `fs` owned by `e`, in order. */
  function OwnedBy(fs: seq<Field>, e: EntityId): (r: seq<Field>)
    ensures forall f :: f in r <==> f in fs && f.parent == e
  {
    if |fs| == 0 then []
    else
      assert forall f :: f in fs <==> f == fs[0] || f in fs[1..];
      (if fs[0].parent == e then [fs[0]] else []) + OwnedBy(fs[1..], e)
  }

  /** The table without the entry for `e`. */
  function Without(t: Table, e: EntityId): (r: Table)
    ensures forall x :: x != e ==> Lookup(r, x) == Lookup(t, x)
    ensures forall x :: x in Keys(r) <==> x in Keys(t) && x != e
    ensures NoDup(Keys(t)) ==> NoDup(Keys(r))
    ensures (forall i :: 0 <= i < |t| ==> |t[i].fields| > 0) ==> forall i :: 0 <= i < |r| ==> |r[i].fields| > 0
  {
    if |t| == 0 then []
    else
      var rest := Without(t[1..], e);
      assert NoDup(Keys(t)) ==> NoDup(Keys(t[1..])) && t[0].entity !in Keys(t[1..]) by {
        if NoDup(Keys(t)) {
          NoDupTail(Keys(t));
        }
      }
      if t[0].entity == e then rest
      else
        var r := [t[0]] + rest;
        assert r[1..] == rest;
        assert NoDup(Keys(t)) ==> NoDup(Keys(r)) by {
          if NoDup(Keys(t)) {
            NoDupConcat([t[0].entity], Keys(rest));
          }
        }
        r
  }

  /** `fs.group_by(&:parent)`: one entry per owning entity, in order of first
      appearance, holding that entity's fields in order. */
  function GroupByParent(fs: seq<Field>): (t: Table)
    ensures forall e :: Lookup(t, e) == OwnedBy(fs, e)
    ensures NoDup(Keys(t))
    ensures forall i :: 0 <= i < |t| ==> |t[i].fields| > 0
  {
    if |fs| == 0 then []
    else
      var f := fs[0];
      var rest := GroupByParent(fs[1..]);
      var others := Without(rest, f.parent);
      var t := [Group(f.parent, [f] + Lookup(rest, f.parent))] + others;
      assert t[1..] == others;
      assert NoDup(Keys(t)) by {
        assert Keys(t) == [f.parent] + Keys(others);
        NoDupConcat([f.parent], Keys(others));
      }
      assert forall e :: Lookup(t, e) == OwnedBy(fs, e) by {
        forall e
          ensures Lookup(t, e) == OwnedBy(fs, e)
        {
          assert OwnedBy(fs, e) == (if f.parent == e then [f] else []) + OwnedBy(fs[1..], e);
          if e != f.parent {
            assert Lookup(t, e) == Lookup(others, e) == Lookup(rest, e);
          } else {
            assert Lookup(t, e) == [f] + Lookup(rest, e);
          }
        }
      }
      t
  }

  /** The table with the entry for `e` (if there is one) holding `v` instead, in place:
      the Ruby code mutates the stored array, and a missing entry stays missing because
      the default value is never stored. */
  function Store(t: Table, e: EntityId, v: seq<Field>): (r: Table)
    ensures Keys(r) == Keys(t)
    ensures Lookup(r, e) == if e in Keys(t) then v else []
    ensures forall x :: x != e ==> Lookup(r, x) == Lookup(t, x)
  {
    if |t| == 0 then []
    else
      var r := [if t[0].entity == e then Group(e, v) else t[0]] + Store(t[1..], e, v);
      assert r[1..] == Store(t[1..], e, v);
      r
  }

  /** An entity's equality fields followed by its identifier field, without repeats
      (`eq[entity] << entity.id_field; uniq!`). */
  function EntityFields(m: Model, eq: Table, e: EntityId): (r: seq<Field>)
    requires Known(m, e) && |m.entities[e].idFields| > 0
    ensures NoDup(r) && |r| > 0
    ensures forall f :: f in r <==> f in Lookup(eq, e) || f == IdField(m, e)
  {
    Dedup(Lookup(eq, e) + [IdField(m, e)])
  }

  /** `x` is a key the enumerator offers for entity `e` on its own: a non-empty list of
      distinct fields of that entity's equality fields and identifier field. */
  predicate IsEntityKey(m: Model, eq: Table, e: EntityId, x: seq<Field>)
    requires Known(m, e) && |m.entities[e].idFields| > 0
  {
    |x| > 0 && NoDup(x) && forall f :: f in x ==> f in EntityFields(m, eq, e)
  }

  /** The per-entity keys of `eq_choices`, one entity after another; the table comes
      back with each present entry extended by its entity's identifier field. */
  function EntityChoices(m: Model, ents: seq<EntityId>, eq: Table): (r: (seq<seq<Field>>, Table))
    requires HasIds(m, ents)
    ensures Keys(r.1) == Keys(eq)
    ensures forall x :: x in r.0 ==> |x| > 0
    decreases |ents|
  {
    if |ents| == 0 then ([], eq)
    else
      var e := ents[0];
      var fields := EntityFields(m, eq, e);
      var rest := EntityChoices(m, ents[1..], Store(eq, e, fields));
      forall x | x in ArrangementsBetween(fields, 1, |fields|)
        ensures |x| > 0
      {
        ArrangementsBetweenMembers(fields, 1, |fields|, x);
      }
      (ArrangementsBetween(fields, 1, |fields|) + rest.0, rest.1)
  }

  lemma {:induction false} EntityChoicesSound(m: Model, ents: seq<EntityId>, eq: Table, x: seq<Field>)
    requires HasIds(m, ents) && NoDup(ents)
    requires x in EntityChoices(m, ents, eq).0
    ensures exists e :: e in ents && IsEntityKey(m, eq, e, x)
    decreases |ents|
  {
    var e := ents[0];
    var fields := EntityFields(m, eq, e);
    if x in ArrangementsBetween(fields, 1, |fields|) {
      AllArrangementsExact(fields, x);
      assert IsEntityKey(m, eq, e, x);
    } else {
      var eq1 := Store(eq, e, fields);
      NoDupTail(ents);
      EntityChoicesSound(m, ents[1..], eq1, x);
      var d :| d in ents[1..] && IsEntityKey(m, eq1, d, x);
      assert d != e;
      assert EntityFields(m, eq1, d) == EntityFields(m, eq, d);
      assert IsEntityKey(m, eq, d, x);
    }
  }

  lemma {:induction false} EntityChoicesComplete(m: Model, ents: seq<EntityId>, eq: Table, e: EntityId, x: seq<Field>)
    requires HasIds(m, ents) && NoDup(ents)
    requires e in ents && IsEntityKey(m, eq, e, x)
    ensures x in EntityChoices(m, ents, eq).0
    decreases |ents|
  {
    var fields := EntityFields(m, eq, ents[0]);
    if e == ents[0] {
      AllArrangementsExact(fields, x);
    } else {
      var eq1 := Store(eq, ents[0], fields);
      NoDupTail(ents);
      assert EntityFields(m, eq1, e) == EntityFields(m, eq, e);
      EntityChoicesComplete(m, ents[1..], eq1, e, x);
    }
  }

  /** For distinct graph entities the per-entity keys are exactly the entity keys of
      some graph entity, read from the table as it was before the graph. */
  lemma EntityChoicesExact(m: Model, ents: seq<EntityId>, eq: Table, x: seq<Field>)
    requires HasIds(m, ents) && NoDup(ents)
    ensures x in EntityChoices(m, ents, eq).0 <==> exists e :: e in ents && IsEntityKey(m, eq, e, x)
  {
    if x in EntityChoices(m, ents, eq).0 {
      EntityChoicesSound(m, ents, eq, x);
    }
    if exists e :: e in ents && IsEntityKey(m, eq, e, x) {
      var e :| e in ents && IsEntityKey(m, eq, e, x);
      EntityChoicesComplete(m, ents, eq, e, x);
    }
  }

  /** Applies `flatten` to every entry. */
  function FlattenEach(ps: seq<seq<seq<Field>>>): (r: seq<seq<Field>>)
    ensures |r| == |ps| && forall i :: 0 <= i < |ps| ==> r[i] == Flatten(ps[i])
  {
    seq(|ps|, i requires 0 <= i < |ps| => Flatten(ps[i]))
  }

  /** `(lo..hi).flat_map { |n| choices.permutation(n).map(&:flatten) }` */
  function JoinedChoices(cs: seq<seq<Field>>, lo: nat, hi: nat): seq<seq<Field>>
    decreases hi + 1 - lo
  {
    if lo > hi then [] else FlattenEach(Arrangements(cs, lo)) + JoinedChoices(cs, lo + 1, hi)
  }

  lemma {:induction false} JoinedChoicesSound(cs: seq<seq<Field>>, lo: nat, hi: nat, x: seq<Field>)
    requires x in JoinedChoices(cs, lo, hi)
    ensures exists p :: lo <= |p| <= hi && (forall c :: c in p ==> c in cs) && (NoDup(cs) ==> NoDup(p))
                        && x == Flatten(p)
    decreases hi + 1 - lo
  {
    var here := FlattenEach(Arrangements(cs, lo));
    if x in here {
      var k :| 0 <= k < |here| && here[k] == x;
      var p := Arrangements(cs, lo)[k];
      ArrangementsSound(cs, lo, p);
      assert lo <= |p| <= hi && (forall c :: c in p ==> c in cs) && (NoDup(cs) ==> NoDup(p)) && x == Flatten(p);
    } else {
      JoinedChoicesSound(cs, lo + 1, hi, x);
    }
  }

  lemma {:induction false} JoinedChoicesComplete(cs: seq<seq<Field>>, lo: nat, hi: nat, p: seq<seq<Field>>)
    requires lo <= |p| <= hi && IsArrangement(p, cs, |p|)
    ensures Flatten(p) in JoinedChoices(cs, lo, hi)
    decreases hi + 1 - lo
  {
    if |p| == lo {
      ArrangementsComplete(cs, lo, p);
      var k :| 0 <= k < |Arrangements(cs, lo)| && Arrangements(cs, lo)[k] == p;
      assert FlattenEach(Arrangements(cs, lo))[k] == Flatten(p);
    } else {
      JoinedChoicesComplete(cs, lo + 1, hi, p);
    }
  }

  /** `eq_choices`: compound keys (the flattened arrangements of 2 to N per-entity keys,
      N the number of graph entities), then the per-entity keys; and the table as the
      Ruby code leaves it. */
  function EqChoices(m: Model, g: QueryGraph, eq: Table): (r: (seq<seq<Field>>, Table))
    requires HasIds(m, g.entities)
    ensures Keys(r.1) == Keys(eq)
  {
    var single := EntityChoices(m, g.entities, eq);
    (JoinedChoices(single.0, 2, |g.entities|) + single.0, single.1)
  }

  /** `x` is an entity key of some entity in `ents`. */
  predicate IsGraphKey(m: Model, eq: Table, ents: seq<EntityId>, x: seq<Field>)
    requires HasIds(m, ents)
  {
    exists e :: e in ents && IsEntityKey(m, eq, e, x)
  }

  /** Every equality choice is a non-empty key. */
  lemma EqChoicesNonEmpty(m: Model, g: QueryGraph, eq: Table, x: seq<Field>)
    requires HasIds(m, g.entities)
    requires x in EqChoices(m, g, eq).0
    ensures |x| > 0
  {
    var single := EntityChoices(m, g.entities, eq).0;
    if x in JoinedChoices(single, 2, |g.entities|) {
      JoinedChoicesSound(single, 2, |g.entities|, x);
      var p :| 2 <= |p| <= |g.entities| && (forall c :: c in p ==> c in single) && x == Flatten(p);
      assert p[0] in single;
      FlattenLength(p, 0);
    }
  }

  /** Every identifier field and every field listed for an entity of `ents` belongs
      to that entity, as the table built by grouping fields by parent guarantees. */
  predicate OwnFields(m: Model, eq: Table, ents: seq<EntityId>)
    requires HasIds(m, ents)
  {
    forall e :: e in ents ==> IdField(m, e).parent == e && forall f :: f in Lookup(eq, e) ==> f.parent == e
  }

  /** When entities own their fields, the per-entity keys never repeat: an entity lists
      each arrangement once, and two entities share no key. */
  lemma {:induction false} EntityChoicesNoDup(m: Model, ents: seq<EntityId>, eq: Table)
    requires HasIds(m, ents) && NoDup(ents) && OwnFields(m, eq, ents)
    ensures NoDup(EntityChoices(m, ents, eq).0)
    decreases |ents|
  {
    if |ents| > 0 {
      var e := ents[0];
      var fields := EntityFields(m, eq, e);
      var eq1 := Store(eq, e, fields);
      var here := ArrangementsBetween(fields, 1, |fields|);
      var rest := EntityChoices(m, ents[1..], eq1).0;
      NoDupTail(ents);
      StoreKeepsOwnFields(m, eq, ents);
      EntityChoicesNoDup(m, ents[1..], eq1);
      ArrangementsBetweenNoDup(fields, 1, |fields|);
      LaterKeysOtherEntity(m, ents[1..], eq1, e);
      forall x: seq<Field> | x in here
        ensures x !in rest
      {
        ArrangementsBetweenMembers(fields, 1, |fields|, x);
        ArrangementsSound(fields, |x|, x);
        assert x[0] in fields;
      }
      NoDupConcat(here, rest);
    }
  }

  /** Storing the first entity's fields keeps the rest of the entities owning theirs. */
  lemma StoreKeepsOwnFields(m: Model, eq: Table, ents: seq<EntityId>)
    requires HasIds(m, ents) && NoDup(ents) && |ents| > 0 && OwnFields(m, eq, ents)
    ensures OwnFields(m, Store(eq, ents[0], EntityFields(m, eq, ents[0])), ents[1..])
  {
    var eq1 := Store(eq, ents[0], EntityFields(m, eq, ents[0]));
    NoDupTail(ents);
    forall d | d in ents[1..]
      ensures forall f :: f in Lookup(eq1, d) ==> f.parent == d
    {
      assert d != ents[0] && Lookup(eq1, d) == Lookup(eq, d);
    }
  }

  /** The keys of entities other than `e` start with a field that is not `e`'s. */
  lemma LaterKeysOtherEntity(m: Model, ents: seq<EntityId>, eq: Table, e: EntityId)
    requires HasIds(m, ents) && NoDup(ents) && OwnFields(m, eq, ents) && e !in ents
    ensures forall y: seq<Field> :: y in EntityChoices(m, ents, eq).0 ==> |y| > 0 && y[0].parent != e
  {
    forall y: seq<Field> | y in EntityChoices(m, ents, eq).0
      ensures |y| > 0 && y[0].parent != e
    {
      EntityChoicesSound(m, ents, eq, y);
      var d :| d in ents && IsEntityKey(m, eq, d, y);
      KeyHeadOwner(m, eq, ents, d, y);
    }
  }

  /** A key of an entity that owns its fields starts with a field of that entity. */
  lemma KeyHeadOwner(m: Model, eq: Table, ents: seq<EntityId>, d: EntityId, y: seq<Field>)
    requires HasIds(m, ents) && OwnFields(m, eq, ents) && d in ents && IsEntityKey(m, eq, d, y)
    ensures |y| > 0 && y[0].parent == d
  {
    assert y[0] in EntityFields(m, eq, d);
    assert y[0] in Lookup(eq, d) || y[0] == IdField(m, d);
  }

  /** `x` concatenates 2 to N entity keys of graph entities, N the number of graph
      entities; distinct keys when the entities own their fields. */
  ghost predicate IsCompoundKey(m: Model, eq: Table, ents: seq<EntityId>, x: seq<Field>)
    requires HasIds(m, ents)
  {
    exists p :: && 2 <= |p| <= |ents|
                && (forall c :: c in p ==> IsGraphKey(m, eq, ents, c))
                && (OwnFields(m, eq, ents) ==> NoDup(p))
                && x == Flatten(p)
  }

  /** Over a graph with distinct entities, every equality choice is an entity key of a
      graph entity, or the concatenation of 2 to N such keys; when the entities own
      their fields, the combined keys are distinct (two keys of one entity may still be
      combined). */
  lemma EqChoicesSound(m: Model, g: QueryGraph, eq: Table, x: seq<Field>)
    requires HasIds(m, g.entities) && NoDup(g.entities)
    requires x in EqChoices(m, g, eq).0
    ensures IsGraphKey(m, eq, g.entities, x) || IsCompoundKey(m, eq, g.entities, x)
  {
    var single := EntityChoices(m, g.entities, eq).0;
    if x in JoinedChoices(single, 2, |g.entities|) {
      CompoundChoiceSound(m, g, eq, x);
    } else {
      EntityChoicesSound(m, g.entities, eq, x);
    }
  }

  lemma CompoundChoiceSound(m: Model, g: QueryGraph, eq: Table, x: seq<Field>)
    requires HasIds(m, g.entities) && NoDup(g.entities)
    requires x in JoinedChoices(EntityChoices(m, g.entities, eq).0, 2, |g.entities|)
    ensures IsCompoundKey(m, eq, g.entities, x)
  {
    var single := EntityChoices(m, g.entities, eq).0;
    JoinedChoicesSound(single, 2, |g.entities|, x);
    if OwnFields(m, eq, g.entities) {
      EntityChoicesNoDup(m, g.entities, eq);
    }
    var p :| && 2 <= |p| <= |g.entities| && (forall c :: c in p ==> c in single)
             && (NoDup(single) ==> NoDup(p)) && x == Flatten(p);
    forall c | c in p
      ensures IsGraphKey(m, eq, g.entities, c)
    {
      EntityChoicesSound(m, g.entities, eq, c);
    }
  }

  /** Every entity key of a graph entity is an equality choice. */
  lemma EntityKeyIsEqChoice(m: Model, g: QueryGraph, eq: Table, e: EntityId, x: seq<Field>)
    requires HasIds(m, g.entities) && NoDup(g.entities)
    requires e in g.entities && IsEntityKey(m, eq, e, x)
    ensures x in EqChoices(m, g, eq).0
  {
    EntityChoicesComplete(m, g.entities, eq, e, x);
  }

  /** Every concatenation of 2 to N distinct entity keys of graph entities is an
      equality choice. */
  lemma CompoundKeyIsEqChoice(m: Model, g: QueryGraph, eq: Table, p: seq<seq<Field>>)
    requires HasIds(m, g.entities) && NoDup(g.entities)
    requires 2 <= |p| <= |g.entities| && NoDup(p)
    requires forall c :: c in p ==> IsGraphKey(m, eq, g.entities, c)
    ensures Flatten(p) in EqChoices(m, g, eq).0
  {
    var single := EntityChoices(m, g.entities, eq).0;
    forall c | c in p
      ensures c in single
    {
      var e :| e in g.entities && IsEntityKey(m, eq, e, c);
      EntityChoicesComplete(m, g.entities, eq, e, c);
    }
    JoinedChoicesComplete(single, 2, |g.entities|, p);
  }

  /** Every graph entity's identifier field is a key on its own. */
  lemma IdFieldIsEqChoice(m: Model, g: QueryGraph, eq: Table, e: EntityId)
    requires HasIds(m, g.entities) && NoDup(g.entities) && e in g.entities
    ensures [IdField(m, e)] in EqChoices(m, g, eq).0
  {
    assert IsEntityKey(m, eq, e, [IdField(m, e)]);
    EntityKeyIsEqChoice(m, g, eq, e, [IdField(m, e)]);
  }

  /** The range lookups of all graph entities, one after another. */
  function LookupAll(t: Table, ents: seq<EntityId>): (r: seq<Field>)
    ensures forall f :: f in r <==> exists e :: e in ents && f in Lookup(t, e)
  {
    if |ents| == 0 then []
    else
      var rest := LookupAll(t, ents[1..]);
      assert forall e :: e in ents <==> e == ents[0] || e in ents[1..];
      assert forall f :: f in Lookup(t, ents[0]) + rest <==> f in Lookup(t, ents[0]) || f in rest;
      Lookup(t, ents[0]) + rest
  }

  /** Each entity's lookup, in the order of `ents`. */
  function LookupsOf(t: Table, ents: seq<EntityId>): (r: seq<seq<Field>>)
    ensures |r| == |ents|
  {
    seq(|ents|, i requires 0 <= i < |ents| => Lookup(t, ents[i]))
  }

  /** `LookupAll` keeps the graph's entity order, and each entity's fields in the order
      its group lists them. */
  lemma {:induction false} LookupAllInGraphOrder(t: Table, ents: seq<EntityId>)
    ensures LookupAll(t, ents) == Flatten(LookupsOf(t, ents))
  {
    if |ents| > 0 {
      LookupAllInGraphOrder(t, ents[1..]);
      assert LookupsOf(t, ents)[1..] == LookupsOf(t, ents[1..]);
    }
  }

  /** `range_fields`: the graph's range and ordering fields without repeats, in the
      order they first occur entity by entity. */
  function RangeFields(range: Table, g: QueryGraph): (r: seq<Field>)
    ensures NoDup(r)
    ensures forall f :: f in r <==> exists e :: e in g.entities && f in Lookup(range, e)
  {
    Dedup(LookupAll(range, g.entities))
  }

  /** The range fields come in the order they first occur entity by entity. */
  lemma RangeFieldsOrder(range: Table, g: QueryGraph)
    ensures var all, r := LookupAll(range, g.entities), RangeFields(range, g);
            forall i, j :: 0 <= i < j < |r| ==> IndexOf(all, r[i]).value < IndexOf(all, r[j]).value
  {
    DedupKeepsFirstOrder(LookupAll(range, g.entities));
  }

  /** Every full-length permutation of every listed prefix. */
  function PrefixArrangements(ps: seq<seq<Field>>): seq<seq<Field>> {
    if |ps| == 0 then [] else Arrangements(ps[0], |ps[0]|) + PrefixArrangements(ps[1..])
  }

  lemma {:induction false} PrefixArrangementsMembers(ps: seq<seq<Field>>, x: seq<Field>)
    ensures x in PrefixArrangements(ps) <==> exists i :: 0 <= i < |ps| && x in Arrangements(ps[i], |ps[i]|)
  {
    if |ps| > 0 {
      PrefixArrangementsMembers(ps[1..], x);
      if exists i :: 0 <= i < |ps| && x in Arrangements(ps[i], |ps[i]|) {
        var i :| 0 <= i < |ps| && x in Arrangements(ps[i], |ps[i]|);
        if i > 0 {
          assert ps[1..][i - 1] == ps[i];
        }
      }
      if x in PrefixArrangements(ps[1..]) {
        var i :| 0 <= i < |ps[1..]| && x in Arrangements(ps[1..][i], |ps[1..][i]|);
        assert ps[i + 1] == ps[1..][i];
      }
    }
  }

  /** `order_choices`: the permutations of the non-empty prefixes of the range fields
      without repeats, then the empty order. */
  function OrderChoices(rf: seq<Field>): seq<seq<Field>> {
    Dedup(PrefixArrangements(Prefixes(rf))) + [[]]
  }

  /** The order choices are exactly the empty order and the permutations of each
      non-empty prefix of the (duplicate-free) range fields. */
  lemma OrderChoicesExact(rf: seq<Field>, x: seq<Field>)
    requires NoDup(rf)
    ensures x in OrderChoices(rf) <==> x == [] || exists k :: 1 <= k <= |rf| && IsArrangement(x, rf[..k], k)
  {
    var ps := Prefixes(rf);
    PrefixArrangementsMembers(ps, x);
    if x in PrefixArrangements(ps) {
      var i :| 0 <= i < |ps| && x in Arrangements(ps[i], |ps[i]|);
      assert NoDup(rf[..i + 1]);
      ArrangementsExact(ps[i], |ps[i]|, x);
    }
    if exists k :: 1 <= k <= |rf| && IsArrangement(x, rf[..k], k) {
      var k :| 1 <= k <= |rf| && IsArrangement(x, rf[..k], k);
      assert ps[k - 1] == rf[..k];
      ArrangementsComplete(rf[..k], k, x);
    }
  }

  /** No order choice is listed twice; in particular the empty order appears once. */
  lemma OrderChoicesNoDup(rf: seq<Field>)
    ensures NoDup(OrderChoices(rf))
  {
    var ps := Prefixes(rf);
    var listed := Dedup(PrefixArrangements(ps));
    forall x | x in listed
      ensures x != []
    {
      PrefixArrangementsMembers(ps, x);
      var i :| 0 <= i < |ps| && x in Arrangements(ps[i], |ps[i]|);
      ArrangementsSound(ps[i], |ps[i]|, x);
    }
    NoDupConcat(listed, [[]]);
  }

  predicate NonEmpty(c: seq<Field>) {
    |c| > 0
  }

  /** `extra_choices`: the equality groups, the range groups and the selected fields,
      the empty ones dropped, then the empty choice. The fields are not restricted to
      the graph's entities: the restriction the Ruby code computes is thrown away. */
  function RawExtraChoices(eq: Table, range: Table, select: seq<Field>): (r: seq<seq<Field>>)
    ensures |r| > 0 && Last(r) == []
    ensures forall c :: c in r <==> c == [] || (c in Values(eq) + Values(range) + [select] && |c| > 0)
  {
    Filter(Values(eq) + Values(range) + [select], NonEmpty) + [[]]
  }

  /** Applies `flatten.uniq` to every entry. */
  function MergeEach(cs: seq<seq<seq<Field>>>): seq<seq<Field>> {
    seq(|cs|, i requires 0 <= i < |cs| => Dedup(Flatten(cs[i])))
  }

  lemma MergeEachContains(cs: seq<seq<seq<Field>>>, c: seq<seq<Field>>)
    requires c in cs
    ensures Dedup(Flatten(c)) in MergeEach(cs)
  {
    var k :| 0 <= k < |cs| && cs[k] == c;
    assert MergeEach(cs)[k] == Dedup(Flatten(c));
  }

  /** `(lo..hi).flat_map { |n| choices.combination(n).map(&:flatten).map(&:uniq) }` */
  function MergedCombinations(raw: seq<seq<Field>>, lo: nat, hi: nat): seq<seq<Field>> {
    ConcatMap(Between(lo, hi), (n: nat) => MergeEach(Combinations(raw, n)))
  }

  /** The merged combinations are the merged sub-sequences of `raw` with `lo` to `hi`
      entries. */
  lemma MergedCombinationsMembers(raw: seq<seq<Field>>, lo: nat, hi: nat, x: seq<Field>)
    ensures x in MergedCombinations(raw, lo, hi) <==>
      exists c :: lo <= |c| <= hi && IsSubseq(c, raw) && x == Dedup(Flatten(c))
  {
    ConcatMapMembers(Between(lo, hi), (n: nat) => MergeEach(Combinations(raw, n)), x);
    if x in MergedCombinations(raw, lo, hi) {
      var n :| n in Between(lo, hi) && x in MergeEach(Combinations(raw, n));
      MergeEachSound(raw, n, x);
    }
    if exists c :: lo <= |c| <= hi && IsSubseq(c, raw) && x == Dedup(Flatten(c)) {
      var c :| lo <= |c| <= hi && IsSubseq(c, raw) && x == Dedup(Flatten(c));
      CombinationsComplete(raw, |c|, c);
      MergeEachContains(Combinations(raw, |c|), c);
      assert |c| in Between(lo, hi);
    }
  }

  lemma MergeEachSound(raw: seq<seq<Field>>, n: nat, x: seq<Field>)
    requires x in MergeEach(Combinations(raw, n))
    ensures exists c :: |c| == n && IsSubseq(c, raw) && x == Dedup(Flatten(c))
  {
    var k :| 0 <= k < |Combinations(raw, n)| && MergeEach(Combinations(raw, n))[k] == x;
    var c := Combinations(raw, n)[k];
    CombinationsSound(raw, n, c);
  }

  /** The extra choices of `indexes_for_graph`: the merged combinations of 1 to all raw
      choices, without repeats. */
  function ExtraChoices(raw: seq<seq<Field>>): (r: seq<seq<Field>>)
    ensures NoDup(r)
    ensures forall x :: x in r ==> NoDup(x)
  {
    var all := MergedCombinations(raw, 1, |raw|);
    forall x | x in all
      ensures NoDup(x)
    {
      MergedCombinationsMembers(raw, 1, |raw|, x);
    }
    Dedup(all)
  }

  /** The extra choices are exactly the field lists obtained by concatenating a
      non-empty selection of raw choices (in order) and dropping repeats. */
  lemma ExtraChoicesExact(raw: seq<seq<Field>>, x: seq<Field>)
    ensures x in ExtraChoices(raw) <==>
      exists c :: 1 <= |c| <= |raw| && IsSubseq(c, raw) && x == Dedup(Flatten(c))
  {
    MergedCombinationsMembers(raw, 1, |raw|, x);
  }

  /** Storing no extra fields is always a choice. */
  lemma EmptyExtraChoice(eq: Table, range: Table, select: seq<Field>)
    ensures [] in ExtraChoices(RawExtraChoices(eq, range, select))
  {
    var raw := RawExtraChoices(eq, range, select);
    var none: seq<Field> := [];
    SingletonSubseq(none, raw);
    assert Flatten([none]) == [];
    ExtraChoicesExact(raw, []);
  }

  /** All selected fields, without repeats, are a choice, whichever graph is being
      enumerated. */
  lemma SelectIsExtraChoice(eq: Table, range: Table, select: seq<Field>)
    requires |select| > 0
    ensures Dedup(select) in ExtraChoices(RawExtraChoices(eq, range, select))
  {
    var raw := RawExtraChoices(eq, range, select);
    assert select in raw;
    SingletonSubseq(select, raw);
    assert Flatten([select]) == select;
    ExtraChoicesExact(raw, Dedup(select));
  }
}

=== FILE: collections.dfy ===
/** Sequence helpers mirroring the Ruby Array methods the advisor relies on
    (`uniq`, `-`, `flatten`, `select`, `index`), each stated by what it keeps. */
module Collections {

  datatype Option<T> = None | Some(value: T)

  datatype Result<T, E> = Success(value: T) | Failure(error: E)

  function Last<T>(s: seq<T>): T
    requires |s| > 0
  {
    s[|s| - 1]
  }

  /** No element occurs twice. */
  predicate NoDup<T(==)>(s: seq<T>) {
    forall i, j :: 0 <= i < j < |s| ==> s[i] != s[j]
  }

  /** `Array#uniq`: the first occurrence of every element, in order. */
  function Dedup<T(==,!new)>(s: seq<T>): (r: seq<T>)
    ensures NoDup(r)
    ensures forall x :: x in r <==> x in s
    ensures |r| <= |s|
    decreases |s|
  {
    if |s| == 0 then []
    else
      var init := Dedup(s[..|s| - 1]);
      assert s == s[..|s| - 1] + [Last(s)];
      if Last(s) in init then init else init + [Last(s)]
  }

  /** `uniq` keeps the order of first occurrences: of two entries of the result, the
      earlier one first occurs earlier in the input. */
  lemma {:induction false} DedupKeepsFirstOrder<T(!new)>(s: seq<T>)
    ensures forall i, j :: 0 <= i < j < |Dedup(s)| ==>
              IndexOf(s, Dedup(s)[i]).value < IndexOf(s, Dedup(s)[j]).value
    decreases |s|
  {
    if |s| > 0 {
      var p, x := s[..|s| - 1], Last(s);
      assert s == p + [x];
      var init := Dedup(p);
      DedupKeepsFirstOrder(p);
      forall y | y in p
        ensures IndexOf(s, y) == IndexOf(p, y)
      {
        IndexOfSnoc(p, x, y);
      }
      var r := Dedup(s);
      forall i, j | 0 <= i < j < |r|
        ensures IndexOf(s, r[i]).value < IndexOf(s, r[j]).value
      {
        assert r[i] == init[i] && r[i] in p;
        if j < |init| {
          assert r[j] == init[j] && r[j] in p;
        } else {
          assert r[j] == x && x !in p;
          IndexOfSnoc(p, x, x);
        }
      }
    }
  }

  /** Appending an entry leaves the first occurrence of every earlier element where it
      was, and a new element first occurs at the end. */
  lemma IndexOfSnoc<T>(p: seq<T>, x: T, y: T)
    ensures y in p ==> IndexOf(p + [x], y) == IndexOf(p, y)
    ensures y !in p && y == x ==> IndexOf(p + [x], y) == Some(|p|)
  {
    var s := p + [x];
    assert y in p ==> y in s;
    if y in p {
      var a, b := IndexOf(p, y).value, IndexOf(s, y).value;
      assert s[..a] == p[..a];
      FirstOccurrenceUnique(s, y, a, b);
    } else if y == x {
      assert s[..|p|] == p;
      FirstOccurrenceUnique(s, y, |p|, IndexOf(s, y).value);
    }
  }

  /** Only one position holds the first occurrence of an element. */
  lemma FirstOccurrenceUnique<T>(s: seq<T>, y: T, a: nat, b: nat)
    requires a < |s| && s[a] == y && y !in s[..a]
    requires b < |s| && s[b] == y && y !in s[..b]
    ensures a == b
  {
    assert forall k :: 0 <= k < a ==> s[..a][k] == s[k];
    assert forall k :: 0 <= k < b ==> s[..b][k] == s[k];
  }

  /** A duplicate-free sequence is its own `uniq`. */
  lemma {:induction false} DedupOfNoDup<T(!new)>(s: seq<T>)
    requires NoDup(s)
    ensures Dedup(s) == s
    decreases |s|
  {
    if |s| > 0 {
      var init := s[..|s| - 1];
      assert NoDup(init);
      DedupOfNoDup(init);
      forall k | 0 <= k < |init|
        ensures init[k] != Last(s)
      {
        assert init[k] == s[k];
      }
      assert init + [Last(s)] == s;
    }
  }

  /** `Array#-`: the elements of `a` that do not occur in `b`, order and repeats kept. */
  function Minus<T(==,!new)>(a: seq<T>, b: seq<T>): (r: seq<T>)
    ensures forall x :: x in r <==> x in a && x !in b
    ensures |r| <= |a|
    ensures NoDup(a) ==> NoDup(r)
    ensures IsSubseq(r, a)
    ensures forall x :: multiset(r)[x] == if x in b then 0 else multiset(a)[x]
  {
    if |a| == 0 then []
    else
      var rest := Minus(a[1..], b);
      MinusConsCounts(a, b, rest);
      assert NoDup(a) ==> NoDup(a[1..]) && a[0] !in a[1..] by {
        if NoDup(a) {
          forall k | 0 <= k < |a[1..]|
            ensures a[1..][k] != a[0]
          {
            assert a[1..][k] == a[k + 1];
          }
        }
      }
      if a[0] in b then rest else [a[0]] + rest
  }

  /** One step of `Minus`'s count: the head of `a` is dropped when it occurs in `b` and
      counted once more otherwise. */
  lemma MinusConsCounts<T>(a: seq<T>, b: seq<T>, rest: seq<T>)
    requires |a| > 0
    requires forall x :: multiset(rest)[x] == if x in b then 0 else multiset(a[1..])[x]
    ensures var r := if a[0] in b then rest else [a[0]] + rest;
      forall x :: multiset(r)[x] == if x in b then 0 else multiset(a)[x]
  {
    assert a == [a[0]] + a[1..];
    assert multiset(a) == multiset([a[0]]) + multiset(a[1..]);
  }

  /** `Array#flatten` one level deep: the concatenation of the parts. */
  function Flatten<T(!new)>(ss: seq<seq<T>>): (r: seq<T>)
    ensures forall x :: x in r <==> exists s :: s in ss && x in s
  {
    if |ss| == 0 then []
    else
      var rest := Flatten(ss[1..]);
      assert forall s :: s in ss <==> s == ss[0] || s in ss[1..];
      ss[0] + rest
  }

  /** `flat_map`: the results of `f` on every element, concatenated in order. */
  function ConcatMap<A, B>(xs: seq<A>, f: A --> seq<B>): seq<B>
    requires forall i :: 0 <= i < |xs| ==> f.requires(xs[i])
  {
    if |xs| == 0 then [] else f(xs[0]) + ConcatMap(xs[1..], f)
  }

  /** The range `0...n`, the end left out. */
  function Upto(n: nat): (r: seq<nat>)
    ensures forall i: nat :: i in r <==> i < n
  {
    if n == 0 then [] else Upto(n - 1) + [n - 1]
  }

  /** The range `lo..hi`, both ends included. */
  function Between(lo: nat, hi: nat): (r: seq<nat>)
    ensures forall n :: n in r <==> lo <= n <= hi
    decreases hi + 1 - lo
  {
    if lo > hi then [] else [lo] + Between(lo + 1, hi)
  }

  /** An element of a `flat_map` is an element of the result on some input. */
  lemma {:induction false} ConcatMapMembers<A, B>(xs: seq<A>, f: A --> seq<B>, y: B)
    requires forall i :: 0 <= i < |xs| ==> f.requires(xs[i])
    ensures y in ConcatMap(xs, f) <==> exists x :: x in xs && f.requires(x) && y in f(x)
  {
    if |xs| > 0 {
      ConcatMapMembers(xs[1..], f, y);
      assert forall x :: x in xs <==> x == xs[0] || x in xs[1..];
    }
  }

  /** Flattening distributes over appending one more part. */
  lemma {:induction false} FlattenSnoc<T(!new)>(ss: seq<seq<T>>, s: seq<T>)
    ensures Flatten(ss + [s]) == Flatten(ss) + s
  {
    if |ss| > 0 {
      assert (ss + [s])[1..] == ss[1..] + [s];
      FlattenSnoc(ss[1..], s);
    } else {
      assert [s][1..] == [];
    }
  }

  /** The length of a concatenation is at least that of any of its parts. */
  lemma {:induction false} FlattenLength<T(!new)>(ss: seq<seq<T>>, k: nat)
    requires k < |ss|
    ensures |Flatten(ss)| >= |ss[k]|
  {
    if k > 0 {
      FlattenLength(ss[1..], k - 1);
    }
  }

  /** `Array#select`: the elements satisfying `p`, in order. */
  function Filter<T(!new)>(s: seq<T>, p: T -> bool): (r: seq<T>)
    ensures forall x :: x in r <==> x in s && p(x)
    ensures |r| <= |s|
  {
    if |s| == 0 then []
    else
      var rest := Filter(s[1..], p);
      assert forall x :: x in s <==> x == s[0] || x in s[1..];
      if p(s[0]) then [s[0]] + rest else rest
  }

  /** `filter_map`: the present results of `f` over `s`, in order. */
  function FilterMap<A(!new), B(!new)>(s: seq<A>, f: A -> Option<B>): (r: seq<B>)
    ensures forall y :: y in r <==> exists x :: x in s && f(x) == Some(y)
    ensures |r| <= |s|
  {
    if |s| == 0 then []
    else
      var rest := FilterMap(s[1..], f);
      assert forall x :: x in s <==> x == s[0] || x in s[1..];
      match f(s[0])
      case None => rest
      case Some(y) => [y] + rest
  }

  /** `Array#index`: the position of the first occurrence of `x`, or nothing. */
  function IndexOf<T(==)>(s: seq<T>, x: T): (r: Option<nat>)
    ensures r.Some? <==> x in s
    ensures r.Some? ==> r.value < |s| && s[r.value] == x && x !in s[..r.value]
  {
    if |s| == 0 then None
    else if s[0] == x then Some(0)
    else
      match IndexOf(s[1..], x)
      case None => None
      case Some(k) =>
        assert s[..k + 1] == [s[0]] + s[1..][..k];
        Some(k + 1)
  }

  /** `a` is obtained from `b` by deleting elements (order kept). */
  predicate IsSubseq<T(==)>(a: seq<T>, b: seq<T>)
    decreases |b|
  {
    |a| == 0 ||
    (|b| > 0 && ((a[0] == b[0] && IsSubseq(a[1..], b[1..])) || IsSubseq(a, b[1..])))
  }

  /** Every element of a subsequence comes from the sequence it was taken from. */
  lemma {:induction false} SubseqMembers<T>(a: seq<T>, b: seq<T>)
    requires IsSubseq(a, b)
    ensures forall x :: x in a ==> x in b
    decreases |b|
  {
    if |a| > 0 {
      if a[0] == b[0] && IsSubseq(a[1..], b[1..]) {
        SubseqMembers(a[1..], b[1..]);
        assert forall x :: x in a ==> x == a[0] || x in a[1..];
      } else {
        SubseqMembers(a, b[1..]);
      }
    }
  }

  /** A duplicate-free sequence has as many distinct elements as entries. */
  lemma {:induction false} NoDupCardinality<T>(s: seq<T>)
    requires NoDup(s)
    ensures |set x | x in s| == |s|
  {
    if |s| > 0 {
      var t := s[1..];
      assert NoDup(t);
      NoDupCardinality(t);
      forall k | 0 <= k < |t|
        ensures t[k] != s[0]
      {
        assert t[k] == s[k + 1];
      }
      assert (set x | x in s) == (set x | x in t) + {s[0]};
    }
  }

  /** A duplicate-free sequence drawn from `b` is no longer than `b`. */
  lemma NoDupBounded<T>(a: seq<T>, b: seq<T>)
    requires NoDup(a)
    requires forall x :: x in a ==> x in b
    ensures |a| <= |b|
  {
    NoDupCardinality(a);
    var sa := set x | x in a;
    var sb := set x | x in b;
    SubsetCardinality(sa, sb);
    SeqSetCardinality(b);
  }

  lemma {:induction false} SubsetCardinality<T>(a: set<T>, b: set<T>)
    requires a <= b
    ensures |a| <= |b|
    decreases a
  {
    if a != {} {
      var x :| x in a;
      SubsetCardinality(a - {x}, b - {x});
    }
  }

  /** The distinct elements of a sequence are no more than its entries. */
  lemma {:induction false} SeqSetCardinality<T>(s: seq<T>)
    ensures |set x | x in s| <= |s|
  {
    if |s| > 0 {
      SeqSetCardinality(s[1..]);
      assert (set x | x in s) == (set x | x in s[1..]) + {s[0]};
    }
  }

  /** The elements of a sequence, as a set (`to_set`). */
  function Elements<T>(s: seq<T>): set<T> {
    set x | x in s
  }

  /** `Array#take_while`: the longest leading run satisfying `p`. */
  function TakeWhile<T>(s: seq<T>, p: T -> bool): (r: seq<T>)
    ensures |r| <= |s| && r == s[..|r|]
    ensures forall i :: 0 <= i < |r| ==> p(r[i])
    ensures |r| < |s| ==> !p(s[|r|])
  {
    if |s| == 0 || !p(s[0]) then []
    else
      var rest := TakeWhile(s[1..], p);
      assert s[..|rest| + 1] == [s[0]] + s[1..][..|rest|];
      [s[0]] + rest
  }

  /** Two duplicate-free sequences with no common element concatenate to a
      duplicate-free sequence. */
  lemma NoDupConcat<T>(a: seq<T>, b: seq<T>)
    requires NoDup(a) && NoDup(b)
    requires forall x :: x in a ==> x !in b
    ensures NoDup(a + b)
  {
    var c := a + b;
    forall i, j | 0 <= i < j < |c|
      ensures c[i] != c[j]
    {
      if j < |a| {
        assert c[i] == a[i] && c[j] == a[j];
      } else if i >= |a| {
        assert c[i] == b[i - |a|] && c[j] == b[j - |a|];
      } else {
        assert c[i] == a[i] && c[j] == b[j - |a|];
        assert a[i] in a;
      }
    }
  }

  /** Dropping the first entry keeps a sequence duplicate-free, and the dropped entry
      does not occur again. */
  lemma NoDupTail<T>(s: seq<T>)
    requires NoDup(s) && |s| > 0
    ensures NoDup(s[1..]) && s[0] !in s[1..]
  {
    forall k | 0 <= k < |s[1..]|
      ensures s[1..][k] != s[0]
    {
      assert s[1..][k] == s[k + 1];
    }
  }
}

=== FILE: combinatorics.dfy ===
/** Ruby's `Array#permutation(n)` and `Array#combination(n)`, plus the two helpers the
    enumerator calls whose definitions are not part of this model (`prefixes`,
    `partitions`), with lemmas saying exactly what each one enumerates. */
module Combinatorics {
  import opened Collections

  function RemoveAt<T>(s: seq<T>, i: nat): seq<T>
    requires i < |s|
  {
    s[..i] + s[i + 1..]
  }

  function PrependAll<T>(x: T, ps: seq<seq<T>>): seq<seq<T>> {
    seq(|ps|, k requires 0 <= k < |ps| => [x] + ps[k])
  }

  /** `s.permutation(n)`: every ordered choice of `n` entries at distinct positions,
      the position of the first entry varying slowest (Ruby's order). */
  function Arrangements<T>(s: seq<T>, n: nat): seq<seq<T>>
    decreases n, |s| + 1
  {
    if n == 0 then [[]] else ArrangementsFrom(s, n, 0)
  }

  /** The arrangements of `s` whose first entry is taken from position `i` or later. */
  function ArrangementsFrom<T>(s: seq<T>, n: nat, i: nat): seq<seq<T>>
    requires 1 <= n && i <= |s|
    decreases n, |s| - i
  {
    if i == |s| then []
    else PrependAll(s[i], Arrangements(RemoveAt(s, i), n - 1)) + ArrangementsFrom(s, n, i + 1)
  }

  /** `x` lists `n` distinct elements of `s`. */
  predicate IsArrangement<T(==)>(x: seq<T>, s: seq<T>, n: nat) {
    |x| == n && NoDup(x) && forall e :: e in x ==> e in s
  }

  lemma RemoveAtMembers<T>(s: seq<T>, i: nat)
    requires i < |s|
    ensures forall e :: e in RemoveAt(s, i) ==> e in s
    ensures forall j :: 0 <= j < |s| && j != i ==> s[j] in RemoveAt(s, i)
    ensures NoDup(s) ==> NoDup(RemoveAt(s, i)) && s[i] !in RemoveAt(s, i)
  {
    var r := RemoveAt(s, i);
    assert forall k :: 0 <= k < |r| ==> r[k] == (if k < i then s[k] else s[k + 1]);
    forall j | 0 <= j < |s| && j != i
      ensures s[j] in r
    {
      if j < i {
        assert r[j] == s[j];
      } else {
        assert r[j - 1] == s[j];
      }
    }
  }

  /** Every arrangement has length `n` and draws its entries from `s`, and has
      no repeats when `s` has none. */
  lemma {:induction false} ArrangementsSound<T>(s: seq<T>, n: nat, x: seq<T>)
    requires x in Arrangements(s, n)
    ensures |x| == n
    ensures forall e :: e in x ==> e in s
    ensures NoDup(s) ==> NoDup(x)
    decreases n, |s| + 1
  {
    if n > 0 {
      ArrangementsFromSound(s, n, 0, x);
    }
  }

  lemma {:induction false} ArrangementsFromSound<T>(s: seq<T>, n: nat, i: nat, x: seq<T>)
    requires 1 <= n && i <= |s|
    requires x in ArrangementsFrom(s, n, i)
    ensures |x| == n
    ensures forall e :: e in x ==> e in s
    ensures NoDup(s) ==> NoDup(x)
    decreases n, |s| - i
  {
    if i < |s| {
      var rest := Arrangements(RemoveAt(s, i), n - 1);
      var head := PrependAll(s[i], rest);
      if x in head {
        var k :| 0 <= k < |head| && head[k] == x;
        var p := rest[k];
        ArrangementsSound(RemoveAt(s, i), n - 1, p);
        RemoveAtMembers(s, i);
        assert x == [s[i]] + p;
        assert forall e :: e in x ==> e == s[i] || e in p;
        if NoDup(s) {
          forall a, b | 0 <= a < b < |x|
            ensures x[a] != x[b]
          {
            if a == 0 {
              assert x[b] == p[b - 1];
            } else {
              assert x[a] == p[a - 1] && x[b] == p[b - 1];
            }
          }
        }
      } else {
        ArrangementsFromSound(s, n, i + 1, x);
      }
    }
  }

  /** Every list of `n` distinct elements of `s` is enumerated. */
  lemma {:induction false} ArrangementsComplete<T>(s: seq<T>, n: nat, x: seq<T>)
    requires IsArrangement(x, s, n)
    ensures x in Arrangements(s, n)
    decreases n, |s| + 1
  {
    if n > 0 {
      assert x[0] in x;
      var i :| 0 <= i < |s| && s[i] == x[0];
      ArrangementsFromComplete(s, n, 0, i, x);
    }
  }

  lemma {:induction false} ArrangementsFromComplete<T>(s: seq<T>, n: nat, j: nat, i: nat, x: seq<T>)
    requires 1 <= n && j <= i < |s|
    requires IsArrangement(x, s, n) && s[i] == x[0]
    ensures x in ArrangementsFrom(s, n, j)
    decreases n, |s| - j
  {
    if j == i {
      var tail := x[1..];
      var smaller := RemoveAt(s, i);
      RemoveAtMembers(s, i);
      forall e | e in tail
        ensures e in smaller
      {
        var k :| 0 <= k < |tail| && tail[k] == e;
        assert e == x[k + 1] && x[k + 1] != x[0];
        assert x[k + 1] in x;
        var m :| 0 <= m < |s| && s[m] == e;
      }
      assert NoDup(tail) by {
        forall a, b | 0 <= a < b < |tail|
          ensures tail[a] != tail[b]
        {
          assert tail[a] == x[a + 1] && tail[b] == x[b + 1];
        }
      }
      ArrangementsComplete(smaller, n - 1, tail);
      var rest := Arrangements(smaller, n - 1);
      var k :| 0 <= k < |rest| && rest[k] == tail;
      assert PrependAll(s[i], rest)[k] == x;
    } else {
      ArrangementsFromComplete(s, n, j + 1, i, x);
    }
  }

  /** Arrangements of a duplicate-free `s` are exactly the lists of `n` distinct elements of `s`. */
  lemma ArrangementsExact<T>(s: seq<T>, n: nat, x: seq<T>)
    requires NoDup(s)
    ensures x in Arrangements(s, n) <==> IsArrangement(x, s, n)
  {
    if x in Arrangements(s, n) {
      ArrangementsSound(s, n, x);
    }
    if IsArrangement(x, s, n) {
      ArrangementsComplete(s, n, x);
    }
  }

  /** `s.combination(n)`: every choice of `n` entries at increasing positions. */
  function Combinations<T>(s: seq<T>, n: nat): seq<seq<T>>
    decreases |s|
  {
    if n == 0 then [[]]
    else if |s| == 0 then []
    else PrependAll(s[0], Combinations(s[1..], n - 1)) + Combinations(s[1..], n)
  }

  lemma {:induction false} CombinationsSound<T>(s: seq<T>, n: nat, x: seq<T>)
    requires x in Combinations(s, n)
    ensures |x| == n && IsSubseq(x, s)
    decreases |s|
  {
    if n > 0 {
      var withHead := Combinations(s[1..], n - 1);
      if x in PrependAll(s[0], withHead) {
        var k :| 0 <= k < |withHead| && [s[0]] + withHead[k] == x;
        CombinationsSound(s[1..], n - 1, withHead[k]);
        assert x[1..] == withHead[k];
      } else {
        CombinationsSound(s[1..], n, x);
      }
    }
  }

  lemma {:induction false} CombinationsComplete<T>(s: seq<T>, n: nat, x: seq<T>)
    requires |x| == n && IsSubseq(x, s)
    ensures x in Combinations(s, n)
    decreases |s|
  {
    if n > 0 {
      if x[0] == s[0] && IsSubseq(x[1..], s[1..]) {
        CombinationsComplete(s[1..], n - 1, x[1..]);
        var withHead := Combinations(s[1..], n - 1);
        var k :| 0 <= k < |withHead| && withHead[k] == x[1..];
        assert PrependAll(s[0], withHead)[k] == x;
      } else {
        CombinationsComplete(s[1..], n, x);
      }
    }
  }

  /** The combinations of size `n` are exactly the subsequences of length `n`. */
  lemma CombinationsExact<T>(s: seq<T>, n: nat, x: seq<T>)
    ensures x in Combinations(s, n) <==> |x| == n && IsSubseq(x, s)
  {
    if x in Combinations(s, n) {
      CombinationsSound(s, n, x);
    }
    if |x| == n && IsSubseq(x, s) {
      CombinationsComplete(s, n, x);
    }
  }

  lemma {:induction false} SingletonSubseq<T>(b: T, t: seq<T>)
    ensures IsSubseq([b], t) <==> b in t
    decreases |t|
  {
    if |t| > 0 {
      SingletonSubseq(b, t[1..]);
      assert [b][1..] == [];
      assert b in t <==> b == t[0] || b in t[1..];
    }
  }

  lemma {:induction false} PairSubseq<T>(a: T, b: T, s: seq<T>)
    ensures IsSubseq([a, b], s) <==> exists i, j :: 0 <= i < j < |s| && s[i] == a && s[j] == b
    decreases |s|
  {
    if |s| > 0 {
      PairSubseq(a, b, s[1..]);
      SingletonSubseq(b, s[1..]);
      assert [a, b][1..] == [b];
      if IsSubseq([a, b], s) {
        if a == s[0] && IsSubseq([b], s[1..]) {
          var k :| 0 <= k < |s[1..]| && s[1..][k] == b;
          assert s[0] == a && s[k + 1] == b;
        } else {
          var i, j :| 0 <= i < j < |s[1..]| && s[1..][i] == a && s[1..][j] == b;
          assert s[i + 1] == a && s[j + 1] == b;
        }
      }
      if exists i, j :: 0 <= i < j < |s| && s[i] == a && s[j] == b {
        var i, j :| 0 <= i < j < |s| && s[i] == a && s[j] == b;
        if i == 0 {
          assert s[1..][j - 1] == b;
        } else {
          assert s[1..][i - 1] == a && s[1..][j - 1] == b;
        }
      }
    }
  }

  /** `s.combination(2)` lists exactly the pairs of entries at increasing positions. */
  lemma PairsExact<T>(s: seq<T>, x: seq<T>)
    ensures x in Combinations(s, 2) <==> exists i, j :: 0 <= i < j < |s| && x == [s[i], s[j]]
  {
    CombinationsExact(s, 2, x);
    if |x| == 2 {
      assert x == [x[0], x[1]];
      PairSubseq(x[0], x[1], s);
    }
  }

  /** `Array#prefixes`, which is defined outside this model, taken to give the
      non-empty leading segments, shortest first. */
  function Prefixes<T>(s: seq<T>): seq<seq<T>> {
    seq(|s|, k requires 0 <= k < |s| => s[..k + 1])
  }

  /** `Array#partitions`, which is defined outside this model, taken to give every
      split of `s` into a leading and a trailing part, from `([], s)` to `(s, [])`. */
  function Partitions<T>(s: seq<T>): seq<(seq<T>, seq<T>)> {
    seq(|s| + 1, k requires 0 <= k <= |s| => (s[..k], s[k..]))
  }

  /** The listed splits are exactly the pairs that concatenate back to `s`. */
  lemma PartitionsMembers<T>(s: seq<T>, pq: (seq<T>, seq<T>))
    ensures pq in Partitions(s) <==> pq.0 + pq.1 == s
  {
    var parts := Partitions(s);
    if pq in parts {
      var k :| 0 <= k < |parts| && parts[k] == pq;
      assert s[..k] + s[k..] == s;
    }
    if pq.0 + pq.1 == s {
      var k := |pq.0|;
      assert pq.0 == s[..k] && pq.1 == s[k..];
      assert parts[k] == pq;
    }
  }

  /** `(lo..hi).flat_map { |n| s.permutation(n) }`: the arrangements of every size from
      `lo` to `hi`, shortest first. */
  function ArrangementsBetween<T>(s: seq<T>, lo: nat, hi: nat): seq<seq<T>>
    decreases hi + 1 - lo
  {
    if lo > hi then [] else Arrangements(s, lo) + ArrangementsBetween(s, lo + 1, hi)
  }

  lemma {:induction false} ArrangementsBetweenMembers<T>(s: seq<T>, lo: nat, hi: nat, x: seq<T>)
    ensures x in ArrangementsBetween(s, lo, hi) <==> lo <= |x| <= hi && x in Arrangements(s, |x|)
    decreases hi + 1 - lo
  {
    if lo <= hi {
      ArrangementsBetweenMembers(s, lo + 1, hi, x);
      if x in Arrangements(s, lo) {
        ArrangementsSound(s, lo, x);
      }
    }
  }

  /** Arrangements of a duplicate-free array, listed size by size, never repeat. */
  lemma {:induction false} ArrangementsBetweenNoDup<T>(s: seq<T>, lo: nat, hi: nat)
    requires NoDup(s)
    ensures NoDup(ArrangementsBetween(s, lo, hi))
    decreases hi + 1 - lo
  {
    if lo <= hi {
      ArrangementsNoDup(s, lo);
      ArrangementsBetweenNoDup(s, lo + 1, hi);
      forall x | x in Arrangements(s, lo)
        ensures x !in ArrangementsBetween(s, lo + 1, hi)
      {
        ArrangementsSound(s, lo, x);
        ArrangementsBetweenMembers(s, lo + 1, hi, x);
      }
      NoDupConcat(Arrangements(s, lo), ArrangementsBetween(s, lo + 1, hi));
    }
  }

  /** The arrangements of every size from 1 up to `|s|` of a duplicate-free `s` are
      exactly its non-empty lists of distinct elements. */
  lemma AllArrangementsExact<T>(s: seq<T>, x: seq<T>)
    requires NoDup(s)
    ensures x in ArrangementsBetween(s, 1, |s|) <==>
      |x| >= 1 && NoDup(x) && forall e :: e in x ==> e in s
  {
    ArrangementsBetweenMembers(s, 1, |s|, x);
    ArrangementsExact(s, |x|, x);
    if NoDup(x) && forall e :: e in x ==> e in s {
      NoDupBounded(x, s);
    }
  }

  lemma PrependAllNoDup<T>(x: T, ps: seq<seq<T>>)
    requires NoDup(ps)
    ensures NoDup(PrependAll(x, ps))
  {
    var r := PrependAll(x, ps);
    forall i, j | 0 <= i < j < |r|
      ensures r[i] != r[j]
    {
      assert r[i][1..] == ps[i] && r[j][1..] == ps[j];
    }
  }

  /** `permutation(n)` of a duplicate-free array never lists the same arrangement twice. */
  lemma {:induction false} ArrangementsNoDup<T>(s: seq<T>, n: nat)
    requires NoDup(s)
    ensures NoDup(Arrangements(s, n))
    decreases n, |s| + 1
  {
    if n > 0 {
      ArrangementsFromNoDup(s, n, 0);
    }
  }

  lemma {:induction false} ArrangementsFromNoDup<T>(s: seq<T>, n: nat, i: nat)
    requires NoDup(s)
    requires 1 <= n && i <= |s|
    ensures NoDup(ArrangementsFrom(s, n, i))
    ensures forall x :: x in ArrangementsFrom(s, n, i) ==> |x| > 0 && x[0] in s[i..]
    decreases n, |s| - i
  {
    if i < |s| {
      var smaller := RemoveAt(s, i);
      RemoveAtMembers(s, i);
      ArrangementsNoDup(smaller, n - 1);
      var head := PrependAll(s[i], Arrangements(smaller, n - 1));
      PrependAllNoDup(s[i], Arrangements(smaller, n - 1));
      var tail := ArrangementsFrom(s, n, i + 1);
      ArrangementsFromNoDup(s, n, i + 1);
      forall y | y in tail
        ensures y[0] != s[i]
      {
        var j :| 0 <= j < |s[i + 1..]| && s[i + 1..][j] == y[0];
        assert s[i + 1 + j] == y[0];
      }
      forall x | x in head
        ensures x !in tail && |x| > 0 && x[0] == s[i]
      {
        var k :| 0 <= k < |head| && head[k] == x;
        assert x[0] == s[i];
      }
      NoDupConcat(head, tail);
      forall x | x in tail
        ensures x[0] in s[i..]
      {
        assert s[i + 1..] == s[i..][1..];
      }
    }
  }
}

=== FILE: enumerator.dfy ===
/** `IndexEnumerator`: every candidate index for a query graph (keys x extras x orders,
    each key split into a hash and an order part), the per-query and per-workload
    unions, and the pass that merges the extra fields of indexes sharing a hash key. */
module Enumerator {
  import opened Collections
  import opened Combinatorics
  import opened Schema
  import opened Choices
  import opened Candidates

  /** The identifier field of every listed entity, in the same order. */
  function IdFields(m: Model, es: seq<EntityId>): (r: seq<Field>)
    requires HasIds(m, es)
    ensures |r| == |es| && forall i :: 0 <= i < |es| ==> r[i] == IdField(m, es[i])
  {
    if |es| == 0 then []
    else
      assert forall e :: e in es[1..] ==> e in es;
      [IdField(m, es[0])] + IdFields(m, es[1..])
  }

  /** `order + graph.entities.sort_by(&:name).map(&:id_field) - (key + order)`: the order
      choice followed by the identifier fields of the graph's entities, in name order,
      that neither the key nor the order already holds. */
  function CompleteOrder(m: Model, g: QueryGraph, key: seq<Field>, order: seq<Field>): (r: seq<Field>)
    requires HasIds(m, g.entities)
    ensures |r| >= |order| && r[..|order|] == order
    ensures forall e :: e in g.entities ==> IdField(m, e) in key + r
    ensures forall f :: f in r[|order|..] ==> f !in key + order
    ensures IsSubseq(r[|order|..], IdFields(m, SortByName(m, g.entities)))
  {
    assert AllKnown(m, g.entities);
    var sorted := SortByName(m, g.entities);
    var ids := IdFields(m, sorted);
    var added := Minus(ids, key + order);
    var r := order + added;
    assert r[|order|..] == added;
    forall e | e in g.entities
      ensures IdField(m, e) in key + r
    {
      var k :| 0 <= k < |sorted| && sorted[k] == e;
      assert ids[k] == IdField(m, e);
    }
    r
  }

  predicate SameParent(first: Field, f: Field) {
    f.parent == first.parent
  }

  /** One split of key `prefix + suffix`: the hash fields are the leading run of
      `prefix` owned by the entity of the key's first field (`prefix`'s first field),
      the rest of the prefix, the suffix and the order make the order fields, and the
      extra fields lose whatever the key and the order hold. A split with neither order nor extra fields is skipped, and one the
      constructor rejects is dropped. */
  function Candidate(prefix: seq<Field>, suffix: seq<Field>, extra: seq<Field>, order: seq<Field>, g: QueryGraph): Option<CIndex> {
    var hash := if |prefix| == 0 then [] else TakeWhile(prefix, f => SameParent(prefix[0], f));
    var orderFields := prefix[|hash|..] + suffix + order;
    var extraFields := Minus(Minus(extra, hash), orderFields);
    if |orderFields| == 0 && |extraFields| == 0 then None
    else GenerateIndex(hash, orderFields, extraFields, g)
  }

  /** A kept split is a valid index of the graph whose hash fields all belong to the
      key's first entity, whose extra fields come from the extra choice and avoid its key
      fields, which has order or extra fields, and whose key fields are exactly the
      split key followed by the order. */
  lemma CandidateShape(prefix: seq<Field>, suffix: seq<Field>, extra: seq<Field>, order: seq<Field>, g: QueryGraph)
    requires Candidate(prefix, suffix, extra, order, g).Some?
    ensures var ix := Candidate(prefix, suffix, extra, order, g).value;
      && ValidIndex(ix) && ix.graph == g
      && |prefix| > 0 && (forall f :: f in ix.hash ==> f.parent == prefix[0].parent)
      && (forall f :: f in ix.extra ==> f in extra && f !in ix.hash && f !in ix.order)
      && (ix.order != [] || ix.extra != {})
      && (forall f :: f in ix.hash || f in ix.order <==> f in prefix + suffix + order)
  {
    var hash := if |prefix| == 0 then [] else TakeWhile(prefix, f => SameParent(prefix[0], f));
    var orderFields := prefix[|hash|..] + suffix + order;
    var extraFields := Minus(Minus(extra, hash), orderFields);
    assert Candidate(prefix, suffix, extra, order, g) == GenerateIndex(hash, orderFields, extraFields, g);
    assert |orderFields| > 0 || |extraFields| > 0;
    assert |prefix| > 0;
    LeadingRun(prefix);
    GeneratedShape(hash, orderFields, extraFields, g);
    assert forall f :: f in hash + orderFields <==> f in prefix + suffix + order;
  }

  /** The hash part of a split is the longest leading run of fields of the first
      field's entity: it holds at least the first field, and the field after it, if any,
      belongs to another entity. */
  lemma LeadingRun(prefix: seq<Field>)
    requires |prefix| > 0
    ensures var hash := TakeWhile(prefix, f => SameParent(prefix[0], f));
      && prefix == hash + prefix[|hash|..]
      && |hash| >= 1
      && (forall f :: f in hash ==> f.parent == prefix[0].parent)
      && (|hash| < |prefix| ==> prefix[|hash|].parent != prefix[0].parent)
  {
    var hash := TakeWhile(prefix, f => SameParent(prefix[0], f));
    assert hash == prefix[..|hash|];
  }

  /** What the constructor keeps of the hash, order and extra fields it is given. */
  lemma GeneratedShape(hash: seq<Field>, orderFields: seq<Field>, extraFields: seq<Field>, g: QueryGraph)
    requires GenerateIndex(hash, orderFields, extraFields, g).Some?
    ensures var ix := GenerateIndex(hash, orderFields, extraFields, g).value;
      && (forall f :: f in ix.hash || f in ix.order <==> f in hash + orderFields)
      && (forall f :: f in ix.extra <==> f in extraFields)
      && (ix.order != [] <==> orderFields != [])
      && (ix.extra != {} <==> extraFields != [])
  {
    var ix := GenerateIndex(hash, orderFields, extraFields, g).value;
    assert |orderFields| > 0 ==> orderFields[0] in ix.order;
    assert |extraFields| > 0 ==> extraFields[0] in ix.extra;
  }

  /** Everything the enumerator promises about a candidate for graph `g`. */
  predicate WellShaped(m: Model, g: QueryGraph, ix: CIndex)
    requires HasIds(m, g.entities)
  {
    && ValidIndex(ix)
    && ix.graph == g
    && (forall f :: f in ix.extra ==> f !in ix.hash && f !in ix.order)
    && (ix.order != [] || ix.extra != {})
    && (forall e :: e in g.entities ==> IdField(m, e) in ix.hash || IdField(m, e) in ix.order)
  }

  /** The candidates for one key, one extra choice and one order choice: one per split
      of the key into a leading and a trailing part, from the empty leading part on. */
  function KeyCandidates(m: Model, g: QueryGraph, key: seq<Field>, extra: seq<Field>, order: seq<Field>): seq<CIndex>
    requires HasIds(m, g.entities)
  {
    var full := CompleteOrder(m, g, key, order);
    FilterMap(Partitions(key), (pq: (seq<Field>, seq<Field>)) => Candidate(pq.0, pq.1, extra, full, g))
  }

  /** A key candidate is exactly a kept split of the key into a leading and a trailing
      part, with the order completed by the graph's identifier fields. */
  lemma KeyCandidatesMembers(m: Model, g: QueryGraph, key: seq<Field>, extra: seq<Field>, order: seq<Field>, ix: CIndex)
    requires HasIds(m, g.entities)
    ensures ix in KeyCandidates(m, g, key, extra, order) <==>
      exists p, q :: p + q == key && Candidate(p, q, extra, CompleteOrder(m, g, key, order), g) == Some(ix)
  {
    var full := CompleteOrder(m, g, key, order);
    var f := (pq: (seq<Field>, seq<Field>)) => Candidate(pq.0, pq.1, extra, full, g);
    if ix in KeyCandidates(m, g, key, extra, order) {
      var pq :| pq in Partitions(key) && f(pq) == Some(ix);
      PartitionsMembers(key, pq);
      assert pq.0 + pq.1 == key && Candidate(pq.0, pq.1, extra, full, g) == Some(ix);
    }
    if exists p, q :: p + q == key && Candidate(p, q, extra, full, g) == Some(ix) {
      var p, q :| p + q == key && Candidate(p, q, extra, full, g) == Some(ix);
      PartitionsMembers(key, (p, q));
      assert f((p, q)) == Some(ix);
    }
  }

  /** For every order choice, in order. */
  function OrderCandidates(m: Model, g: QueryGraph, key: seq<Field>, extra: seq<Field>, orders: seq<seq<Field>>): seq<CIndex>
    requires HasIds(m, g.entities)
  {
    ConcatMap(orders, order requires HasIds(m, g.entities) => KeyCandidates(m, g, key, extra, order))
  }

  /** For every extra choice, in order. */
  function ExtraCandidates(m: Model, g: QueryGraph, key: seq<Field>, extras: seq<seq<Field>>, orders: seq<seq<Field>>): seq<CIndex>
    requires HasIds(m, g.entities)
  {
    ConcatMap(extras, extra requires HasIds(m, g.entities) => OrderCandidates(m, g, key, extra, orders))
  }

  /** `eq_choices.product(extra_choices)` crossed with every order choice: keys vary
      slowest, then extras, then orders, then splits. */
  function ProductCandidates(m: Model, g: QueryGraph, keys: seq<seq<Field>>, extras: seq<seq<Field>>, orders: seq<seq<Field>>): seq<CIndex>
    requires HasIds(m, g.entities)
  {
    ConcatMap(keys, key requires HasIds(m, g.entities) => ExtraCandidates(m, g, key, extras, orders))
  }

  /** `indexes_for_graph`: the candidates for one connected piece of the query graph,
      and the equality table as the enumeration leaves it. */
  function IndexesForGraph(m: Model, g: QueryGraph, select: seq<Field>, eq: Table, range: Table): (r: (seq<CIndex>, Table))
    requires HasIds(m, g.entities)
    ensures Keys(r.1) == Keys(eq)
  {
    var (keys, eq1) := EqChoices(m, g, eq);
    var orders := OrderChoices(RangeFields(range, g));
    var extras := ExtraChoices(RawExtraChoices(eq1, range, select));
    (ProductCandidates(m, g, keys, extras, orders), eq1)
  }

  /** The product holds exactly the candidates of some key, extra choice and order
      choice. */
  lemma ProductCandidatesExact(m: Model, g: QueryGraph, keys: seq<seq<Field>>, extras: seq<seq<Field>>,
                               orders: seq<seq<Field>>, ix: CIndex)
    requires HasIds(m, g.entities)
    ensures ix in ProductCandidates(m, g, keys, extras, orders) <==>
      exists key, extra, order :: key in keys && extra in extras && order in orders && ix in KeyCandidates(m, g, key, extra, order)
  {
    ConcatMapMembers(keys, key requires HasIds(m, g.entities) => ExtraCandidates(m, g, key, extras, orders), ix);
    if ix in ProductCandidates(m, g, keys, extras, orders) {
      var key :| key in keys && ix in ExtraCandidates(m, g, key, extras, orders);
      ConcatMapMembers(extras, extra requires HasIds(m, g.entities) => OrderCandidates(m, g, key, extra, orders), ix);
      var extra :| extra in extras && ix in OrderCandidates(m, g, key, extra, orders);
      ConcatMapMembers(orders, order requires HasIds(m, g.entities) => KeyCandidates(m, g, key, extra, order), ix);
    }
    if exists key, extra, order :: key in keys && extra in extras && order in orders && ix in KeyCandidates(m, g, key, extra, order) {
      var key, extra, order :| key in keys && extra in extras && order in orders && ix in KeyCandidates(m, g, key, extra, order);
      ConcatMapMembers(orders, order requires HasIds(m, g.entities) => KeyCandidates(m, g, key, extra, order), ix);
      ConcatMapMembers(extras, extra requires HasIds(m, g.entities) => OrderCandidates(m, g, key, extra, orders), ix);
    }
  }

  /** A graph candidate is exactly a candidate of some equality key, some extra choice
      and some order choice (`KeyCandidatesMembers` says which splits those are). */
  lemma GraphCandidatesExact(m: Model, g: QueryGraph, select: seq<Field>, eq: Table, range: Table, ix: CIndex)
    requires HasIds(m, g.entities)
    ensures ix in IndexesForGraph(m, g, select, eq, range).0 <==>
      exists key, extra, order ::
        && key in EqChoices(m, g, eq).0
        && extra in ExtraChoices(RawExtraChoices(EqChoices(m, g, eq).1, range, select))
        && order in OrderChoices(RangeFields(range, g))
        && ix in KeyCandidates(m, g, key, extra, order)
  {
    var (keys, eq1) := EqChoices(m, g, eq);
    ProductCandidatesExact(m, g, keys, ExtraChoices(RawExtraChoices(eq1, range, select)), OrderChoices(RangeFields(range, g)), ix);
  }

  /** Every split the enumerator keeps has the promised shape, with hash fields owned
      by the entity of the key's first field. */
  lemma KeyCandidateWellShaped(m: Model, g: QueryGraph, key: seq<Field>, extra: seq<Field>, order: seq<Field>, ix: CIndex)
    requires HasIds(m, g.entities)
    requires ix in KeyCandidates(m, g, key, extra, order)
    ensures WellShaped(m, g, ix)
    ensures |key| > 0 && forall f :: f in ix.hash ==> f.parent == key[0].parent
  {
    KeyCandidatesMembers(m, g, key, extra, order, ix);
    var full := CompleteOrder(m, g, key, order);
    var p, q :| p + q == key && Candidate(p, q, extra, full, g) == Some(ix);
    CandidateShape(p, q, extra, full, g);
    assert p[0] == key[0];
    forall e | e in g.entities
      ensures IdField(m, e) in ix.hash || IdField(m, e) in ix.order
    {
      assert IdField(m, e) in key + full;
      assert IdField(m, e) in p + q + full;
    }
  }

  /** Every candidate for a graph is valid, belongs to that graph, keeps its extra
      fields apart from its hash and order fields, has order or extra fields, and holds
      the identifier field of every graph entity in its hash or order fields. */
  lemma GraphCandidatesWellShaped(m: Model, g: QueryGraph, select: seq<Field>, eq: Table, range: Table, ix: CIndex)
    requires HasIds(m, g.entities)
    requires ix in IndexesForGraph(m, g, select, eq, range).0
    ensures WellShaped(m, g, ix)
  {
    GraphCandidatesExact(m, g, select, eq, range, ix);
    var key, extra, order :|
      && key in EqChoices(m, g, eq).0
      && extra in ExtraChoices(RawExtraChoices(EqChoices(m, g, eq).1, range, select))
      && order in OrderChoices(RangeFields(range, g))
      && ix in KeyCandidates(m, g, key, extra, order);
    KeyCandidateWellShaped(m, g, key, extra, order, ix);
  }

  /** `query.graph.subgraphs.flat_map { |graph| indexes_for_graph … }`: the candidates
      of every connected piece in turn, each piece seeing the equality table as the
      pieces before it left it. */
  function SubgraphCandidates(m: Model, gs: seq<QueryGraph>, select: seq<Field>, eq: Table, range: Table): seq<CIndex>
    requires forall g :: g in gs ==> HasIds(m, g.entities)
  {
    if |gs| == 0 then []
    else
      var (first, eq1) := IndexesForGraph(m, gs[0], select, eq, range);
      first + SubgraphCandidates(m, gs[1..], select, eq1, range)
  }

  /** Every candidate of a statement's pieces has the promised shape for one of them. */
  lemma {:induction false} SubgraphCandidatesWellShaped(m: Model, gs: seq<QueryGraph>, select: seq<Field>,
                                                        eq: Table, range: Table, ix: CIndex)
    requires forall g :: g in gs ==> HasIds(m, g.entities)
    requires ix in SubgraphCandidates(m, gs, select, eq, range)
    ensures exists g :: g in gs && WellShaped(m, g, ix)
  {
    var (first, eq1) := IndexesForGraph(m, gs[0], select, eq, range);
    if ix in first {
      GraphCandidatesWellShaped(m, gs[0], select, eq, range, ix);
    } else {
      SubgraphCandidatesWellShaped(m, gs[1..], select, eq1, range, ix);
      var g :| g in gs[1..] && WellShaped(m, g, ix);
    }
  }

  /** The range field, when there is one, followed by the `order by` fields. */
  function RangeList(q: Query): (r: seq<Field>)
    ensures forall f :: f in r <==> q.range == Some(f) || f in q.orderBy
    ensures q.range.Some? ==> |r| == |q.orderBy| + 1 && r[0] == q.range.value && r[1..] == q.orderBy
    ensures q.range.None? ==> r == q.orderBy
  {
    (if q.range.Some? then [q.range.value] else []) + q.orderBy
  }

  /** Every entity of every piece of the statement's graph declares an identifier. */
  predicate QueryFits(m: Model, q: Query) {
    forall g :: g in q.subgraphs ==> HasIds(m, g.entities)
  }

  /** `indexes_for_query`: the distinct candidates of every piece of the statement's
      graph, followed by the statement's materialized view, which `view` stands for. */
  function IndexesForQuery(m: Model, view: Query -> CIndex, q: Query): (r: seq<CIndex>)
    requires QueryFits(m, q)
    ensures |r| > 0 && Last(r) == view(q)
    ensures NoDup(r[..|r| - 1])
  {
    var enumerated := Dedup(SubgraphCandidates(m, q.subgraphs, q.select, GroupByParent(q.eq), GroupByParent(RangeList(q))));
    assert (enumerated + [view(q)])[..|enumerated|] == enumerated;
    enumerated + [view(q)]
  }

  /** Every index enumerated for a statement is its materialized view or has the
      promised shape for one piece of its graph. */
  lemma QueryIndexesWellShaped(m: Model, view: Query -> CIndex, q: Query, ix: CIndex)
    requires QueryFits(m, q)
    requires ix in IndexesForQuery(m, view, q)
    ensures ix == view(q) || exists g :: g in q.subgraphs && WellShaped(m, g, ix)
  {
    var eq, range := GroupByParent(q.eq), GroupByParent(RangeList(q));
    if ix != view(q) {
      assert ix in SubgraphCandidates(m, q.subgraphs, q.select, eq, range);
      SubgraphCandidatesWellShaped(m, q.subgraphs, q.select, eq, range, ix);
    }
  }

  /** An update statement, known to the enumerator only through its support queries. */
  type UpdateId = nat

  /** What the enumerator reads from a workload: the model, the queries, the updates,
      and two operations defined elsewhere, each statement's materialized view and the
      support queries an update needs to maintain an index. */
  datatype Workload = Workload(
    model: Model,
    queries: seq<Query>,
    updates: seq<UpdateId>,
    view: Query -> CIndex,
    support: (UpdateId, CIndex) -> seq<Query>)

  /** Every query, and every support query any update could ask for, fits the model. */
  ghost predicate WorkloadFits(w: Workload) {
    && (forall q :: q in w.queries ==> QueryFits(w.model, q))
    && (forall u, ix, q :: q in w.support(u, ix) ==> QueryFits(w.model, q))
  }

  /** The indexes of every listed statement, statement by statement. */
  function QueriesIndexes(w: Workload, qs: seq<Query>): seq<CIndex>
    requires forall q :: q in qs ==> QueryFits(w.model, q)
  {
    if |qs| == 0 then []
    else IndexesForQuery(w.model, w.view, qs[0]) + QueriesIndexes(w, qs[1..])
  }

  lemma {:induction false} QueriesIndexesMembers(w: Workload, qs: seq<Query>, ix: CIndex)
    requires forall q :: q in qs ==> QueryFits(w.model, q)
    ensures ix in QueriesIndexes(w, qs) <==> exists q :: q in qs && ix in IndexesForQuery(w.model, w.view, q)
  {
    if |qs| > 0 {
      QueriesIndexesMembers(w, qs[1..], ix);
      assert forall q :: q in qs <==> q == qs[0] || q in qs[1..];
    }
  }

  /** The support queries of every listed update for one index. */
  function UpdateSupport(w: Workload, us: seq<UpdateId>, ix: CIndex): (r: seq<Query>)
    ensures forall q :: q in r <==> exists u :: u in us && q in w.support(u, ix)
  {
    if |us| == 0 then []
    else
      assert forall u :: u in us <==> u == us[0] || u in us[1..];
      w.support(us[0], ix) + UpdateSupport(w, us[1..], ix)
  }

  /** The support queries of every update for every listed index, index by index. */
  function SupportQueries(w: Workload, idx: seq<CIndex>): (r: seq<Query>)
    ensures forall q :: q in r <==> exists ix, u :: ix in idx && u in w.updates && q in w.support(u, ix)
  {
    if |idx| == 0 then []
    else
      assert forall ix :: ix in idx <==> ix == idx[0] || ix in idx[1..];
      UpdateSupport(w, w.updates, idx[0]) + SupportQueries(w, idx[1..])
  }

  /** `support_indexes`: the indexes of every distinct support query of the listed
      indexes. */
  function SupportIndexes(w: Workload, idx: seq<CIndex>): seq<CIndex>
    requires WorkloadFits(w)
  {
    var qs := Dedup(SupportQueries(w, idx));
    assert forall q :: q in qs ==> QueryFits(w.model, q);
    QueriesIndexes(w, qs)
  }

  /** A support index is an index of a support query some update asks for to maintain
      one of the listed indexes, and each such index is one. */
  lemma SupportIndexesMembers(w: Workload, idx: seq<CIndex>, jx: CIndex)
    requires WorkloadFits(w)
    ensures jx in SupportIndexes(w, idx) <==>
      exists ix, u, q :: ix in idx && u in w.updates && q in w.support(u, ix) && jx in IndexesForQuery(w.model, w.view, q)
  {
    var qs := Dedup(SupportQueries(w, idx));
    QueriesIndexesMembers(w, qs, jx);
  }

  /** The statements' own indexes after the additional ones, then two rounds of support
      indexes, without repeats. */
  function EnumeratedIndexes(w: Workload, additional: seq<CIndex>): seq<CIndex>
    requires WorkloadFits(w)
  {
    var base := additional + QueriesIndexes(w, w.queries);
    var first := SupportIndexes(w, base);
    Dedup(base + (first + SupportIndexes(w, first)))
  }

  /** `indexes_for_workload`: the enumerated indexes followed by the indexes combined from
      them, without repeats. */
  function IndexesForWorkload(w: Workload, additional: seq<CIndex>): (r: seq<CIndex>)
    requires WorkloadFits(w)
    ensures NoDup(r)
  {
    var all := EnumeratedIndexes(w, additional);
    Dedup(all + CombinedIndexes(all))
  }

  /** The grouping key of `combine_indexes`: hash fields and graph. */
  type HashKey = (set<Field>, QueryGraph)

  function HashKeyOf(ix: CIndex): HashKey {
    (ix.hash, ix.graph)
  }

  /** The indexes without order fields, in order. */
  function NoOrderIndexes(idx: seq<CIndex>): (r: seq<CIndex>)
    ensures forall ix :: ix in r <==> ix in idx && ix.order == []
  {
    Filter(idx, (ix: CIndex) => ix.order == [])
  }

  /** The grouping keys of the listed indexes, in order of first appearance
      (`group_by`'s key order). */
  function HashKeys(idx: seq<CIndex>): (r: seq<HashKey>)
    ensures NoDup(r)
    ensures forall k :: k in r <==> exists ix :: ix in idx && HashKeyOf(ix) == k
  {
    Dedup(AllHashKeys(idx))
  }

  function AllHashKeys(idx: seq<CIndex>): (r: seq<HashKey>)
    ensures forall k :: k in r <==> exists ix :: ix in idx && HashKeyOf(ix) == k
  {
    if |idx| == 0 then []
    else
      assert forall ix :: ix in idx <==> ix == idx[0] || ix in idx[1..];
      [HashKeyOf(idx[0])] + AllHashKeys(idx[1..])
  }

  /** `hash_indexes.map(&:extra)`: the extra fields of the listed indexes in group `k`,
      in order. */
  function GroupExtras(idx: seq<CIndex>, k: HashKey): (r: seq<set<Field>>)
    ensures forall x :: x in r <==> exists ix :: ix in idx && HashKeyOf(ix) == k && ix.extra == x
  {
    if |idx| == 0 then []
    else
      assert forall ix :: ix in idx <==> ix == idx[0] || ix in idx[1..];
      var rest := GroupExtras(idx[1..], k);
      if HashKeyOf(idx[0]) == k then [idx[0].extra] + rest else rest
  }

  /** `inject(Set.new, &:+)`: the union of the listed sets. */
  function UnionAll(cs: seq<set<Field>>): (r: set<Field>)
    ensures forall f :: f in r <==> exists c :: c in cs && f in c
  {
    if |cs| == 0 then {}
    else
      assert forall c :: c in cs <==> c == cs[0] || c in cs[1..];
      cs[0] + UnionAll(cs[1..])
  }

  /** One order-free index of group `k` per combination, storing the union of its extra
      fields. */
  function MergedIndexes(k: HashKey, combos: seq<seq<set<Field>>>): (r: seq<CIndex>)
    ensures |r| == |combos| && forall i :: 0 <= i < |combos| ==> r[i] == CIndex(k.0, [], UnionAll(combos[i]), k.1)
  {
    if |combos| == 0 then []
    else [CIndex(k.0, [], UnionAll(combos[0]), k.1)] + MergedIndexes(k, combos[1..])
  }

  /** The merged indexes of every group, group by group, from every pair of the group's
      distinct extra field sets. */
  function GroupCombinations(keys: seq<HashKey>, noOrder: seq<CIndex>): seq<CIndex> {
    if |keys| == 0 then []
    else MergedIndexes(keys[0], Combinations(Dedup(GroupExtras(noOrder, keys[0])), 2))
         + GroupCombinations(keys[1..], noOrder)
  }

  lemma {:induction false} GroupCombinationsMembers(keys: seq<HashKey>, noOrder: seq<CIndex>, ix: CIndex)
    ensures ix in GroupCombinations(keys, noOrder) <==>
      exists k :: k in keys && ix in MergedIndexes(k, Combinations(Dedup(GroupExtras(noOrder, k)), 2))
  {
    if |keys| > 0 {
      GroupCombinationsMembers(keys[1..], noOrder, ix);
      if ix in GroupCombinations(keys[1..], noOrder) {
        var k :| k in keys[1..] && ix in MergedIndexes(k, Combinations(Dedup(GroupExtras(noOrder, k)), 2));
        assert k in keys;
      }
      if exists k :: k in keys && ix in MergedIndexes(k, Combinations(Dedup(GroupExtras(noOrder, k)), 2)) {
        var k :| k in keys && ix in MergedIndexes(k, Combinations(Dedup(GroupExtras(noOrder, k)), 2));
        if k != keys[0] {
          assert k in keys[1..];
        }
      }
    }
  }

  /** `combine_indexes`: the indexes it appends to the list. */
  function CombinedIndexes(idx: seq<CIndex>): seq<CIndex> {
    var noOrder := NoOrderIndexes(idx);
    GroupCombinations(HashKeys(noOrder), noOrder)
  }

  /** Two indexes without order fields over the same hash fields and graph. */
  predicate Combinable(a: CIndex, b: CIndex) {
    a.order == [] && b.order == [] && a.hash == b.hash && a.graph == b.graph
  }

  /** The index storing the extra fields of both. */
  function Merge(a: CIndex, b: CIndex): CIndex {
    CIndex(a.hash, [], a.extra + b.extra, a.graph)
  }

  lemma PairUnion(x: set<Field>, y: set<Field>)
    ensures UnionAll([x, y]) == x + y
  {
    assert forall c :: c in [x, y] <==> c == x || c == y;
  }

  /** The merged indexes of a group's pairs are those storing two of its distinct extra
      field sets. */
  lemma MergedPairSound(k: HashKey, es: seq<set<Field>>, ix: CIndex)
    requires ix in MergedIndexes(k, Combinations(es, 2))
    ensures exists i, j :: 0 <= i < j < |es| && ix == CIndex(k.0, [], es[i] + es[j], k.1)
  {
    var combos := Combinations(es, 2);
    var n :| 0 <= n < |combos| && MergedIndexes(k, combos)[n] == ix;
    PairsExact(es, combos[n]);
    var i, j :| 0 <= i < j < |es| && combos[n] == [es[i], es[j]];
    PairUnion(es[i], es[j]);
  }

  lemma MergedPairComplete(k: HashKey, es: seq<set<Field>>, i: nat, j: nat)
    requires i < |es| && j < |es| && i != j
    ensures CIndex(k.0, [], es[i] + es[j], k.1) in MergedIndexes(k, Combinations(es, 2))
  {
    if j < i {
      MergedPairComplete(k, es, j, i);
      assert es[j] + es[i] == es[i] + es[j];
      return;
    }
    var c := [es[i], es[j]];
    PairsExact(es, c);
    PairUnion(es[i], es[j]);
    var combos := Combinations(es, 2);
    var n :| 0 <= n < |combos| && combos[n] == c;
    assert MergedIndexes(k, combos)[n] == CIndex(k.0, [], es[i] + es[j], k.1);
  }

  /** Every combined index merges two listed combinable indexes with different extra
      fields. */
  lemma CombinedSound(idx: seq<CIndex>, ix: CIndex)
    requires ix in CombinedIndexes(idx)
    ensures exists a, b :: a in idx && b in idx && Combinable(a, b) && a.extra != b.extra && ix == Merge(a, b)
  {
    var noOrder := NoOrderIndexes(idx);
    GroupCombinationsMembers(HashKeys(noOrder), noOrder, ix);
    var k :| k in HashKeys(noOrder) && ix in MergedIndexes(k, Combinations(Dedup(GroupExtras(noOrder, k)), 2));
    var es := Dedup(GroupExtras(noOrder, k));
    MergedPairSound(k, es, ix);
    var i, j :| 0 <= i < j < |es| && ix == CIndex(k.0, [], es[i] + es[j], k.1);
    var a := GroupMember(noOrder, k, es, i);
    var b := GroupMember(noOrder, k, es, j);
    assert a in idx && b in idx && Combinable(a, b) && a.extra != b.extra && ix == Merge(a, b);
  }

  /** Each of a group's distinct extra field sets belongs to a listed order-free index
      of the group. */
  lemma GroupMember(noOrder: seq<CIndex>, k: HashKey, es: seq<set<Field>>, i: nat) returns (a: CIndex)
    requires es == Dedup(GroupExtras(noOrder, k)) && i < |es|
    ensures a in noOrder && a.hash == k.0 && a.graph == k.1 && a.extra == es[i]
  {
    assert es[i] in GroupExtras(noOrder, k);
    a :| a in noOrder && HashKeyOf(a) == k && a.extra == es[i];
  }

  /** Any two listed combinable indexes with different extra fields are merged. */
  lemma CombinedComplete(idx: seq<CIndex>, a: CIndex, b: CIndex)
    requires a in idx && b in idx && Combinable(a, b) && a.extra != b.extra
    ensures Merge(a, b) in CombinedIndexes(idx)
  {
    var noOrder := NoOrderIndexes(idx);
    var k := HashKeyOf(a);
    assert k in HashKeys(noOrder);
    var es := Dedup(GroupExtras(noOrder, k));
    assert a.extra in es && b.extra in es;
    var i :| 0 <= i < |es| && es[i] == a.extra;
    var j :| 0 <= j < |es| && es[j] == b.extra;
    MergedPairComplete(k, es, i, j);
    assert CIndex(k.0, [], es[i] + es[j], k.1) == Merge(a, b);
    GroupCombinationsMembers(HashKeys(noOrder), noOrder, Merge(a, b));
  }

  /** Merging keeps validity: the hash fields are unchanged, and more stored fields can
      only help the path's last entity be reached. */
  lemma MergeValid(a: CIndex, b: CIndex)
    requires ValidIndex(a) && ValidIndex(b) && Combinable(a, b)
    ensures ValidIndex(Merge(a, b))
  {
    var g := a.graph;
    if |g.entities| > 0 {
      var f :| f in a.hash + Elements(a.order) + a.extra && f.parent == Last(g.entities);
      assert f in a.hash + Elements(Merge(a, b).order) + Merge(a, b).extra;
    }
  }

  /** Merging keeps the enumerator's promised shape. */
  lemma MergeWellShaped(m: Model, g: QueryGraph, a: CIndex, b: CIndex)
    requires HasIds(m, g.entities)
    requires WellShaped(m, g, a) && WellShaped(m, g, b) && Combinable(a, b)
    ensures WellShaped(m, g, Merge(a, b))
  {
    MergeValid(a, b);
  }

  /** Every index the workload yields is valid, given valid additional indexes and valid
      materialized views. */
  lemma WorkloadIndexesValid(w: Workload, additional: seq<CIndex>, ix: CIndex)
    requires WorkloadFits(w)
    requires forall a :: a in additional ==> ValidIndex(a)
    requires forall q :: ValidIndex(w.view(q))
    requires ix in IndexesForWorkload(w, additional)
    ensures ValidIndex(ix)
  {
    var all := EnumeratedIndexes(w, additional);
    forall jx | jx in all
      ensures ValidIndex(jx)
    {
      EnumeratedValid(w, additional, jx);
    }
    if ix in CombinedIndexes(all) {
      CombinedSound(all, ix);
      var a, b :| a in all && b in all && Combinable(a, b) && a.extra != b.extra && ix == Merge(a, b);
      MergeValid(a, b);
    }
  }

  lemma EnumeratedValid(w: Workload, additional: seq<CIndex>, ix: CIndex)
    requires WorkloadFits(w)
    requires forall a :: a in additional ==> ValidIndex(a)
    requires forall q :: ValidIndex(w.view(q))
    requires ix in EnumeratedIndexes(w, additional)
    ensures ValidIndex(ix)
  {
    var base := additional + QueriesIndexes(w, w.queries);
    var first := SupportIndexes(w, base);
    if ix in additional {
    } else if ix in QueriesIndexes(w, w.queries) {
      QueriesIndexesMembers(w, w.queries, ix);
      var q :| q in w.queries && ix in IndexesForQuery(w.model, w.view, q);
      QueryIndexValid(w, q, ix);
    } else if ix in first {
      SupportIndexValid(w, base, ix);
    } else {
      SupportIndexValid(w, first, ix);
    }
  }

  lemma QueryIndexValid(w: Workload, q: Query, ix: CIndex)
    requires QueryFits(w.model, q)
    requires forall q :: ValidIndex(w.view(q))
    requires ix in IndexesForQuery(w.model, w.view, q)
    ensures ValidIndex(ix)
  {
    QueryIndexesWellShaped(w.model, w.view, q, ix);
  }

  lemma SupportIndexValid(w: Workload, idx: seq<CIndex>, jx: CIndex)
    requires WorkloadFits(w)
    requires forall q :: ValidIndex(w.view(q))
    requires jx in SupportIndexes(w, idx)
    ensures ValidIndex(jx)
  {
    SupportIndexesMembers(w, idx, jx);
    var ix, u, q :| ix in idx && u in w.updates && q in w.support(u, ix) && jx in IndexesForQuery(w.model, w.view, q);
    QueryIndexValid(w, q, jx);
  }

  /** The combined indexes are exactly the merges of two listed combinable indexes with
      different extra fields. */
  lemma CombinedMembers(idx: seq<CIndex>, ix: CIndex)
    ensures ix in CombinedIndexes(idx) <==>
      exists a, b :: a in idx && b in idx && Combinable(a, b) && a.extra != b.extra && ix == Merge(a, b)
  {
    if exists a, b :: a in idx && b in idx && Combinable(a, b) && a.extra != b.extra && ix == Merge(a, b) {
      var a, b :| a in idx && b in idx && Combinable(a, b) && a.extra != b.extra && ix == Merge(a, b);
      CombinedComplete(idx, a, b);
    }
    if ix in CombinedIndexes(idx) {
      CombinedSound(idx, ix);
    }
  }

  /** The workload's indexes are the enumerated ones and their merges, nothing else. */
  lemma WorkloadMembers(w: Workload, additional: seq<CIndex>, ix: CIndex)
    requires WorkloadFits(w)
    ensures var all := EnumeratedIndexes(w, additional);
      ix in IndexesForWorkload(w, additional) <==>
        || ix in all
        || exists a, b :: a in all && b in all && Combinable(a, b) && a.extra != b.extra && ix == Merge(a, b)
  {
    CombinedMembers(EnumeratedIndexes(w, additional), ix);
  }

  /** The additional indexes and every index of every statement of the workload,
      materialized views included, are among the workload's indexes. */
  lemma WorkloadCoversQueries(w: Workload, additional: seq<CIndex>, q: Query, ix: CIndex)
    requires WorkloadFits(w)
    requires ix in additional || (q in w.queries && ix in IndexesForQuery(w.model, w.view, q))
    ensures ix in IndexesForWorkload(w, additional)
  {
    if ix !in additional {
      QueriesIndexesMembers(w, w.queries, ix);
    }
  }

  /** Support queries are followed two levels deep: the indexes of the support queries
      of an additional or statement index, and of the support queries of those, are among
      the workload's indexes. */
  lemma WorkloadCoversSupport(w: Workload, additional: seq<CIndex>, ix: CIndex, u: UpdateId, q: Query,
                              jx: CIndex, v: UpdateId, r: Query, kx: CIndex)
    requires WorkloadFits(w)
    requires ix in additional + QueriesIndexes(w, w.queries)
    requires u in w.updates && q in w.support(u, ix) && jx in IndexesForQuery(w.model, w.view, q)
    requires v in w.updates && r in w.support(v, jx) && kx in IndexesForQuery(w.model, w.view, r)
    ensures jx in IndexesForWorkload(w, additional)
    ensures kx in IndexesForWorkload(w, additional)
  {
    var base := additional + QueriesIndexes(w, w.queries);
    SupportIndexesMembers(w, base, jx);
    var first := SupportIndexes(w, base);
    SupportIndexesMembers(w, first, kx);
  }
}

=== FILE: indexes.dfy ===
/** The two-list index of lib/indexes.rb: ordered key fields, the identifier key each
    key field is mapped over, and extra (payload) fields; its size arithmetic, the
    check whether it answers a statement's predicates, the uniform-distribution cost
    estimate, and the two ways of building one (a statement's materialized view and an
    entity's identifier-keyed index). */
module Indexes {
  import opened Collections
  import opened Schema

  datatype Index = Index(fields: seq<Field>, fieldKeys: map<Field, seq<Field>>, extra: seq<Field>)

  /** `id_fields[0..0]`: the parent's first identifier field, or nothing when it has none. */
  function IdKey(m: Model, f: Field): seq<Field>
    requires Known(m, f.parent)
  {
    var ids := m.entities[f.parent].idFields;
    ids[..if |ids| > 0 then 1 else 0]
  }

  /** `keys_for_field`: the key a field is mapped over, `None` for a field never mapped. */
  function KeysForField(ix: Index, f: Field): Option<seq<Field>> {
    if f in ix.fieldKeys then Some(ix.fieldKeys[f]) else None
  }

  /** `Index.new(fields, extra)`: every key field is mapped over its parent's first
      identifier field, and nothing else is mapped. */
  function NewIndex(m: Model, fields: seq<Field>, extra: seq<Field>): (r: Index)
    requires KnownFields(m, fields)
    ensures r.fields == fields && r.extra == extra
    ensures forall f :: f in fields ==> KeysForField(r, f) == Some(IdKey(m, f))
    ensures forall f :: f !in fields ==> KeysForField(r, f) == None
  {
    Index(fields, map f | f in fields :: IdKey(m, f), extra)
  }

  /** After construction a key field maps to one identifier field exactly when its
      parent declares one, and then to that entity's first identifier field. */
  lemma NewIndexKeyShape(m: Model, fields: seq<Field>, extra: seq<Field>, f: Field)
    requires KnownFields(m, fields) && f in fields
    ensures KeysForField(NewIndex(m, fields, extra), f).Some?
    ensures |m.entities[f.parent].idFields| > 0 ==>
      KeysForField(NewIndex(m, fields, extra), f) == Some([m.entities[f.parent].idFields[0]])
    ensures |m.entities[f.parent].idFields| == 0 ==>
      KeysForField(NewIndex(m, fields, extra), f) == Some([])
  {
    var ids := m.entities[f.parent].idFields;
    if |ids| > 0 {
      assert ids[..1] == [ids[0]];
    }
  }

  /** `set_field_keys`: remap one field; every other field's key and both field lists
      are left as they were. */
  function SetFieldKeys(ix: Index, f: Field, keys: seq<Field>): (r: Index)
    ensures KeysForField(r, f) == Some(keys)
    ensures forall g :: g != f ==> KeysForField(r, g) == KeysForField(ix, g)
    ensures r.fields == ix.fields && r.extra == ix.extra
  {
    ix.(fieldKeys := ix.fieldKeys[f := keys])
  }

  /** `==`: field lists, key map and extra list all agree. */
  predicate SameIndex(a: Index, b: Index) {
    a.fields == b.fields && a.fieldKeys == b.fieldKeys && a.extra == b.extra
  }

  /** Two indexes built from the same lists are equal, and remapping a key field to a
      different key makes them unequal. */
  lemma RemappingBreaksEquality(m: Model, fields: seq<Field>, extra: seq<Field>, f: Field, keys: seq<Field>)
    requires KnownFields(m, fields) && f in fields && keys != IdKey(m, f)
    ensures SameIndex(NewIndex(m, fields, extra), NewIndex(m, fields, extra))
    ensures !SameIndex(SetFieldKeys(NewIndex(m, fields, extra), f, keys), NewIndex(m, fields, extra))
  {
    var ix := NewIndex(m, fields, extra);
    assert KeysForField(SetFieldKeys(ix, f, keys), f) != KeysForField(ix, f);
  }

  /** `identity_for?`: the key fields are exactly the entity's identifier fields. */
  predicate IdentityFor(ix: Index, e: Entity) {
    ix.fields == e.idFields
  }

  /** `contains_field?`: a search for the field through the key fields and then the
      extra fields. */
  function ContainsField(ix: Index, f: Field): (r: bool)
    ensures r <==> f in ix.fields || f in ix.extra
  {
    IndexOf(ix.fields + ix.extra, f).Some?
  }

  function SumSizes(fs: seq<Field>): nat {
    if |fs| == 0 then 0 else fs[0].size + SumSizes(fs[1..])
  }

  lemma {:induction false} SumSizesAppend(a: seq<Field>, b: seq<Field>)
    ensures SumSizes(a + b) == SumSizes(a) + SumSizes(b)
  {
    if |a| > 0 {
      assert (a + b)[1..] == a[1..] + b;
      SumSizesAppend(a[1..], b);
    } else {
      assert a + b == b;
    }
  }

  lemma {:induction false} SumSizesMember(fs: seq<Field>, f: Field)
    requires f in fs
    ensures SumSizes(fs) >= f.size
  {
    if fs[0] != f {
      SumSizesMember(fs[1..], f);
    }
  }

  /** `entry_size`: the key fields' sizes plus the extra fields' sizes (0 for an empty index). */
  function EntrySize(ix: Index): (r: nat)
    ensures r == SumSizes(ix.fields) + SumSizes(ix.extra)
  {
    SumSizesAppend(ix.fields, ix.extra);
    SumSizes(ix.fields + ix.extra)
  }

  /** A field listed both as a key and as extra is paid for twice. */
  lemma EntrySizeCountsBothLists(ix: Index, f: Field)
    requires f in ix.fields && f in ix.extra
    ensures EntrySize(ix) >= 2 * f.size
  {
    SumSizesMember(ix.fields, f);
    SumSizesMember(ix.extra, f);
  }

  function ProdCard(fs: seq<Field>): nat {
    if |fs| == 0 then 1 else fs[0].cardinality * ProdCard(fs[1..])
  }

  lemma {:induction false} ProdCardPositive(fs: seq<Field>)
    requires forall f :: f in fs ==> f.cardinality > 0
    ensures ProdCard(fs) >= 1
  {
    if |fs| > 0 {
      assert fs[0] in fs;
      ProdCardPositive(fs[1..]);
      assert fs[0].cardinality * ProdCard(fs[1..]) >= ProdCard(fs[1..]);
    }
  }

  lemma {:induction false} ProdCardZero(fs: seq<Field>)
    requires exists f :: f in fs && f.cardinality == 0
    ensures ProdCard(fs) == 0
  {
    if fs[0].cardinality != 0 {
      ProdCardZero(fs[1..]);
    }
  }

  /** The key cardinalities multiply across a split of the key. */
  lemma {:induction false} ProdCardAppend(a: seq<Field>, b: seq<Field>)
    ensures ProdCard(a + b) == ProdCard(a) * ProdCard(b)
  {
    if |a| > 0 {
      assert (a + b)[1..] == a[1..] + b;
      ProdCardAppend(a[1..], b);
      assert ProdCard(a + b) == a[0].cardinality * (ProdCard(a[1..]) * ProdCard(b));
    } else {
      assert a + b == b;
    }
  }

  /** `size`: the number of entries a uniform distribution over the key fields gives,
      times the bytes of one entry. */
  function Size(ix: Index): (r: nat)
    ensures r == ProdCard(ix.fields) * EntrySize(ix)
    ensures |ix.fields| == 0 ==> r == EntrySize(ix)
  {
    ProdCard(ix.fields) * EntrySize(ix)
  }

  /** The size is at least one entry when every key field has a value, and nothing when
      some key field has none. */
  lemma SizeBounds(ix: Index)
    ensures (forall f :: f in ix.fields ==> f.cardinality > 0) ==> Size(ix) >= EntrySize(ix)
    ensures (exists f :: f in ix.fields && f.cardinality == 0) ==> Size(ix) == 0
  {
    if forall f :: f in ix.fields ==> f.cardinality > 0 {
      ProdCardPositive(ix.fields);
      AtLeastOneTimes(ProdCard(ix.fields), EntrySize(ix));
    } else {
      ProdCardZero(ix.fields);
    }
  }

  lemma AtLeastOneTimes(a: nat, b: nat)
    requires a >= 1
    ensures a * b >= b
  {
  }


  /** An index keyed on one field with as many values as the entity has rows stores
      one entry per row. */
  lemma SizeOfSingleKey(ix: Index, n: nat)
    requires |ix.fields| == 1 && ix.fields[0].cardinality == n
    ensures Size(ix) == EntrySize(ix) * n
  {
    assert ProdCard(ix.fields[1..]) == 1;
  }

  /** `supports_predicates?`, with the selected, equality, range and `order by` fields
      given as fields rather than names; `keyFields` is the `from` entity's
      `key_fields`, which is not part of this model. */
  function SupportsPredicates(ix: Index, select: seq<Field>, eq: seq<Field>, range: Option<Field>,
                              orderBy: seq<Field>, keyFields: Field -> seq<Field>): (r: bool)
    ensures r ==> forall f :: f in select ==> ContainsField(ix, f)
    ensures r && range.Some? ==> |ix.fields| > 0 && Last(ix.fields) == range.value
    ensures r ==> forall f :: f in eq ==> f in ix.fields
    ensures r && |orderBy| > 0 ==>
      |orderBy| <= |ix.fields| && ix.fields[|ix.fields| - |orderBy|..] == orderBy
    ensures r ==> forall f :: f in PredicateFields(eq, range, orderBy) ==> KeysForField(ix, f) == Some(keyFields(f))
    ensures (forall f :: f in select ==> f in ix.fields || f in ix.extra)
            && (range.Some? ==> |ix.fields| > 0 && Last(ix.fields) == range.value)
            && (forall f :: f in eq ==> f in ix.fields)
            && (|orderBy| > 0 ==> |orderBy| <= |ix.fields| && ix.fields[|ix.fields| - |orderBy|..] == orderBy)
            && (forall f :: f in PredicateFields(eq, range, orderBy) ==> KeysForField(ix, f) == Some(keyFields(f)))
            ==> r
  {
    if !(forall f :: f in select ==> ContainsField(ix, f)) then false
    else if range.Some? && (|ix.fields| == 0 || Last(ix.fields) != range.value) then false
    else if !(forall f :: f in eq ==> f in ix.fields) then false
    else if |orderBy| != 0 && (|orderBy| > |ix.fields| || ix.fields[|ix.fields| - |orderBy|..] != orderBy) then false
    else forall f :: f in PredicateFields(eq, range, orderBy) ==> KeysForField(ix, f) == Some(keyFields(f))
  }

  /** The fields the predicates mention: the range field, the equality fields, the
      `order by` fields. */
  function PredicateFields(eq: seq<Field>, range: Option<Field>, orderBy: seq<Field>): seq<Field> {
    (if range.Some? then [range.value] else []) + eq + orderBy
  }

  /** `supports_query?` */
  function SupportsQuery(ix: Index, q: Query, keyFields: Field -> seq<Field>): bool {
    SupportsPredicates(ix, q.select, q.eq, q.range, q.orderBy, keyFields)
  }

  predicate CountedFields(m: Model, fs: seq<Field>) {
    forall f :: f in fs ==> Known(m, f.parent) && m.entities[f.parent].count > 0
  }

  /** The fraction of rows one equality field keeps under a uniform distribution:
      `cardinality / parent.count`. */
  function Share(m: Model, f: Field): real
    requires Known(m, f.parent) && m.entities[f.parent].count > 0
  {
    f.cardinality as real / m.entities[f.parent].count as real
  }

  /** A count of distinct values over a positive row count is a fraction in [0, 1]
      when there are no more values than rows. */
  lemma ShareBounds(m: Model, f: Field)
    requires Known(m, f.parent) && m.entities[f.parent].count > 0
    ensures 0.0 <= Share(m, f)
    ensures f.cardinality <= m.entities[f.parent].count ==> Share(m, f) <= 1.0
  {
  }

  /** The equality fields' shares, in predicate order. */
  function Shares(m: Model, eqs: seq<Field>): seq<real>
    requires CountedFields(m, eqs)
  {
    if |eqs| == 0 then []
    else
      assert eqs[0] in eqs;
      [Share(m, eqs[0])] + Shares(m, eqs[1..])
  }

  /** The product of every element (1 for none). */
  function Product(xs: seq<real>): real {
    if |xs| == 0 then 1.0 else xs[0] * Product(xs[1..])
  }

  /** The product of a concatenation is the product of the parts. */
  lemma {:induction false} ProductAppend(xs: seq<real>, ys: seq<real>)
    ensures Product(xs + ys) == Product(xs) * Product(ys)
  {
    if |xs| == 0 {
      assert xs + ys == ys;
    } else {
      var zs := xs + ys;
      assert zs[0] == xs[0] && zs[1..] == xs[1..] + ys;
      ProductAppend(xs[1..], ys);
      MulAssoc(xs[0], Product(xs[1..]), Product(ys));
    }
  }

  /** A factor in front multiplies the product. */
  lemma ProductCons(x: real, xs: seq<real>)
    ensures Product([x] + xs) == x * Product(xs)
  {
    assert ([x] + xs)[0] == x && ([x] + xs)[1..] == xs;
  }

  lemma MulAssoc(a: real, b: real, c: real)
    ensures a * b * c == a * (b * c)
  {
  }

  /** The fraction each equality field keeps, multiplied up. */
  function EqFactor(m: Model, eqs: seq<Field>): real
    requires CountedFields(m, eqs)
  {
    Product(Shares(m, eqs))
  }

  /** One more equality field multiplies the fraction by exactly its share, and so
      never raises it when the field has no more values than its entity has rows. */
  lemma EqFactorCons(m: Model, f: Field, eqs: seq<Field>)
    requires CountedFields(m, eqs)
    requires Known(m, f.parent) && 0 < m.entities[f.parent].count
    ensures CountedFields(m, [f] + eqs)
    ensures EqFactor(m, [f] + eqs) == Share(m, f) * EqFactor(m, eqs)
    ensures f.cardinality <= m.entities[f.parent].count ==> EqFactor(m, [f] + eqs) <= EqFactor(m, eqs)
  {
    EqFactorConsExact(m, f, eqs);
    if f.cardinality <= m.entities[f.parent].count {
      EqFactorNonNegative(m, eqs);
      ShareBounds(m, f);
      FractionOfBound(EqFactor(m, [f] + eqs), Share(m, f), EqFactor(m, eqs), EqFactor(m, eqs));
    }
  }

  lemma EqFactorConsExact(m: Model, f: Field, eqs: seq<Field>)
    requires CountedFields(m, eqs)
    requires Known(m, f.parent) && 0 < m.entities[f.parent].count
    ensures CountedFields(m, [f] + eqs)
    ensures EqFactor(m, [f] + eqs) == Share(m, f) * EqFactor(m, eqs)
  {
    SharesCons(m, f, eqs);
    ProductCons(Share(m, f), Shares(m, eqs));
  }

  lemma SharesCons(m: Model, f: Field, eqs: seq<Field>)
    requires CountedFields(m, eqs)
    requires Known(m, f.parent) && 0 < m.entities[f.parent].count
    ensures CountedFields(m, [f] + eqs)
    ensures Shares(m, [f] + eqs) == [Share(m, f)] + Shares(m, eqs)
  {
    var fs := [f] + eqs;
    assert fs[0] == f && fs[1..] == eqs;
  }

  /** No fraction is negative. */
  lemma {:induction false} EqFactorNonNegative(m: Model, eqs: seq<Field>)
    requires CountedFields(m, eqs)
    ensures EqFactor(m, eqs) >= 0.0
  {
    if |eqs| > 0 {
      var f, rest := eqs[0], eqs[1..];
      assert f in eqs && [f] + rest == eqs;
      EqFactorNonNegative(m, rest);
      assert Shares(m, eqs) == [Share(m, f)] + Shares(m, rest);
      ProductCons(Share(m, f), Shares(m, rest));
      ShareBounds(m, f);
      ScaleBounds(Share(m, f), EqFactor(m, rest));
    }
  }

  /** When no equality field has more values than its entity has rows, the equality
      predicates keep at most every row. */
  lemma {:induction false} EqFactorAtMostOne(m: Model, eqs: seq<Field>)
    requires CountedFields(m, eqs)
    requires forall f :: f in eqs ==> f.cardinality <= m.entities[f.parent].count
    ensures EqFactor(m, eqs) <= 1.0
  {
    if |eqs| > 0 {
      var f, rest := eqs[0], eqs[1..];
      assert f in eqs && [f] + rest == eqs;
      assert forall g :: g in rest ==> g in eqs;
      EqFactorAtMostOne(m, rest);
      EqFactorCons(m, f, rest);
    }
  }

  /** Splitting the equality fields splits the fraction: the estimate does not depend
      on how the predicates are grouped. */
  lemma {:induction false} SharesAppend(m: Model, a: seq<Field>, b: seq<Field>)
    requires CountedFields(m, a) && CountedFields(m, b)
    ensures CountedFields(m, a + b)
    ensures Shares(m, a + b) == Shares(m, a) + Shares(m, b)
  {
    if |a| == 0 {
      assert a + b == b;
    } else {
      assert a[0] in a && (a + b)[0] == a[0] && (a + b)[1..] == a[1..] + b;
      SharesAppend(m, a[1..], b);
      assert Shares(m, a + b) == [Share(m, a[0])] + (Shares(m, a[1..]) + Shares(m, b));
    }
  }

  /** The fractions of two lists of equality fields multiply. */
  lemma EqFactorAppend(m: Model, a: seq<Field>, b: seq<Field>)
    requires CountedFields(m, a) && CountedFields(m, b)
    ensures CountedFields(m, a + b)
    ensures EqFactor(m, a + b) == EqFactor(m, a) * EqFactor(m, b)
  {
    assert EqFactor(m, a + b) == Product(Shares(m, a) + Shares(m, b)) by {
      SharesAppend(m, a, b);
    }
    ProductAppend(Shares(m, a), Shares(m, b));
  }

  /** Pure arithmetic step: a fraction of something bounded by `bound` is bounded by it. */
  lemma FractionOfBound(x: real, frac: real, y: real, bound: real)
    requires x == frac * y && 0.0 <= frac <= 1.0 && 0.0 <= y <= bound
    ensures 0.0 <= x <= bound
  {
    ScaleBounds(frac, y);
  }

  lemma ScaleBounds(a: real, b: real)
    requires 0.0 <= a && 0.0 <= b
    ensures 0.0 <= a * b
    ensures a <= 1.0 ==> a * b <= b
  {
  }

  /** The row count of an entity, as a real. */
  function Rows(m: Model, e: EntityId): real
    requires Known(m, e)
  {
    m.entities[e].count as real
  }

  /** The bytes of one index entry, as a real. */
  function EntryBytes(ix: Index): real {
    EntrySize(ix) as real
  }

  /** The bytes of reading every row of `from` through the index: rows times entry size. */
  function FullScan(m: Model, ix: Index, from: EntityId): real
    requires Known(m, from)
  {
    Rows(m, from) * EntryBytes(ix)
  }

  /** The fixed selectivity guessed for a range predicate: a third of the rows. */
  function RangeFactor(q: Query): real {
    if q.range.Some? then 1.0 / 3.0 else 1.0
  }

  /** `x` scaled by `factor`: the step `cost *= factor` of the estimate. */
  function Scale(x: real, factor: real): real {
    x * factor
  }

  /** `query_cost`: the `from` entity's row count multiplied by every equality field's
      `cardinality / parent.count`, by the bytes of one entry, and by a third when the
      statement has a range predicate. Real multiplication commutes, so the factors are
      grouped here as the equality fraction, the full scan and the range factor. */
  function QueryCost(m: Model, ix: Index, q: Query): real
    requires Known(m, q.from) && CountedFields(m, q.eq)
  {
    Scale(EqFactor(m, q.eq), RangeScan(m, ix, q))
  }

  /** The full scan of `from`, cut to a third by a range predicate. */
  function RangeScan(m: Model, ix: Index, q: Query): real
    requires Known(m, q.from)
  {
    FullScan(m, ix, q.from) * RangeFactor(q)
  }

  /** No scan reads a negative number of bytes. */
  lemma FullScanNonNegative(m: Model, ix: Index, from: EntityId)
    requires Known(m, from)
    ensures 0.0 <= FullScan(m, ix, from)
  {
    ScaleBounds(Rows(m, from), EntryBytes(ix));
  }

  /** The estimate is never negative. */
  lemma QueryCostNonNegative(m: Model, ix: Index, q: Query)
    requires Known(m, q.from) && CountedFields(m, q.eq)
    ensures 0.0 <= QueryCost(m, ix, q)
  {
    EqFactorNonNegative(m, q.eq);
    FullScanNonNegative(m, ix, q.from);
  }

  /** When no equality field has more values than its entity has rows, the estimate
      never exceeds reading every row of `from`. */
  lemma QueryCostAtMostFullScan(m: Model, ix: Index, q: Query)
    requires Known(m, q.from) && CountedFields(m, q.eq)
    requires forall f :: f in q.eq ==> f.cardinality <= m.entities[f.parent].count
    ensures QueryCost(m, ix, q) <= FullScan(m, ix, q.from)
  {
    EqFactorAtMostOne(m, q.eq);
    EqFactorNonNegative(m, q.eq);
    FullScanNonNegative(m, ix, q.from);
  }

  /** A range predicate divides the estimate by exactly three. */
  lemma RangeCostIsOneThird(m: Model, ix: Index, q: Query)
    requires Known(m, q.from) && CountedFields(m, q.eq) && q.range.Some?
    ensures QueryCost(m, ix, q) * 3.0 == QueryCost(m, ix, q.(range := None))
  {
  }

  /** One more equality predicate scales the estimate by exactly its field's share:
      `q1` is `q` with `f` added in front of its equality fields. */
  lemma QueryCostAddsEquality(m: Model, ix: Index, q: Query, q1: Query, f: Field)
    requires Known(m, q.from) && CountedFields(m, q.eq)
    requires Known(m, f.parent) && 0 < m.entities[f.parent].count
    requires q1.from == q.from && q1.range == q.range && q1.eq == [f] + q.eq
    ensures CountedFields(m, q1.eq)
    ensures QueryCost(m, ix, q1) == Share(m, f) * QueryCost(m, ix, q)
  {
    EqFactorConsExact(m, f, q.eq);
    assert RangeScan(m, ix, q1) == RangeScan(m, ix, q);
    ScaledFactor(QueryCost(m, ix, q1), QueryCost(m, ix, q), EqFactor(m, q1.eq), Share(m, f), EqFactor(m, q.eq),
         RangeScan(m, ix, q));
  }

  /** Pure arithmetic step: scaling one factor of a product scales the product. */
  lemma ScaledFactor(c1: real, c0: real, e1: real, s: real, e0: real, r: real)
    requires c1 == Scale(e1, r) && c0 == Scale(e0, r) && e1 == s * e0
    ensures c1 == s * c0
  {
  }

  /** Without predicates the estimate is a full scan: every row of `from`, each one
      entry long. */
  lemma UnfilteredCostIsFullScan(m: Model, ix: Index, q: Query)
    requires Known(m, q.from) && q.eq == [] && q.range.None?
    ensures QueryCost(m, ix, q) == FullScan(m, ix, q.from)
  {
    assert EqFactor(m, q.eq) == 1.0;
  }

  /** The key fields of a statement's materialized view: equality fields, then the
      range field, then the `order by` fields. */
  function ViewKey(q: Query): seq<Field> {
    q.eq + (if q.range.Some? then [q.range.value] else []) + q.orderBy
  }

  /** `Statement#materialize_view`: keyed on the predicate and ordering fields, with the
      remaining selected fields as extra. */
  function MaterializeView(m: Model, q: Query): (r: Index)
    requires KnownFields(m, ViewKey(q))
    ensures r.fields == q.eq + (if q.range.Some? then [q.range.value] else []) + q.orderBy
    ensures forall f :: f in r.extra <==> f in q.select && f !in r.fields
    ensures forall f :: f in q.select ==> ContainsField(r, f)
  {
    NewIndex(m, ViewKey(q), Minus(q.select, ViewKey(q)))
  }

  /** A materialized view answers its own statement whenever the range field is also
      the last ordering field (or one of the two is absent) and the `from` entity keys
      every predicate field over its parent's first identifier. */
  lemma MaterializedViewSupportsQuery(m: Model, q: Query, keyFields: Field -> seq<Field>)
    requires KnownFields(m, ViewKey(q))
    requires q.range.None? || |q.orderBy| == 0 || Last(q.orderBy) == q.range.value
    requires forall f :: f in ViewKey(q) ==> keyFields(f) == IdKey(m, f)
    ensures SupportsQuery(MaterializeView(m, q), q, keyFields)
  {
    var ix := MaterializeView(m, q);
    var key := ViewKey(q);
    assert forall f :: f in PredicateFields(q.eq, q.range, q.orderBy) ==> f in key;
    if q.range.Some? {
      assert Last(key) == q.range.value;
    }
    if |q.orderBy| > 0 {
      assert key[|key| - |q.orderBy|..] == q.orderBy;
    }
  }

  /** With both a range predicate and an `order by` ending on a different field, the
      materialized view fails its own statement: both must be the last key field. */
  lemma MaterializedViewRejectsRangeWithOrder(m: Model, q: Query, keyFields: Field -> seq<Field>)
    requires KnownFields(m, ViewKey(q))
    requires q.range.Some? && |q.orderBy| > 0 && Last(q.orderBy) != q.range.value
    ensures !SupportsQuery(MaterializeView(m, q), q, keyFields)
  {
    assert Last(ViewKey(q)) == Last(q.orderBy);
  }

  /** `Entity#simple_index`: keyed on the identifier fields, every other field extra. */
  function SimpleIndex(m: Model, e: EntityId): (r: Index)
    requires Known(m, e) && KnownFields(m, m.entities[e].idFields)
    ensures IdentityFor(r, m.entities[e])
    ensures forall f :: f in m.entities[e].fields ==> ContainsField(r, f)
    ensures forall f :: f in r.extra ==> f in m.entities[e].fields && f !in r.fields
  {
    var ent := m.entities[e];
    NewIndex(m, ent.idFields, Minus(ent.fields, ent.idFields))
  }

  /** In a simple index each identifier key is mapped over the entity's first
      identifier field. */
  lemma SimpleIndexKeys(m: Model, e: EntityId, f: Field)
    requires Known(m, e) && f in m.entities[e].idFields
    requires forall g :: g in m.entities[e].idFields ==> g.parent == e
    ensures KeysForField(SimpleIndex(m, e), f) == Some([m.entities[e].idFields[0]])
  {
    var ids := m.entities[e].idFields;
    assert ids[..1] == [ids[0]];
  }
}

=== FILE: schema.dfy ===
/** The workload's entity model as the advisor reads it: fields owned by entities,
    entities with a row count and identifier fields, and the statements over them.
    An entity is referred to by its position in the model, so a field's parent is a
    typed reference rather than a name to look up. */
module Schema {
  import opened Collections

  type EntityId = nat

  /** A field of entity `parent`, its storage `size` and its number of distinct values. */
  datatype Field = Field(parent: EntityId, name: string, size: nat, cardinality: nat, isId: bool)

  /** An entity with its row `count`, its identifier fields and all of its fields. */
  datatype Entity = Entity(name: string, count: nat, idFields: seq<Field>, fields: seq<Field>)

  datatype Model = Model(entities: seq<Entity>)

  /** A connected piece of a statement's join graph: its entities, first to last. */
  datatype QueryGraph = QueryGraph(entities: seq<EntityId>)

  /** A statement as the parser hands it over: the `from` entity, the selected fields,
      the equality predicates, at most one range predicate, the `order by` fields and
      the connected subgraphs of its join graph. */
  datatype Query = Query(
    from: EntityId,
    select: seq<Field>,
    eq: seq<Field>,
    range: Option<Field>,
    orderBy: seq<Field>,
    subgraphs: seq<QueryGraph>)

  predicate Known(m: Model, e: EntityId) {
    e < |m.entities|
  }

  predicate KnownFields(m: Model, fs: seq<Field>) {
    forall f :: f in fs ==> Known(m, f.parent)
  }

  predicate AllKnown(m: Model, es: seq<EntityId>) {
    forall i :: 0 <= i < |es| ==> Known(m, es[i])
  }

  /** Every entity is known and declares an identifier field (`Entity#id_field`). */
  predicate HasIds(m: Model, es: seq<EntityId>) {
    forall e :: e in es ==> Known(m, e) && |m.entities[e].idFields| > 0
  }

  function IdField(m: Model, e: EntityId): Field
    requires Known(m, e) && |m.entities[e].idFields| > 0
  {
    m.entities[e].idFields[0]
  }

  /** Lexicographic order on names, character by character (Ruby's `String#<=>`). */
  predicate NameLe(a: string, b: string)
    decreases |a|
  {
    |a| == 0 || (|b| > 0 && (a[0] < b[0] || (a[0] == b[0] && NameLe(a[1..], b[1..]))))
  }

  lemma {:induction false} NameLeTotal(a: string, b: string)
    ensures NameLe(a, b) || NameLe(b, a)
    decreases |a|
  {
    if |a| > 0 && |b| > 0 && a[0] == b[0] {
      NameLeTotal(a[1..], b[1..]);
    }
  }

  predicate SortedByName(m: Model, es: seq<EntityId>)
    requires AllKnown(m, es)
  {
    forall i :: 0 < i < |es| ==> NameLe(m.entities[es[i - 1]].name, m.entities[es[i]].name)
  }

  /** Inserts `e` before the first entity whose name does not come before its own. */
  function InsertByName(m: Model, e: EntityId, es: seq<EntityId>): (r: seq<EntityId>)
    requires Known(m, e) && AllKnown(m, es)
    ensures multiset(r) == multiset(es) + multiset{e}
    ensures |r| > 0 && (r[0] == e || (|es| > 0 && r[0] == es[0]))
  {
    if |es| == 0 then [e]
    else if NameLe(m.entities[e].name, m.entities[es[0]].name) then [e] + es
    else
      assert es == [es[0]] + es[1..];
      [es[0]] + InsertByName(m, e, es[1..])
  }

  /** Inserting adds `e` and keeps every other entity. */
  lemma {:induction false} InsertByNameMembers(m: Model, e: EntityId, es: seq<EntityId>)
    requires Known(m, e) && AllKnown(m, es)
    ensures forall x :: x in InsertByName(m, e, es) <==> x == e || x in es
    ensures AllKnown(m, InsertByName(m, e, es))
  {
    if |es| > 0 && !NameLe(m.entities[e].name, m.entities[es[0]].name) {
      InsertByNameMembers(m, e, es[1..]);
      assert InsertByName(m, e, es) == [es[0]] + InsertByName(m, e, es[1..]);
      assert forall x :: x in es <==> x == es[0] || x in es[1..];
    }
  }

  /** Inserting into a list sorted by name keeps it sorted. */
  lemma {:induction false} InsertByNameSorted(m: Model, e: EntityId, es: seq<EntityId>)
    requires Known(m, e) && AllKnown(m, es) && SortedByName(m, es)
    ensures AllKnown(m, InsertByName(m, e, es))
    ensures SortedByName(m, InsertByName(m, e, es))
  {
    InsertByNameMembers(m, e, es);
    if |es| > 0 && !NameLe(m.entities[e].name, m.entities[es[0]].name) {
      var r := InsertByName(m, e, es);
      var rest := InsertByName(m, e, es[1..]);
      InsertByNameSorted(m, e, es[1..]);
      assert r == [es[0]] + rest;
      assert NameLe(m.entities[r[0]].name, m.entities[r[1]].name) by {
        if rest[0] == e {
          NameLeTotal(m.entities[e].name, m.entities[es[0]].name);
        } else {
          assert rest[0] == es[1];
        }
      }
      SortedCons(m, es[0], rest);
    }
  }

  /** An entity whose name comes no later than that of a sorted list's head can go in front. */
  lemma SortedCons(m: Model, e: EntityId, es: seq<EntityId>)
    requires Known(m, e) && AllKnown(m, es) && SortedByName(m, es)
    requires |es| > 0 && NameLe(m.entities[e].name, m.entities[es[0]].name)
    ensures AllKnown(m, [e] + es) && SortedByName(m, [e] + es)
  {
    var r := [e] + es;
    assert forall i :: 0 < i < |r| ==> r[i] == es[i - 1];
  }

  /** `entities.sort_by(&:name)`: the same entities, ordered by name. */
  function SortByName(m: Model, es: seq<EntityId>): (r: seq<EntityId>)
    requires AllKnown(m, es)
    ensures multiset(r) == multiset(es)
    ensures forall x :: x in r <==> x in es
    ensures AllKnown(m, r)
    ensures SortedByName(m, r)
  {
    if |es| == 0 then []
    else
      assert es == [es[0]] + es[1..];
      var rest := SortByName(m, es[1..]);
      InsertByNameSorted(m, es[0], rest);
      var r := InsertByName(m, es[0], rest);
      assert forall x :: x in r <==> x in multiset(r);
      r
  }
}

=== FILE: search.dfy ===
/** The index-selection search: plan steps grouped per index and costed, the integer
    program over selection and usage variables that those costs give rise to, and the
    reading of the solver's answer. The solver itself and the planner are inputs. */
module Search {
  import opened Collections
  import opened Schema

  /** A step of a query plan: a lookup in an index, or any other step, with its cost. */
  datatype Step<I> = Lookup(index: I, cost: real) | Other(cost: real)

  type Plan<I> = seq<Step<I>>

  /** A lookup continues the step immediately before it when that step is itself a
      lookup and the new index's path is just the last entity of that index's path. */
  predicate Continues<I(!new)>(prev: Step<I>, s: Step<I>, pathOf: I -> seq<EntityId>) {
    prev.Lookup? && s.Lookup? && |pathOf(prev.index)| > 0 && pathOf(s.index) == [Last(pathOf(prev.index))]
  }

  /** A step stays in the group of the step before it: any non-lookup step does, and a
      lookup that continues the previous lookup does. */
  predicate Joins<I(!new)>(prev: Step<I>, s: Step<I>, pathOf: I -> seq<EntityId>) {
    s.Other? || Continues(prev, s, pathOf)
  }

  /** Groups that start with a lookup, hold together exactly the steps that join their
      predecessor, and are split exactly where a step does not. */
  predicate WellGrouped<I(!new)>(gs: seq<Plan<I>>, pathOf: I -> seq<EntityId>) {
    && (forall i :: 0 <= i < |gs| ==> |gs[i]| > 0 && gs[i][0].Lookup?)
    && (forall i, j :: 0 <= i < |gs| && 0 < j < |gs[i]| ==> Joins(gs[i][j - 1], gs[i][j], pathOf))
    && (forall i, j :: 0 <= i < |gs| && 0 <= j < |gs| && j == i + 1 && |gs[i]| > 0 ==> !Joins(Last(gs[i]), gs[j][0], pathOf))
  }

  /** The `steps_by_index` loop of `costs`: each step joins the current group or starts
      a new one. A plan that opens with a non-lookup step has no group to join, which
      the source meets with an error. */
  function GroupSteps<I(!new)>(plan: Plan<I>, pathOf: I -> seq<EntityId>): (r: Option<seq<Plan<I>>>)
    ensures r.None? <==> |plan| > 0 && plan[0].Other?
    ensures r.Some? ==> Flatten(r.value) == plan
    decreases |plan|
  {
    if |plan| == 0 then Some([])
    else
      var init, s := plan[..|plan| - 1], Last(plan);
      assert plan == init + [s];
      match GroupSteps(init, pathOf)
      case None => None
      case Some(gs) =>
        if |gs| > 0 && |Last(gs)| > 0 && Joins(Last(Last(gs)), s, pathOf) then
          var front, g := gs[..|gs| - 1], Last(gs);
          assert gs == front + [g];
          FlattenSnoc(front, g);
          FlattenSnoc(front, g + [s]);
          Some(front + [g + [s]])
        else if s.Lookup? then
          FlattenSnoc(gs, [s]);
          Some(gs + [[s]])
        else
          assert |init| > 0 ==> |gs| > 0;
          None
  }

  /** Appending a joining step to the last group keeps the grouping well formed. */
  lemma JoinKeepsGrouping<I(!new)>(gs: seq<Plan<I>>, s: Step<I>, pathOf: I -> seq<EntityId>)
    requires WellGrouped(gs, pathOf) && |gs| > 0 && Joins(Last(Last(gs)), s, pathOf)
    ensures WellGrouped(gs[..|gs| - 1] + [Last(gs) + [s]], pathOf)
  {
    var r := gs[..|gs| - 1] + [Last(gs) + [s]];
    assert forall i :: 0 <= i < |gs| - 1 ==> r[i] == gs[i];
    assert Last(r)[..|Last(gs)|] == Last(gs);
  }

  /** Opening a new group with a lookup that does not join keeps it well formed. */
  lemma StartKeepsGrouping<I(!new)>(gs: seq<Plan<I>>, s: Step<I>, pathOf: I -> seq<EntityId>)
    requires WellGrouped(gs, pathOf) && s.Lookup?
    requires |gs| > 0 ==> !Joins(Last(Last(gs)), s, pathOf)
    ensures WellGrouped(gs + [[s]], pathOf)
  {
    var r := gs + [[s]];
    assert forall i :: 0 <= i < |gs| ==> r[i] == gs[i];
  }

  /** Every grouping the loop produces is well formed. */
  lemma {:induction false} GroupStepsWellGrouped<I(!new)>(plan: Plan<I>, pathOf: I -> seq<EntityId>)
    requires GroupSteps(plan, pathOf).Some?
    ensures WellGrouped(GroupSteps(plan, pathOf).value, pathOf)
    decreases |plan|
  {
    if |plan| > 0 {
      var init, s := plan[..|plan| - 1], Last(plan);
      GroupStepsWellGrouped(init, pathOf);
      var gs := GroupSteps(init, pathOf).value;
      if |gs| > 0 && |Last(gs)| > 0 && Joins(Last(Last(gs)), s, pathOf) {
        JoinKeepsGrouping(gs, s, pathOf);
      } else {
        StartKeepsGrouping(gs, s, pathOf);
      }
    }
  }

  lemma DropLastGroup<I(!new)>(gs: seq<Plan<I>>, pathOf: I -> seq<EntityId>)
    requires WellGrouped(gs, pathOf) && |gs| > 0
    ensures WellGrouped(gs[..|gs| - 1], pathOf)
  {
  }

  lemma DropLastStep<I(!new)>(gs: seq<Plan<I>>, pathOf: I -> seq<EntityId>)
    requires WellGrouped(gs, pathOf) && |gs| > 0 && |Last(gs)| > 1
    ensures WellGrouped(gs[..|gs| - 1] + [Last(gs)[..|Last(gs)| - 1]], pathOf)
  {
    var g := Last(gs);
    var r := gs[..|gs| - 1] + [g[..|g| - 1]];
    assert forall i :: 0 <= i < |gs| - 1 ==> r[i] == gs[i];
    assert Last(r)[0] == g[0];
    forall i, j | 0 <= i < |r| && 0 < j < |r[i]|
      ensures Joins(r[i][j - 1], r[i][j], pathOf)
    {
      if i == |r| - 1 {
        assert r[i][j - 1] == g[j - 1] && r[i][j] == g[j];
      }
    }
  }

  /** A well-formed grouping splits where the next group's first step does not join. */
  lemma GroupBoundary<I(!new)>(gs: seq<Plan<I>>, i: nat, pathOf: I -> seq<EntityId>)
    requires WellGrouped(gs, pathOf) && 0 < i < |gs|
    ensures !Joins(Last(gs[i - 1]), gs[i][0], pathOf)
  {
    assert |gs[i - 1]| > 0;
  }

  /** Inside a group of a well-formed grouping every step joins its predecessor. */
  lemma GroupInside<I(!new)>(gs: seq<Plan<I>>, i: nat, j: nat, pathOf: I -> seq<EntityId>)
    requires WellGrouped(gs, pathOf) && i < |gs| && 0 < j < |gs[i]|
    ensures Joins(gs[i][j - 1], gs[i][j], pathOf)
  {
  }

  /** The loop's grouping is the only well-formed one: any well-formed split of a plan
      into groups is what `GroupSteps` returns. */
  lemma {:induction false} GroupStepsUnique<I(!new)>(plan: Plan<I>, gs: seq<Plan<I>>, pathOf: I -> seq<EntityId>)
    requires WellGrouped(gs, pathOf) && Flatten(gs) == plan
    ensures GroupSteps(plan, pathOf) == Some(gs)
    decreases |plan|, 1
  {
    if |gs| > 0 {
      FlattenLength(gs, |gs| - 1);
      if |Last(gs)| == 1 {
        UniqueStart(plan, gs, pathOf);
      } else {
        UniqueJoin(plan, gs, pathOf);
      }
    } else {
      assert plan == [];
    }
  }

  /** The last step of a plan that alone makes up the last group opened it. */
  lemma {:induction false} UniqueStart<I(!new)>(plan: Plan<I>, gs: seq<Plan<I>>, pathOf: I -> seq<EntityId>)
    requires WellGrouped(gs, pathOf) && Flatten(gs) == plan && |gs| > 0 && |Last(gs)| == 1
    ensures GroupSteps(plan, pathOf) == Some(gs)
    decreases |plan|, 0
  {
    var front, g := gs[..|gs| - 1], Last(gs);
    assert gs == front + [g];
    FlattenSnoc(front, g);
    var init, s := plan[..|plan| - 1], Last(plan);
    assert plan == init + [s] && g == [s];
    assert Flatten(front) == init;
    DropLastGroup(gs, pathOf);
    GroupStepsUnique(init, front, pathOf);
    if |front| > 0 {
      GroupBoundary(gs, |gs| - 1, pathOf);
    }
    SnocStarts(init, s, front, pathOf);
  }

  /** The last step of a plan that shares the last group with others joined it. */
  lemma {:induction false} UniqueJoin<I(!new)>(plan: Plan<I>, gs: seq<Plan<I>>, pathOf: I -> seq<EntityId>)
    requires WellGrouped(gs, pathOf) && Flatten(gs) == plan && |gs| > 0 && |Last(gs)| > 1
    ensures GroupSteps(plan, pathOf) == Some(gs)
    decreases |plan|, 0
  {
    var front, g := gs[..|gs| - 1], Last(gs);
    var init, s := plan[..|plan| - 1], Last(plan);
    var g' := g[..|g| - 1];
    assert gs == front + [g] && g == g' + [s] && plan == init + [s] && Flatten(front + [g']) == init by {
      assert gs == front + [g];
      FlattenSnoc(front, g);
      assert plan == init + [s] && g == g' + [s];
      FlattenSnoc(front, g');
    }
    assert GroupSteps(init, pathOf) == Some(front + [g']) by {
      DropLastStep(gs, pathOf);
      GroupStepsUnique(init, front + [g'], pathOf);
    }
    assert Joins(Last(g'), s, pathOf) by {
      GroupInside(gs, |gs| - 1, |g| - 1, pathOf);
    }
    assert (front + [g'])[..|front|] == front && Last(front + [g']) == g';
    SnocJoins(init, s, front + [g'], pathOf);
  }

  /** A step that joins the last group is appended to it. */
  lemma SnocJoins<I(!new)>(init: Plan<I>, s: Step<I>, gs: seq<Plan<I>>, pathOf: I -> seq<EntityId>)
    requires GroupSteps(init, pathOf) == Some(gs)
    requires |gs| > 0 && |Last(gs)| > 0 && Joins(Last(Last(gs)), s, pathOf)
    ensures GroupSteps(init + [s], pathOf) == Some(gs[..|gs| - 1] + [Last(gs) + [s]])
  {
    assert (init + [s])[..|init|] == init;
  }

  /** A lookup that does not join the last group opens a new one. */
  lemma SnocStarts<I(!new)>(init: Plan<I>, s: Step<I>, gs: seq<Plan<I>>, pathOf: I -> seq<EntityId>)
    requires GroupSteps(init, pathOf) == Some(gs) && s.Lookup?
    requires !(|gs| > 0 && |Last(gs)| > 0 && Joins(Last(Last(gs)), s, pathOf))
    ensures GroupSteps(init + [s], pathOf) == Some(gs + [[s]])
  {
    assert (init + [s])[..|init|] == init;
  }

  /** What `costs` records for one group: the positions of its lookup indexes in the
      index list and the summed cost of all its steps. */
  datatype Entry = Entry(steps: seq<nat>, cost: real)

  /** A Ruby Hash from index position to entry: keys in insertion order, one entry per
      key. */
  type CostTable = seq<(nat, Entry)>

  function TableKeys(t: CostTable): (r: seq<nat>)
    ensures |r| == |t| && forall i :: 0 <= i < |t| ==> r[i] == t[i].0
  {
    if |t| == 0 then [] else [t[0].0] + TableKeys(t[1..])
  }

  /** `costs[q][i]`: the entry stored under `k`, if any. */
  function Get(t: CostTable, k: nat): (r: Option<Entry>)
    ensures r.Some? <==> k in TableKeys(t)
    ensures r.Some? ==> (k, r.value) in t
  {
    if |t| == 0 then None
    else if t[0].0 == k then Some(t[0].1)
    else
      assert TableKeys(t) == [t[0].0] + TableKeys(t[1..]);
      Get(t[1..], k)
  }

  /** `costs[q][k] = v`: a new key goes last, an existing key keeps its place. */
  function Put(t: CostTable, k: nat, v: Entry): (r: CostTable)
    ensures TableKeys(r) == if k in TableKeys(t) then TableKeys(t) else TableKeys(t) + [k]
  {
    if |t| == 0 then [(k, v)]
    else if t[0].0 == k then
      assert TableKeys(t) == [k] + TableKeys(t[1..]);
      assert TableKeys([(k, v)] + t[1..]) == [k] + TableKeys(t[1..]);
      [(k, v)] + t[1..]
    else
      var rest := Put(t[1..], k, v);
      assert TableKeys(t) == [t[0].0] + TableKeys(t[1..]);
      assert TableKeys([t[0]] + rest) == [t[0].0] + TableKeys(rest);
      [t[0]] + rest
  }

  /** After storing, `k` holds the new value and every other key its old one. */
  lemma {:induction false} PutGet(t: CostTable, k: nat, v: Entry, x: nat)
    ensures Get(Put(t, k, v), x) == if x == k then Some(v) else Get(t, x)
  {
    if |t| > 0 {
      var r := Put(t, k, v);
      if t[0].0 == k {
        assert r[1..] == t[1..];
      } else {
        PutGet(t[1..], k, v, x);
        assert r[1..] == Put(t[1..], k, v);
      }
    }
  }

  /** Storing the listed entries one after another. */
  function PutAll(t: CostTable, es: seq<(nat, Entry)>): CostTable
    decreases |es|
  {
    if |es| == 0 then t else PutAll(Put(t, es[0].0, es[0].1), es[1..])
  }

  /** The value of the last listed entry for `k`, if any. */
  function LastFor(es: seq<(nat, Entry)>, k: nat): Option<Entry>
    decreases |es|
  {
    if |es| == 0 then None
    else if Last(es).0 == k then Some(Last(es).1)
    else LastFor(es[..|es| - 1], k)
  }

  lemma {:induction false} LastForCons(e: (nat, Entry), es: seq<(nat, Entry)>, k: nat)
    ensures LastFor([e] + es, k) == if LastFor(es, k).Some? then LastFor(es, k) else if e.0 == k then Some(e.1) else None
    decreases |es|
  {
    var all := [e] + es;
    if |es| > 0 {
      assert all[..|all| - 1] == [e] + es[..|es| - 1];
      LastForCons(e, es[..|es| - 1], k);
    } else {
      assert all[..|all| - 1] == [];
    }
  }

  /** Later entries overwrite earlier ones: after storing a list of entries, each key
      holds the value of its last entry, and keys the list does not mention keep theirs. */
  lemma {:induction false} PutAllGet(t: CostTable, es: seq<(nat, Entry)>, k: nat)
    ensures Get(PutAll(t, es), k) == if LastFor(es, k).Some? then LastFor(es, k) else Get(t, k)
    decreases |es|
  {
    if |es| > 0 {
      PutAllGet(Put(t, es[0].0, es[0].1), es[1..], k);
      PutGet(t, es[0].0, es[0].1, k);
      LastForCons(es[0], es[1..], k);
      assert [es[0]] + es[1..] == es;
    }
  }

  /** Storing entries keeps the keys free of repeats. */
  lemma {:induction false} PutAllKeys(t: CostTable, es: seq<(nat, Entry)>)
    requires NoDup(TableKeys(t))
    ensures NoDup(TableKeys(PutAll(t, es)))
    decreases |es|
  {
    if |es| > 0 {
      var t1 := Put(t, es[0].0, es[0].1);
      if es[0].0 !in TableKeys(t) {
        NoDupConcat(TableKeys(t), [es[0].0]);
      }
      PutAllKeys(t1, es[1..]);
    }
  }

  /** The index of every lookup step, in order. */
  function LookupIndexes<I(!new)>(g: Plan<I>): (r: seq<I>)
    ensures |r| <= |g|
    ensures forall x :: x in r <==> exists k :: 0 <= k < |g| && g[k].Lookup? && g[k].index == x
  {
    if |g| == 0 then []
    else
      var rest := LookupIndexes(g[1..]);
      assert forall k :: 0 < k < |g| ==> g[k] == g[1..][k - 1];
      if g[0].Lookup? then [g[0].index] + rest else rest
  }

  /** `LookupIndexes` keeps exactly the lookup steps, in order: it maps a lookup to its
      index, any other step to nothing, and distributes over concatenation. */
  lemma {:induction false} LookupIndexesAppend<I(!new)>(a: Plan<I>, b: Plan<I>)
    ensures LookupIndexes(a + b) == LookupIndexes(a) + LookupIndexes(b)
    ensures |a| == 1 ==> LookupIndexes(a) == if a[0].Lookup? then [a[0].index] else []
  {
    if |a| > 0 {
      assert (a + b)[0] == a[0] && (a + b)[1..] == a[1..] + b;
      LookupIndexesAppend(a[1..], b);
    } else {
      assert a + b == b;
    }
  }

  /** Every index the plan looks up is in the list. */
  predicate LookupsIn<I(==, !new)>(g: Plan<I>, indexes: seq<I>) {
    forall k :: 0 <= k < |g| && g[k].Lookup? ==> g[k].index in indexes
  }

  lemma LookupsInAppend<I(!new)>(a: Plan<I>, b: Plan<I>, indexes: seq<I>)
    ensures LookupsIn(a + b, indexes) <==> LookupsIn(a, indexes) && LookupsIn(b, indexes)
  {
    assert forall k :: 0 <= k < |a| ==> (a + b)[k] == a[k];
    assert forall k :: 0 <= k < |b| ==> (a + b)[|a| + k] == b[k];
  }

  /** The plan's lookups are all in the list exactly when each group's are. */
  lemma {:induction false} LookupsInFlatten<I(!new)>(gs: seq<Plan<I>>, indexes: seq<I>)
    ensures LookupsIn(Flatten(gs), indexes) <==> forall i :: 0 <= i < |gs| ==> LookupsIn(gs[i], indexes)
  {
    if |gs| > 0 {
      LookupsInFlatten(gs[1..], indexes);
      LookupsInAppend(gs[0], Flatten(gs[1..]), indexes);
      assert forall i :: 0 < i < |gs| ==> gs[i] == gs[1..][i - 1];
    }
  }

  /** `indexes.index` of each: the first position of every listed index, or nothing
      when one is not in the list. */
  function Positions<I(==, !new)>(xs: seq<I>, indexes: seq<I>): (r: Option<seq<nat>>)
    ensures r.Some? <==> forall x :: x in xs ==> x in indexes
    ensures r.Some? ==> |r.value| == |xs|
    ensures r.Some? ==> forall k :: 0 <= k < |xs| ==>
      r.value[k] < |indexes| && indexes[r.value[k]] == xs[k] && xs[k] !in indexes[..r.value[k]]
  {
    if |xs| == 0 then Some([])
    else
      assert forall x :: x in xs <==> x == xs[0] || x in xs[1..];
      match IndexOf(indexes, xs[0])
      case None => None
      case Some(p) =>
        match Positions(xs[1..], indexes)
        case None => None
        case Some(ps) =>
          assert forall k :: 0 < k < |xs| ==> xs[1..][k - 1] == xs[k];
          Some([p] + ps)
  }

  function SumCosts<I>(g: Plan<I>): real {
    if |g| == 0 then 0.0 else g[0].cost + SumCosts(g[1..])
  }

  /** The entries of a plan's groups, in group order: each records the positions of
      the group's lookup indexes, is keyed by the first of them, and costs the sum of
      the group's steps; nothing when some group looks up an index outside the list. */
  function GroupEntries<I(==, !new)>(gs: seq<Plan<I>>, indexes: seq<I>): (r: Option<seq<(nat, Entry)>>)
    requires forall i :: 0 <= i < |gs| ==> |gs[i]| > 0 && gs[i][0].Lookup?
    ensures r.Some? <==> forall i :: 0 <= i < |gs| ==> LookupsIn(gs[i], indexes)
    ensures r.Some? ==> |r.value| == |gs|
    ensures r.Some? ==> forall i :: 0 <= i < |gs| ==>
      var e := r.value[i];
      && Positions(LookupIndexes(gs[i]), indexes) == Some(e.1.steps)
      && |e.1.steps| > 0 && e.0 == e.1.steps[0] && e.0 < |indexes|
      && indexes[e.0] == gs[i][0].index
      && e.1.cost == SumCosts(gs[i])
  {
    if |gs| == 0 then Some([])
    else
      LookupsInPositions(gs[0], indexes);
      assert forall i :: 0 < i < |gs| ==> gs[1..][i - 1] == gs[i];
      match Positions(LookupIndexes(gs[0]), indexes)
      case None => None
      case Some(ps) =>
        assert gs[0] == [gs[0][0]] + gs[0][1..];
        LookupIndexesAppend([gs[0][0]], gs[0][1..]);
        match GroupEntries(gs[1..], indexes)
        case None => None
        case Some(rest) =>
          Some([(ps[0], Entry(ps, SumCosts(gs[0])))] + rest)
  }

  /** The positions of a plan's lookups exist exactly when it looks up only listed
      indexes. */
  lemma LookupsInPositions<I(!new)>(g: Plan<I>, indexes: seq<I>)
    ensures Positions(LookupIndexes(g), indexes).Some? <==> LookupsIn(g, indexes)
  {
  }

  /** Every plan opens with a lookup (or is empty) and looks up only listed indexes. */
  predicate WellFormedPlans<I(==, !new)>(plans: seq<Plan<I>>, indexes: seq<I>) {
    forall j :: 0 <= j < |plans| ==> (|plans[j]| > 0 ==> plans[j][0].Lookup?) && LookupsIn(plans[j], indexes)
  }

  /** The entries of every plan of one statement, plan by plan; nothing when a plan
      opens with a non-lookup step or looks up an index outside the list. */
  function PlanEntries<I(==, !new)>(plans: seq<Plan<I>>, indexes: seq<I>, pathOf: I -> seq<EntityId>): (r: Option<seq<(nat, Entry)>>)
    ensures r.Some? <==> WellFormedPlans(plans, indexes)
    ensures r.Some? ==> forall j :: 0 <= j < |r.value| ==> r.value[j].0 < |indexes|
  {
    if |plans| == 0 then Some([])
    else
      WellFormedPlansCons(plans, indexes);
      match GroupSteps(plans[0], pathOf)
      case None => None
      case Some(gs) =>
        GroupStepsWellGrouped(plans[0], pathOf);
        LookupsInFlatten(gs, indexes);
        match GroupEntries(gs, indexes)
        case None => None
        case Some(es) =>
          match PlanEntries(plans[1..], indexes, pathOf)
          case None => None
          case Some(rest) => Some(es + rest)
  }

  /** A statement's entries come plan by plan: those of a list of plans are those of its
      first part followed by those of the rest. */
  lemma {:induction false} PlanEntriesAppend<I(!new)>(a: seq<Plan<I>>, b: seq<Plan<I>>, indexes: seq<I>, pathOf: I -> seq<EntityId>)
    requires WellFormedPlans(a, indexes) && WellFormedPlans(b, indexes)
    ensures WellFormedPlans(a + b, indexes)
    ensures PlanEntries(a + b, indexes, pathOf).value == PlanEntries(a, indexes, pathOf).value + PlanEntries(b, indexes, pathOf).value
  {
    WellFormedPlansAppend(a, b, indexes);
    if |a| > 0 {
      assert (a + b)[0] == a[0] && (a + b)[1..] == a[1..] + b;
      WellFormedPlansTail(a, indexes);
      PlanEntriesAppend(a[1..], b, indexes, pathOf);
    } else {
      assert a + b == b;
    }
  }

  /** A single plan's entries are those of its groups, group by group; with
      `PlanEntriesAppend` this gives a statement's entries plan by plan. */
  lemma PlanEntriesOfPlan<I(!new)>(p: Plan<I>, indexes: seq<I>, pathOf: I -> seq<EntityId>)
    requires (|p| > 0 ==> p[0].Lookup?) && LookupsIn(p, indexes)
    ensures GroupSteps(p, pathOf).Some?
    ensures WellGrouped(GroupSteps(p, pathOf).value, pathOf)
    ensures GroupEntries(GroupSteps(p, pathOf).value, indexes).Some?
    ensures PlanEntries([p], indexes, pathOf) == GroupEntries(GroupSteps(p, pathOf).value, indexes)
  {
    var gs := GroupSteps(p, pathOf).value;
    GroupStepsWellGrouped(p, pathOf);
    LookupsInFlatten(gs, indexes);
    assert [p][0] == p && [p][1..] == [];
    assert GroupEntries(gs, indexes).value + [] == GroupEntries(gs, indexes).value;
  }

  lemma WellFormedPlansAppend<I(!new)>(a: seq<Plan<I>>, b: seq<Plan<I>>, indexes: seq<I>)
    requires WellFormedPlans(a, indexes) && WellFormedPlans(b, indexes)
    ensures WellFormedPlans(a + b, indexes)
  {
    assert forall j :: 0 <= j < |a| ==> (a + b)[j] == a[j];
    assert forall j :: 0 <= j < |b| ==> (a + b)[|a| + j] == b[j];
  }

  lemma WellFormedPlansCons<I(!new)>(plans: seq<Plan<I>>, indexes: seq<I>)
    requires |plans| > 0
    ensures WellFormedPlans(plans, indexes) <==>
      && (|plans[0]| > 0 ==> plans[0][0].Lookup?) && LookupsIn(plans[0], indexes)
      && WellFormedPlans(plans[1..], indexes)
  {
    assert forall j :: 0 < j < |plans| ==> plans[1..][j - 1] == plans[j];
  }

  lemma WellFormedPlansTail<I(!new)>(a: seq<Plan<I>>, indexes: seq<I>)
    requires WellFormedPlans(a, indexes) && |a| > 0
    ensures WellFormedPlans(a[1..], indexes)
  {
    assert forall j :: 0 < j < |a| ==> a[1..][j - 1] == a[j];
  }

  /** What the search knows of one statement: the planner's plans for it and the
      number of entities on its longest entity path. */
  datatype QueryInfo<I> = QueryInfo(plans: seq<Plan<I>>, pathLength: nat)

  /** `costs`: per statement, its entries stored in order into an empty table; nothing
      when some plan is malformed. */
  function Costs<I(==, !new)>(queries: seq<QueryInfo<I>>, indexes: seq<I>, pathOf: I -> seq<EntityId>): (r: Option<seq<CostTable>>)
    ensures r.Some? <==> forall q :: 0 <= q < |queries| ==> WellFormedPlans(queries[q].plans, indexes)
    ensures r.Some? ==> |r.value| == |queries|
  {
    if |queries| == 0 then Some([])
    else
      assert forall q :: 0 < q < |queries| ==> queries[1..][q - 1] == queries[q];
      match PlanEntries(queries[0].plans, indexes, pathOf)
      case None => None
      case Some(es) =>
        match Costs(queries[1..], indexes, pathOf)
        case None => None
        case Some(rest) => Some([PutAll([], es)] + rest)
  }

  /** Each statement's table holds, for every index position, the entry of the last
      group (over all its plans, in order) that starts with that index, and its keys are
      free of repeats. */
  lemma {:induction false} CostsLatestWins<I(!new)>(queries: seq<QueryInfo<I>>, indexes: seq<I>, pathOf: I -> seq<EntityId>, q: nat, k: nat)
    requires Costs(queries, indexes, pathOf).Some? && q < |queries|
    ensures PlanEntries(queries[q].plans, indexes, pathOf).Some?
    ensures var t := Costs(queries, indexes, pathOf).value[q];
      && Get(t, k) == LastFor(PlanEntries(queries[q].plans, indexes, pathOf).value, k)
      && NoDup(TableKeys(t))
  {
    var es := PlanEntries(queries[0].plans, indexes, pathOf).value;
    if q == 0 {
      PutAllGet([], es, k);
      PutAllKeys([], es);
    } else {
      CostsLatestWins(queries[1..], indexes, pathOf, q - 1, k);
    }
  }

  /** The program's 0/1 variables: whether index `i` is selected, and whether statement
      `q` uses index `i`. */
  datatype Var = Select(i: nat) | Use(i: nat, q: nat)

  datatype Term = Term(coef: real, v: Var)

  datatype Cmp = AtMost | Exactly

  /** A linear constraint: the sum of its terms compared with the right-hand side. */
  datatype Constraint = Constraint(terms: seq<Term>, cmp: Cmp, rhs: real)

  /** `max_space`: a finite budget, or `Float::INFINITY`. */
  datatype Bound = Finite(limit: real) | Unbounded

  /** The constraints, in the order they are added, and the terms of the objective to
      minimize. */
  datatype Problem = Problem(constraints: seq<Constraint>, objective: seq<Term>)

  /** The value of a sum of terms under an assignment of the variables. */
  function Eval(ts: seq<Term>, a: Var -> real): real {
    if |ts| == 0 then 0.0 else ts[0].coef * a(ts[0].v) + Eval(ts[1..], a)
  }

  lemma EvalPair(t1: Term, t2: Term, a: Var -> real)
    ensures Eval([t1, t2], a) == t1.coef * a(t1.v) + t2.coef * a(t2.v)
  {
    assert [t1, t2][1..] == [t2];
    assert [t2][1..] == [];
    assert Eval([t2], a) == t2.coef * a(t2.v) + Eval([], a);
  }

  predicate Holds(c: Constraint, a: Var -> real) {
    match c.cmp
    case AtMost => Eval(c.terms, a) <= c.rhs
    case Exactly => Eval(c.terms, a) == c.rhs
  }

  /** The assignment meets every constraint. */
  predicate Feasible(p: Problem, a: Var -> real) {
    forall c :: c in p.constraints ==> Holds(c, a)
  }

  /** `usage[i][q] - select[i] <= 0`. */
  function UsageConstraint(i: nat, q: nat): Constraint {
    Constraint([Term(1.0, Use(i, q)), Term(-1.0, Select(i))], AtMost, 0.0)
  }

  function UsageRow(i: nat, nq: nat): (r: seq<Constraint>)
    ensures |r| == nq && forall q :: 0 <= q < nq ==> r[q] == UsageConstraint(i, q)
  {
    seq(nq, q requires 0 <= q => UsageConstraint(i, q))
  }

  /** The usage constraints of every index and statement, index by index. */
  function UsageConstraints(n: nat, nq: nat): seq<Constraint> {
    Flatten(seq(n, i requires 0 <= i => UsageRow(i, nq)))
  }

  /** There is one usage constraint for each pair of an index and a statement, and no
      other. */
  lemma UsageConstraintsMembers(n: nat, nq: nat, c: Constraint)
    ensures c in UsageConstraints(n, nq) <==> exists i: nat, q: nat :: i < n && q < nq && c == UsageConstraint(i, q)
  {
    var rows := seq(n, i requires 0 <= i => UsageRow(i, nq));
    if c in UsageConstraints(n, nq) {
      var row :| row in rows && c in row;
      var i :| 0 <= i < n && rows[i] == row;
      var q :| 0 <= q < nq && row[q] == c;
    }
    if exists i: nat, q: nat :: i < n && q < nq && c == UsageConstraint(i, q) {
      var i: nat, q: nat :| i < n && q < nq && c == UsageConstraint(i, q);
      assert rows[i][q] == c;
      assert rows[i] in rows;
    }
  }

  /** `select[i] * size(i)` for every index from position `from` on. */
  function SpaceTerms(sizes: seq<nat>, from: nat): (r: seq<Term>)
    requires from <= |sizes|
    ensures |r| == |sizes| - from
    ensures forall k :: 0 <= k < |r| ==> r[k] == Term(sizes[from + k] as real, Select(from + k))
    decreases |sizes| - from
  {
    if from == |sizes| then [] else [Term(sizes[from] as real, Select(from))] + SpaceTerms(sizes, from + 1)
  }

  /** The space taken by the selected indexes from position `from` on. */
  function SpaceUsed(sizes: seq<nat>, a: Var -> real, from: nat): real
    requires from <= |sizes|
    decreases |sizes| - from
  {
    if from == |sizes| then 0.0 else sizes[from] as real * a(Select(from)) + SpaceUsed(sizes, a, from + 1)
  }

  lemma {:induction false} SpaceTermsValue(sizes: seq<nat>, a: Var -> real, from: nat)
    requires from <= |sizes|
    ensures Eval(SpaceTerms(sizes, from), a) == SpaceUsed(sizes, a, from)
    decreases |sizes| - from
  {
    if from < |sizes| {
      SpaceTermsValue(sizes, a, from + 1);
      assert SpaceTerms(sizes, from)[1..] == SpaceTerms(sizes, from + 1);
    }
  }

  /** The space constraint, present exactly when the budget is finite. */
  function SpaceConstraints(sizes: seq<nat>, bound: Bound): seq<Constraint> {
    match bound
    case Finite(limit) => [Constraint(SpaceTerms(sizes, 0), AtMost, limit)]
    case Unbounded => []
  }

  /** `var1 - var2 == 0` for every two consecutive indexes of a group's lookups. */
  function TieConstraints(steps: seq<nat>, q: nat): (r: seq<Constraint>)
    ensures |r| == if |steps| < 2 then 0 else |steps| - 1
    ensures forall k :: 0 <= k < |r| ==>
      r[k] == Constraint([Term(1.0, Use(steps[k], q)), Term(-1.0, Use(steps[k + 1], q))], Exactly, 0.0)
  {
    if |steps| < 2 then []
    else
      [Constraint([Term(1.0, Use(steps[0], q)), Term(-1.0, Use(steps[1], q))], Exactly, 0.0)]
      + TieConstraints(steps[1..], q)
  }

  /** The tie constraints of every recorded group of statement `q`, in table order. */
  function TableTies(t: CostTable, q: nat): seq<Constraint> {
    if |t| == 0 then [] else TieConstraints(t[0].1.steps, q) + TableTies(t[1..], q)
  }

  /** Every key is a position below `n`. */
  predicate KeysBelow(t: CostTable, n: nat) {
    forall j :: 0 <= j < |t| ==> t[j].0 < n
  }

  /** One `usage[i][q]` term for each time part `part` occurs in the range of a recorded
      index `i`, in table order. */
  function CoverTerms<I>(t: CostTable, indexes: seq<I>, q: nat, part: nat, rangeOf: (I, nat) -> seq<nat>): seq<Term>
    requires KeysBelow(t, |indexes|)
  {
    if |t| == 0 then []
    else
      var i := t[0].0;
      seq(|Filter(rangeOf(indexes[i], q), x => x == part)|, _ => Term(1.0, Use(i, q)))
      + CoverTerms(t[1..], indexes, q, part, rangeOf)
  }

  /** Storing entries under positions below `n` keeps every key below `n`. */
  lemma {:induction false} PutAllKeysBelow(t: CostTable, es: seq<(nat, Entry)>, n: nat)
    requires KeysBelow(t, n) && forall j :: 0 <= j < |es| ==> es[j].0 < n
    ensures KeysBelow(PutAll(t, es), n)
    decreases |es|
  {
    if |es| > 0 {
      var t1 := Put(t, es[0].0, es[0].1);
      assert forall j :: 0 <= j < |t| ==> TableKeys(t)[j] < n;
      assert forall j :: 0 <= j < |t1| ==> TableKeys(t1)[j] < n;
      PutAllKeysBelow(t1, es[1..], n);
    }
  }

  /** Every recorded key is a position in the index list. */
  lemma {:induction false} CostsKeysBelow<I(!new)>(queries: seq<QueryInfo<I>>, indexes: seq<I>, pathOf: I -> seq<EntityId>)
    requires Costs(queries, indexes, pathOf).Some?
    ensures forall q :: 0 <= q < |queries| ==> KeysBelow(Costs(queries, indexes, pathOf).value[q], |indexes|)
  {
    if |queries| > 0 {
      var es := PlanEntries(queries[0].plans, indexes, pathOf).value;
      PutAllKeysBelow([], es, |indexes|);
      CostsKeysBelow(queries[1..], indexes, pathOf);
    }
  }

  /** The tie constraints followed by one `= 1` constraint per entity of the longest
      entity path, each summing the usage of the recorded indexes whose range covers
      that entity. */
  function QueryConstraints<I>(t: CostTable, indexes: seq<I>, q: nat, pathLength: nat, rangeOf: (I, nat) -> seq<nat>): seq<Constraint>
    requires KeysBelow(t, |indexes|)
  {
    TableTies(t, q) + seq(pathLength, p requires 0 <= p => Constraint(CoverTerms(t, indexes, q, p, rangeOf), Exactly, 1.0))
  }

  /** Every range part a recorded index covers lies on the path; a part beyond it has no
      expression to add to, which the source meets with an error. */
  predicate RangesFit<I>(t: CostTable, indexes: seq<I>, q: nat, pathLength: nat, rangeOf: (I, nat) -> seq<nat>)
    requires KeysBelow(t, |indexes|)
  {
    forall j :: 0 <= j < |t| ==> forall p :: p in rangeOf(indexes[t[j].0], q) ==> p < pathLength
  }

  /** The constraints of statements `q` onwards. */
  function QueriesConstraints<I>(costs: seq<CostTable>, queries: seq<QueryInfo<I>>, indexes: seq<I>,
                                 rangeOf: (I, nat) -> seq<nat>, q: nat): seq<Constraint>
    requires |costs| == |queries| && q <= |costs|
    requires forall k :: 0 <= k < |costs| ==> KeysBelow(costs[k], |indexes|)
    decreases |costs| - q
  {
    if q == |costs| then []
    else QueryConstraints(costs[q], indexes, q, queries[q].pathLength, rangeOf)
         + QueriesConstraints(costs, queries, indexes, rangeOf, q + 1)
  }

  /** `usage[i][q] * cost` when statement `q` recorded a cost for index `i`. */
  function CostTermAt(costs: seq<CostTable>, i: nat, q: nat): Option<Term> {
    if q < |costs| then
      match Get(costs[q], i)
      case Some(e) => Some(Term(e.cost, Use(i, q)))
      case None => None
    else None
  }

  /** The objective terms of index `i`, statement by statement. */
  function ObjectiveRow(costs: seq<CostTable>, i: nat): seq<Term> {
    FilterMap(Upto(|costs|), (q: nat) => CostTermAt(costs, i, q))
  }

  /** The objective terms of the first `n` indexes, index by index. */
  function ObjectiveTerms(costs: seq<CostTable>, n: nat): seq<Term> {
    ConcatMap(Upto(n), (i: nat) => ObjectiveRow(costs, i))
  }

  /** `index.size` of every index, in order. */
  function Sizes<I>(indexes: seq<I>, sizeOf: I -> nat): (r: seq<nat>)
    ensures |r| == |indexes| && forall i :: 0 <= i < |indexes| ==> r[i] == sizeOf(indexes[i])
  {
    seq(|indexes|, i requires 0 <= i < |indexes| => sizeOf(indexes[i]))
  }

  /** `solve_gurobi`'s model: the usage constraints, the space constraint when the budget
      is finite, then each statement's constraints; nothing when some recorded range
      leaves its statement's path. */
  function BuildProblem<I>(indexes: seq<I>, sizeOf: I -> nat, bound: Bound, costs: seq<CostTable>,
                           queries: seq<QueryInfo<I>>, rangeOf: (I, nat) -> seq<nat>): (r: Option<Problem>)
    requires |costs| == |queries|
    requires forall k :: 0 <= k < |costs| ==> KeysBelow(costs[k], |indexes|)
    ensures r.None? <==>
      exists q :: 0 <= q < |costs| && !RangesFit(costs[q], indexes, q, queries[q].pathLength, rangeOf)
  {
    if exists q :: 0 <= q < |costs| && !RangesFit(costs[q], indexes, q, queries[q].pathLength, rangeOf) then None
    else
      Some(Problem(
        UsageConstraints(|indexes|, |queries|) + SpaceConstraints(Sizes(indexes, sizeOf), bound)
          + QueriesConstraints(costs, queries, indexes, rangeOf, 0),
        ObjectiveTerms(costs, |indexes|)))
  }

  /** Gurobi's status code for a proven optimum. */
  const Optimal := 2

  /** What the solver reports: its status and the value of every variable. */
  datatype Solution = Solution(status: int, value: Var -> real)

  datatype SearchError = NoSolution | MalformedPlan

  /** The indexes from position `from` on whose selection variable is exactly 1.0, in
      their original order. */
  function Chosen<I>(indexes: seq<I>, value: Var -> real, from: nat): (r: seq<I>)
    requires from <= |indexes|
    ensures IsSubseq(r, indexes[from..])
    ensures forall j :: from <= j < |indexes| && value(Select(j)) == 1.0 ==> indexes[j] in r
    ensures forall y :: y in r ==> exists j :: from <= j < |indexes| && value(Select(j)) == 1.0 && indexes[j] == y
    decreases |indexes| - from
  {
    if from == |indexes| then []
    else
      var rest := Chosen(indexes, value, from + 1);
      assert indexes[from..][1..] == indexes[from + 1..];
      if value(Select(from)) == 1.0 then [indexes[from]] + rest else rest
  }

  /** The end of `solve_gurobi`: no solution unless the solver proved an optimum,
      otherwise the selected indexes. */
  function SolveResult<I>(indexes: seq<I>, sol: Solution): (r: Result<seq<I>, SearchError>)
    ensures r.Failure? <==> sol.status != Optimal
    ensures r.Failure? ==> r.error == NoSolution
    ensures r.Success? ==> r.value == Chosen(indexes, sol.value, 0)
  {
    if sol.status != Optimal then Failure(NoSolution) else Success(Chosen(indexes, sol.value, 0))
  }

  /** `search_overlap` over a given index list: nothing to choose from gives nothing
      without consulting the solver; otherwise the plans are costed, the program built
      and handed to `solver`, and its answer read back. A malformed plan or range, which
      the source meets with an error, gives `MalformedPlan`. */
  function SearchOverlap<I(==, !new)>(indexes: seq<I>, sizeOf: I -> nat, bound: Bound, queries: seq<QueryInfo<I>>,
                                      pathOf: I -> seq<EntityId>, rangeOf: (I, nat) -> seq<nat>,
                                      solver: Problem -> Solution): (r: Result<seq<I>, SearchError>)
    ensures |indexes| == 0 ==> r == Success([])
    ensures r.Success? ==> IsSubseq(r.value, indexes)
    ensures r == Failure(MalformedPlan) ==> |indexes| > 0
  {
    if |indexes| == 0 then Success([])
    else
      match Costs(queries, indexes, pathOf)
      case None => Failure(MalformedPlan)
      case Some(costs) =>
        CostsKeysBelow(queries, indexes, pathOf);
        match BuildProblem(indexes, sizeOf, bound, costs, queries, rangeOf)
        case None => Failure(MalformedPlan)
        case Some(problem) =>
          assert indexes[0..] == indexes;
          SolveResult(indexes, solver(problem))
  }

  /** The plans can be costed, and every range a recorded index covers lies on its
      statement's path, so the program can be built. */
  predicate PlansFit<I(==, !new)>(indexes: seq<I>, queries: seq<QueryInfo<I>>, pathOf: I -> seq<EntityId>,
                                 rangeOf: (I, nat) -> seq<nat>) {
    var c := Costs(queries, indexes, pathOf);
    && c.Some?
    && forall q :: 0 <= q < |queries| ==>
         KeysBelow(c.value[q], |indexes|) && RangesFit(c.value[q], indexes, q, queries[q].pathLength, rangeOf)
  }

  /** `search_overlap` fails with `MalformedPlan` exactly when there are indexes to
      choose from and a plan is malformed or a range leaves its path; otherwise, with
      indexes to choose from, its answer is the solver's answer to the built program,
      read back. */
  lemma SearchOverlapOutcome<I(!new)>(indexes: seq<I>, sizeOf: I -> nat, bound: Bound, queries: seq<QueryInfo<I>>,
                                      pathOf: I -> seq<EntityId>, rangeOf: (I, nat) -> seq<nat>,
                                      solver: Problem -> Solution)
    ensures SearchOverlap(indexes, sizeOf, bound, queries, pathOf, rangeOf, solver) == Failure(MalformedPlan)
            <==> |indexes| > 0 && !PlansFit(indexes, queries, pathOf, rangeOf)
    ensures |indexes| > 0 && PlansFit(indexes, queries, pathOf, rangeOf) ==>
            var costs := Costs(queries, indexes, pathOf).value;
            SearchOverlap(indexes, sizeOf, bound, queries, pathOf, rangeOf, solver)
            == SolveResult(indexes, solver(BuildProblem(indexes, sizeOf, bound, costs, queries, rangeOf).value))
  {
    if |indexes| > 0 && Costs(queries, indexes, pathOf).Some? {
      CostsKeysBelow(queries, indexes, pathOf);
    }
  }

  lemma {:induction false} TableTiesContain(t: CostTable, q: nat, j: nat, c: Constraint)
    requires j < |t| && c in TieConstraints(t[j].1.steps, q)
    ensures c in TableTies(t, q)
  {
    if j > 0 {
      TableTiesContain(t[1..], q, j - 1, c);
    }
  }

  lemma {:induction false} QueriesConstraintsContain<I>(costs: seq<CostTable>, queries: seq<QueryInfo<I>>, indexes: seq<I>,
                                                        rangeOf: (I, nat) -> seq<nat>, from: nat, q: nat, c: Constraint)
    requires |costs| == |queries| && from <= q < |costs|
    requires forall k :: 0 <= k < |costs| ==> KeysBelow(costs[k], |indexes|)
    requires c in QueryConstraints(costs[q], indexes, q, queries[q].pathLength, rangeOf)
    ensures c in QueriesConstraints(costs, queries, indexes, rangeOf, from)
    decreases q - from
  {
    var here := QueryConstraints(costs[from], indexes, from, queries[from].pathLength, rangeOf);
    assert QueriesConstraints(costs, queries, indexes, rangeOf, from)
        == here + QueriesConstraints(costs, queries, indexes, rangeOf, from + 1);
    if from < q {
      QueriesConstraintsContain(costs, queries, indexes, rangeOf, from + 1, q, c);
    }
  }

  /** A feasible assignment never lets a statement use an index that is not selected. */
  lemma FeasibleUsesSelected<I>(indexes: seq<I>, sizeOf: I -> nat, bound: Bound, costs: seq<CostTable>,
                                queries: seq<QueryInfo<I>>, rangeOf: (I, nat) -> seq<nat>, a: Var -> real, i: nat, q: nat)
    requires |costs| == |queries|
    requires forall k :: 0 <= k < |costs| ==> KeysBelow(costs[k], |indexes|)
    requires BuildProblem(indexes, sizeOf, bound, costs, queries, rangeOf).Some?
    requires Feasible(BuildProblem(indexes, sizeOf, bound, costs, queries, rangeOf).value, a)
    requires i < |indexes| && q < |queries|
    ensures a(Use(i, q)) <= a(Select(i))
  {
    var c := UsageConstraint(i, q);
    UsageConstraintsMembers(|indexes|, |queries|, c);
    assert Holds(c, a);
    EvalPair(c.terms[0], c.terms[1], a);
  }

  /** With a finite budget, a feasible assignment selects indexes whose sizes add up to
      no more than the budget. */
  lemma FeasibleWithinBudget<I>(indexes: seq<I>, sizeOf: I -> nat, limit: real, costs: seq<CostTable>,
                                queries: seq<QueryInfo<I>>, rangeOf: (I, nat) -> seq<nat>, a: Var -> real)
    requires |costs| == |queries|
    requires forall k :: 0 <= k < |costs| ==> KeysBelow(costs[k], |indexes|)
    requires BuildProblem(indexes, sizeOf, Finite(limit), costs, queries, rangeOf).Some?
    requires Feasible(BuildProblem(indexes, sizeOf, Finite(limit), costs, queries, rangeOf).value, a)
    ensures SpaceUsed(Sizes(indexes, sizeOf), a, 0) <= limit
  {
    var sizes := Sizes(indexes, sizeOf);
    var c := Constraint(SpaceTerms(sizes, 0), AtMost, limit);
    assert c in BuildProblem(indexes, sizeOf, Finite(limit), costs, queries, rangeOf).value.constraints;
    SpaceTermsValue(sizes, a, 0);
  }

  /** Every tie constraint of a recorded group is in the program, so a feasible
      assignment gives all indexes of the group the same usage for that statement. */
  lemma FeasibleTiesEqual<I>(indexes: seq<I>, sizeOf: I -> nat, bound: Bound, costs: seq<CostTable>,
                             queries: seq<QueryInfo<I>>, rangeOf: (I, nat) -> seq<nat>, a: Var -> real, q: nat, j: nat)
    requires |costs| == |queries|
    requires forall k :: 0 <= k < |costs| ==> KeysBelow(costs[k], |indexes|)
    requires BuildProblem(indexes, sizeOf, bound, costs, queries, rangeOf).Some?
    requires Feasible(BuildProblem(indexes, sizeOf, bound, costs, queries, rangeOf).value, a)
    requires q < |costs| && j < |costs[q]|
    ensures var steps := costs[q][j].1.steps;
      forall k :: 0 <= k < |steps| ==> a(Use(steps[k], q)) == a(Use(steps[0], q))
  {
    var p := BuildProblem(indexes, sizeOf, bound, costs, queries, rangeOf).value;
    var steps := costs[q][j].1.steps;
    var ties := TieConstraints(steps, q);
    forall k | 0 <= k < |ties|
      ensures a(Use(steps[k], q)) == a(Use(steps[k + 1], q))
    {
      TableTiesContain(costs[q], q, j, ties[k]);
      QueriesConstraintsContain(costs, queries, indexes, rangeOf, 0, q, ties[k]);
      assert Holds(ties[k], a);
      EvalPair(Term(1.0, Use(steps[k], q)), Term(-1.0, Use(steps[k + 1], q)), a);
    }
    ChainEqual(steps, q, a);
  }

  lemma {:induction false} ChainEqual(steps: seq<nat>, q: nat, a: Var -> real)
    requires forall k :: 0 <= k < |steps| - 1 ==> a(Use(steps[k], q)) == a(Use(steps[k + 1], q))
    ensures forall k :: 0 <= k < |steps| ==> a(Use(steps[k], q)) == a(Use(steps[0], q))
  {
    if |steps| > 1 {
      ChainEqual(steps[..|steps| - 1], q, a);
      assert a(Use(steps[|steps| - 2], q)) == a(Use(steps[|steps| - 1], q));
    }
  }

  lemma {:induction false} EvalNonZero(ts: seq<Term>, a: Var -> real)
    requires Eval(ts, a) != 0.0
    ensures exists t :: t in ts && t.coef * a(t.v) != 0.0
  {
    if ts[0].coef * a(ts[0].v) == 0.0 {
      EvalNonZero(ts[1..], a);
      var t :| t in ts[1..] && t.coef * a(t.v) != 0.0;
      assert t in ts;
    }
  }

  /** The coverage expression of a part sums the usage of exactly the recorded indexes
      whose range covers that part. */
  lemma {:induction false} CoverTermsMembers<I>(t: CostTable, indexes: seq<I>, q: nat, part: nat,
                                                rangeOf: (I, nat) -> seq<nat>, x: Term)
    requires KeysBelow(t, |indexes|)
    ensures x in CoverTerms(t, indexes, q, part, rangeOf) <==>
      exists j :: 0 <= j < |t| && x == Term(1.0, Use(t[j].0, q)) && part in rangeOf(indexes[t[j].0], q)
  {
    if |t| > 0 {
      var i := t[0].0;
      var hits := Filter(rangeOf(indexes[i], q), y => y == part);
      var head := seq(|hits|, _ => Term(1.0, Use(i, q)));
      CoverTermsMembers(t[1..], indexes, q, part, rangeOf, x);
      assert CoverTerms(t, indexes, q, part, rangeOf) == head + CoverTerms(t[1..], indexes, q, part, rangeOf);
      if x in head {
        assert hits[0] in hits;
      }
      if exists j :: 0 <= j < |t| && x == Term(1.0, Use(t[j].0, q)) && part in rangeOf(indexes[t[j].0], q) {
        var j :| 0 <= j < |t| && x == Term(1.0, Use(t[j].0, q)) && part in rangeOf(indexes[t[j].0], q);
        if j == 0 {
          assert part in hits;
          assert head[0] == x;
        } else {
          assert t[1..][j - 1] == t[j];
        }
      }
    }
  }

  /** A feasible assignment uses, for every entity of a statement's longest path, some
      recorded index whose range covers that entity. */
  lemma FeasibleCovers<I>(indexes: seq<I>, sizeOf: I -> nat, bound: Bound, costs: seq<CostTable>,
                          queries: seq<QueryInfo<I>>, rangeOf: (I, nat) -> seq<nat>, a: Var -> real, q: nat, part: nat)
    requires |costs| == |queries|
    requires forall k :: 0 <= k < |costs| ==> KeysBelow(costs[k], |indexes|)
    requires BuildProblem(indexes, sizeOf, bound, costs, queries, rangeOf).Some?
    requires Feasible(BuildProblem(indexes, sizeOf, bound, costs, queries, rangeOf).value, a)
    requires q < |costs| && part < queries[q].pathLength
    ensures exists j :: 0 <= j < |costs[q]| && part in rangeOf(indexes[costs[q][j].0], q) && a(Use(costs[q][j].0, q)) != 0.0
  {
    var terms := CoverTerms(costs[q], indexes, q, part, rangeOf);
    var c := Constraint(terms, Exactly, 1.0);
    var covers := seq(queries[q].pathLength, p requires 0 <= p => Constraint(CoverTerms(costs[q], indexes, q, p, rangeOf), Exactly, 1.0));
    assert covers[part] == c;
    assert c in QueryConstraints(costs[q], indexes, q, queries[q].pathLength, rangeOf);
    QueriesConstraintsContain(costs, queries, indexes, rangeOf, 0, q, c);
    assert Holds(c, a);
    EvalNonZero(terms, a);
    var x :| x in terms && x.coef * a(x.v) != 0.0;
    CoverTermsMembers(costs[q], indexes, q, part, rangeOf, x);
    var j :| 0 <= j < |costs[q]| && x == Term(1.0, Use(costs[q][j].0, q)) && part in rangeOf(indexes[costs[q][j].0], q);
  }

  /** `x` is the objective term of index `i` in statement `q`: its usage weighted by the
      cost the statement recorded for the index. */
  predicate CostTerm(costs: seq<CostTable>, i: nat, q: nat, x: Term) {
    q < |costs| && Get(costs[q], i).Some? && x == Term(Get(costs[q], i).value.cost, Use(i, q))
  }

  /** The objective has a `usage[i][q] * cost` term for exactly the pairs of an index and
      a statement that recorded a cost for it. */
  lemma ObjectiveMembers(costs: seq<CostTable>, n: nat, x: Term)
    ensures x in ObjectiveTerms(costs, n) <==> exists i: nat, q: nat :: i < n && CostTerm(costs, i, q, x)
  {
    ConcatMapMembers(Upto(n), (i: nat) => ObjectiveRow(costs, i), x);
    if x in ObjectiveTerms(costs, n) {
      var i :| i in Upto(n) && x in ObjectiveRow(costs, i);
      ObjectiveRowSound(costs, i, x);
    }
    if exists i: nat, q: nat :: i < n && CostTerm(costs, i, q, x) {
      var i: nat, q: nat :| i < n && CostTerm(costs, i, q, x);
      ObjectiveRowComplete(costs, i, q, x);
      assert i in Upto(n);
    }
  }

  lemma ObjectiveRowSound(costs: seq<CostTable>, i: nat, x: Term)
    requires x in ObjectiveRow(costs, i)
    ensures exists q: nat :: CostTerm(costs, i, q, x)
  {
    var q :| q in Upto(|costs|) && CostTermAt(costs, i, q) == Some(x);
    assert CostTerm(costs, i, q, x);
  }

  lemma ObjectiveRowComplete(costs: seq<CostTable>, i: nat, q: nat, x: Term)
    requires CostTerm(costs, i, q, x)
    ensures x in ObjectiveRow(costs, i)
  {
    assert q in Upto(|costs|) && CostTermAt(costs, i, q) == Some(x);
  }
}
